=== FILE: README.md ===
# Expense tracker: a Dafny model of the routes, the schema and the client logic

This project models the logic of a MERN expense tracker. The Express
server keeps one collection of expense documents. It also has
sign-up, sign-in and current-user routes, guarded by a JSON Web Token
middleware. The React client shows that data on five pages:

- a dashboard;
- a reports page with date and category filters;
- an expense list with a delete dialog;
- an add/edit form;
- a sign-in / sign-up page, backed by a session provider that mirrors
  the token and the user in local storage.

The model keeps the server's and the client's rules:

- the schema's validators and its pre-save hook;
- each route's status codes and bodies;
- the statistics pipeline;
- the client's filters, groupings, cutoffs, colour tables, form
  checks and error texts;
- the session state machine.

All of it is written as immutable datatypes and pure functions over
sequences and maps. There are a few methods, each with a loop.

Modules, in dependency order:

| module | file | what it holds |
|---|---|---|
| `Wrappers` | wrappers.dfy | `Option` and `Result` |
| `Text` | text.dfy | JavaScript `trim`, `startsWith`, `indexOf`/`includes`, `replace`, UTF-8 and UTF-16 lengths |
| `Calendar` | calendar.dfy | instants in epoch milliseconds, UTC days, civil dates (days-from-civil and its inverse), month indexes, ECMAScript MakeDay |
| `ObjectIds` | object_id.dfy | 12-byte ObjectIds, their hex text, and the string-to-ObjectId cast |
| `Credentials` | credentials.dfy | bcrypt over the 72-byte effective key, and an ideal JWT signer/verifier with a 7-day lifetime |
| `AuthMiddleware` | auth_middleware.dfy | the bearer-token middleware |
| `AuthRoutes` | auth_routes.dfy | `POST /signup`, `POST /signin`, `GET /user` |
| `ExpenseModel` | expense_model.dfy | the expense schema: the `Valid` invariant, the validators with their messages, and the pre-save hook |
| `Aggregation` | aggregation.dfy | sums, filters, grouping into buckets, stable sort, the breakdown specification |
| `ExpenseRoutes` | expense_routes.dfy | the six `/api/expenses` routes over a map from id to document |
| `Palette` | palette.dfy | the two category colour tables |
| `Reports` | reports.dfy | date cutoffs, filters, category data, summary cards, six-month comparison |
| `Dashboard` | dashboard.dfy | cards, pie data, recent entries, monthly bars, 30-day trend |
| `ExpenseForm` | expense_form.dfy | the form, the amount's text and `parseFloat` of it, the payload, and submit |
| `ExpenseList` | expense_list.dfy | the delete dialog and the list update |
| `AuthContext` | auth_context.dfy | storage, `persist`/`clear`, the sign-in/sign-up completion, the mount-time validation, `useAuth` |
| `AuthPage` | auth_page.dfy | the redirect target, the form checks, the error-message priority, submit |

Conventions:

- **Amounts.** Integers in hundredths of the currency unit. The form's amount text is written in the unit itself, with up to two decimals (`step="0.01"`); `toString` and `parseFloat` convert between the two.
- **Dates.**
  - Instants are epoch milliseconds.
  - Every calendar computation is done in UTC.
  - `$year`/`$month` and `getFullYear`/`getMonth` go through an integer
    civil-from-days decomposition (400-year eras). The model proves it is
    the inverse of days-from-civil.
- **The collection.** A `map<ObjectId, Expense>`. The listing and the
  statistics read it through a method that picks every document once, in
  an arbitrary order. Everything the model promises about them holds for
  every order.
- **Casting strings to ObjectIds.** This depends on the BSON driver, so
  `CastRule` names both behaviours:
  - `HexOnly`: current drivers, which accept only 24 hex digits;
  - `HexOrTwelveBytes`: older drivers, which also take a 12-byte string
    as the raw id.

  The wording of a failed cast differs between Mongoose versions, so the
  model keeps only the opening they share,
  `Cast to ObjectId failed for value "<text>"`.
- **Updates.** `findByIdAndUpdate` is read as Mongoose 6 or later does it:
  a key whose value is `undefined` is dropped from the update, so the
  stored field is kept. A key sent as `null` is kept in the update. It
  clears the field, and `runValidators` then fails that field's
  `required` check. Mongoose 5 instead wrote `undefined` keys as `null`
  unless `omitUndefined` was set; that version is not modelled.

  The create route stores the placeholder owner `"default-user"`. It is 12
  ASCII characters, so under `HexOnly` every create fails with a cast error
  (`ExpenseRoutes.CreateAlwaysFailsUnderHexOnly`). Under
  `HexOrTwelveBytes` it succeeds whenever the fields are valid
  (`ExpenseRoutes.CreateUnderLegacyCast`).
- **The auth routes.** Modelled as standalone handlers. The server file
  mounts only the expense router (backend/server.js:36-37), and the expense
  routes do not use the middleware.

## Model

| member | source | states |
|---|---|---|
| `Text.TrimSpec` | backend/models/Expense.js:21-26 | `trim` returns a contiguous slice with no whitespace at either end, and every character cut away is ECMAScript white space or a line terminator |
| `Text.Trim` | backend/models/Expense.js:24 | `trim` never lengthens a string and leaves no ECMAScript white space or line terminator at either end; `TrimSpec` adds that the result is the slice between the characters cut away |
| `Text.TrimIdempotent` | backend/models/Expense.js:24 | trimming a trimmed description changes nothing, so the setter and the validator see the same text |
| `Text.IndexOf` | frontend/src/pages/AuthPage.jsx:146 | `indexOf` returns the first position where the pattern occurs, or -1 exactly when it occurs nowhere; `includes` is built on it |
| `Text.ReplacePrefix` | backend/middleware/auth.js:15 | when a header starts with `Bearer `, replacing the first `Bearer ` with nothing cuts exactly that prefix |
| `AuthMiddleware.TokenOf` | backend/middleware/auth.js:15 | the token has no white space at either end; when the header starts with `Bearer `, it is the rest of the header after that prefix, trimmed |
| `Text.Utf16LengthOfAstral` | backend/models/Expense.js:25 | a character outside the Basic Multilingual Plane counts as two UTF-16 code units |
| `Text.Utf16LengthOfBmp` | backend/routes/auth.js:24 | `password.length` counts UTF-16 code units; for characters of the Basic Multilingual Plane it equals the number of characters |
| `Text.Utf8OfAscii` | backend/routes/expenses.js:14 | a string is as long in UTF-8 bytes as in characters exactly when it is ASCII, and then its bytes are its character codes, so a 12-character ASCII owner is 12 bytes |
| `ObjectIds.HexRoundTrip` | backend/routes/expenses.js:109 | decoding an id's 24-digit hex text gives the 12 bytes back |
| `ObjectIds.Cast` | backend/routes/expenses.js:109 | a path id casts to an ObjectId exactly when it is 24 hex digits, or, under an older driver, 12 ASCII characters |
| `ObjectIds.CastOfHex` | backend/routes/expenses.js:109 | the hex text of any id casts back to that id under either driver |
| `ObjectIds.PlaceholderCast` | backend/routes/expenses.js:14 | the placeholder owner `default-user` never casts under a current driver and does cast under an older one |
| `Calendar.At` | frontend/src/components/ExpenseForm.jsx:84 | every (day, time-of-day) pair names the instant whose UTC day and time are those; a date-only text is midnight of its day |
| `Calendar.DaysEarlier` | frontend/src/components/Reports.jsx:67-69 | moving a date back n days keeps its time of day and subtracts n whole days |
| `Calendar.CivilFromDays` | backend/routes/expenses.js:71-75 | the civil date of a day count has its month in 1..12 and its day in 1..31 |
| `Calendar.CivilRoundTrip` | backend/routes/expenses.js:71-75 | reading a day count as a civil date and converting back gives the same day count |
| `Calendar.YearMonthOf` | backend/routes/expenses.js:72-73 | `$year`/`$month` of an instant always form a valid month |
| `Calendar.MonthIndexRoundTrip` | backend/routes/expenses.js:84 | a valid month is recovered from its index, so sorting by year then month is sorting by index |
| `Calendar.MonthIndexInjective` | backend/routes/expenses.js:79 | two valid months with the same index are the same (year, month) group key |
| `Calendar.MonthsBefore` | frontend/src/components/Reports.jsx:111 | `new Date(y, m - i, 1)` is a valid month exactly i months earlier, across year boundaries |
| `Calendar.YearLength` | frontend/src/components/Reports.jsx:75-77 | a March-based year has 365 or 366 days |
| `Calendar.MonthLength` | frontend/src/components/Reports.jsx:71-73 | consecutive months start 28 to 31 days apart |
| `Calendar.YearOfMonths` | frontend/src/components/Reports.jsx:75-77 | the same month a year later starts 365 or 366 days later |
| `Calendar.MakeDayOfCivil` | frontend/src/components/Reports.jsx:58-60 | MakeDay on the year, month and day of a day count returns that day count |
| `Calendar.MakeDay` | frontend/src/components/Reports.jsx:67-77 | for a month 0 to 11 the day is the 1st of that month counted on by `date - 1`, past the month's end or below the 1st as the setters need (`MakeDayOfCivil` and `MakeDayOfDate` relate it to calendar dates) |
| `Calendar.WeekBack` | frontend/src/components/Reports.jsx:67-69 | `setDate(getDate() - 7)` lands exactly seven days earlier, across month ends |
| `Calendar.MonthBack` | frontend/src/components/Reports.jsx:71-73 | `setMonth(getMonth() - 1)` lands 28 to 31 days earlier, including when the day rolls over a short month |
| `Calendar.YearBack` | frontend/src/components/Reports.jsx:75-77 | `setFullYear(getFullYear() - 1)` lands 365 or 366 days earlier |
| `Credentials.EffectiveKey` | backend/routes/auth.js:35-36 | the bcrypt key is always 72 bytes: a password of 72 UTF-8 bytes or more contributes its first 72; a shorter one contributes its bytes, a NUL, and then the same bytes again, read round and round |
| `Credentials.RepeatAfterNulMatches` | backend/routes/auth.js:82 | because the key is read round and round, a short password and the same password repeated after a U+0000 match each other's hashes |
| `Credentials.Hash` | backend/routes/auth.js:35-36 | a hash made at cost 10 with a salt keeps that cost and salt, and the password it was made from matches it |
| `Credentials.Compare` | backend/routes/auth.js:82 | a candidate matches a stored hash exactly when the stored digest is the candidate's effective key, so a matching digest is 72 bytes; the stored cost and salt are reused as they are |
| `Credentials.CompareMeansSameKey` | backend/routes/auth.js:82 | a candidate matches a stored hash exactly when its effective key equals the hashed password's; the salt plays no part |
| `Credentials.ShortPasswordsMatchExactly` | backend/routes/auth.js:82 | below 72 bytes and without U+0000, a candidate matches exactly when its bytes equal the password's |
| `Credentials.LongPasswordsShareHash` | backend/routes/auth.js:82 | two passwords that agree on their first 72 bytes match each other's hashes |
| `Credentials.SecretOf` | backend/middleware/auth.js:4 | the signing secret is the environment's when set and non-empty, else `dev_secret_change_me` |
| `Credentials.ClaimsFor` | backend/routes/auth.js:47-49 | a token carries the user id, an issue time in whole seconds, and an expiry exactly 7 days later |
| `Credentials.Sign` | backend/routes/auth.js:88-90 | signing records the new token and keeps every earlier token as it was |
| `Credentials.Verify` | backend/middleware/auth.js:17-18 | a token verifies exactly when it was signed with this secret and has not expired, and yields its claims; it is expired exactly when it was signed with this secret and its `exp` has passed |
| `Credentials.SignThenVerify` | backend/routes/auth.js:47-49 | a fresh token verifies with its own user id until 7 days after issue, and not afterwards |
| `Credentials.SignKeepsVerdicts` | backend/routes/auth.js:88-90 | issuing a token never changes the verdict on any earlier token |
| `Credentials.OtherSecretRejects` | backend/middleware/auth.js:4 | a token signed under one secret never verifies under another |
| `AuthMiddleware.Authenticate` | backend/middleware/auth.js:8-25 | every refusal is a 401; "No token provided" exactly when the header (missing counts as empty) does not start with `Bearer `; the route runs exactly when the trimmed rest verifies, with `userId` from its claims; a bearer token that does not verify gets "Invalid or expired token" |
| `AuthMiddleware.BearerRoundTrip` | backend/middleware/auth.js:15 | a token written after `Bearer ` is read back unchanged |
| `AuthMiddleware.SignedTokenAuthenticates` | backend/middleware/auth.js:17-24 | a freshly signed token lets the request through as its user until it expires, and is answered "Invalid or expired token" afterwards |
| `AuthRoutes.FindByEmail` | backend/routes/auth.js:29 | the user found has the email asked for, and nothing is found exactly when no user has it |
| `AuthRoutes.FindById` | backend/routes/auth.js:110 | the user found has the id asked for, and nothing is found exactly when no user has it |
| `AuthRoutes.SignupRefusal` | backend/routes/auth.js:16-32 | the sign-up checks in order (missing field, mismatch, length under 6, existing email): each message is given exactly when its check is the first to fail |
| `AuthRoutes.Signup` | backend/routes/auth.js:11-57 | a refused sign-up is a 400 with the first failing check's message and changes nothing; otherwise it appends exactly one user holding the bcrypt hash, answers 201 with the token and `{id, email}`, and the token verifies to that id |
| `AuthRoutes.SignupTwiceRefused` | backend/routes/auth.js:29-32 | signing up again with the same request is refused with "User already exists" and changes nothing |
| `AuthRoutes.Signin` | backend/routes/auth.js:66-98 | the users never change; "Please enter all fields" exactly for a missing field, "Invalid credentials" exactly for an unknown email or a wrong password; 200 exactly when both fields are present, the email is known and the password matches, with a verifying token and the user without the hash |
| `AuthRoutes.SignupThenSignin` | backend/routes/auth.js:76-98 | signing in with the email and password just signed up with succeeds as the new user |
| `AuthRoutes.SigninFailuresAlike` | backend/routes/auth.js:76-85 | an unknown email and a wrong password get identical answers |
| `AuthRoutes.UserFor` | backend/routes/auth.js:108-111 | `/user` answers the stored user with that id without the password hash, or `null` when there is none; an id that does not cast is a 500 |
| `AuthRoutes.GetUser` | backend/routes/auth.js:107-116 | the route answers 401 exactly when the middleware refuses, with its message; otherwise it answers the user of the token's id |
| `AuthRoutes.SigninThenGetUser` | backend/routes/auth.js:108-111 | the token from a sign-in, sent back as a bearer token before it expires, reads the signed-in user |
| `ExpenseModel.PreSaveHook` | backend/models/Expense.js:43-48 | the hook refuses exactly when the amount was modified and is negative, with "Amount cannot be negative" |
| `ExpenseModel.SaveNew` | backend/models/Expense.js:5-48 | has no contract of its own: it builds the document with the setters and defaults, runs the path validators, then the pre-save hook; `SaveNewSpec`, `SavedIsValid` and `NegativeAmountRefused` state what it returns |
| `ExpenseModel.SaveNewSpec` | backend/models/Expense.js:5-31 | a new document saves exactly when the owner casts, the amount is present and non-negative, the category is one of the eight, and the trimmed description is non-empty and at most 200 UTF-16 code units long (`maxlength` counts `.length`); the saved record keeps those values, the date is the supplied one or `now`, and the record is valid; a refusal lists the failing paths |
| `ExpenseModel.SavedIsValid` | backend/models/Expense.js:11-26 | every saved document satisfies the schema invariant and carries the id it was given |
| `ExpenseModel.NegativeAmountRefused` | backend/models/Expense.js:11-15 | a negative amount is always refused, with "Amount cannot be negative" |
| `ExpenseModel.PatchPreservesValid` | backend/routes/expenses.js:130-134 | an update whose validators pass keeps a valid document valid and never changes its id, owner or creation time |
| `ExpenseModel.ApplyPatch` | backend/routes/expenses.js:130-134 | each field the body supplies replaces the stored one (the description trimmed) and each absent one is kept, as Mongoose 6 and later drop `undefined` keys; `updatedAt` becomes `now`; the id, the owner and the creation time never change |
| `ExpenseModel.AstralDescriptionLimit` | backend/models/Expense.js:21-26 | a description made only of characters outside the Basic Multilingual Plane passes `maxlength` exactly when it has at most 100 of them |
| `ExpenseModel.PatchErrorsSpec` | backend/routes/expenses.js:130-134 | an update is refused exactly when the amount or the date is sent as `null` (failing `required`), a supplied amount is negative, a supplied category is not one of the eight, or a supplied description trims to nothing or to more than 200 UTF-16 code units |
| `ExpenseRoutes.Create` | backend/routes/expenses.js:10-26 | the store stays well-formed; 201 exactly when the document saves, in which case exactly the new id is added, and the stored and returned record is the saved document (`SaveNewSpec` says what it holds, the date being the supplied one or `now`); otherwise a 500 "Server Error" carrying exactly the validation errors, and no change |
| `ExpenseRoutes.CreateAlwaysFailsUnderHexOnly` | backend/routes/expenses.js:13-24 | under a current driver every create answers 500 with the owner cast as the first error, and stores nothing |
| `ExpenseRoutes.CreateUnderLegacyCast` | backend/routes/expenses.js:13-21 | under an older driver a create succeeds exactly when the amount is non-negative, the category is one of the eight and the trimmed description is non-empty and at most 200 UTF-16 code units; the new document is then readable under its id |
| `ExpenseRoutes.Snapshot` | backend/routes/expenses.js:32 | reading the collection yields every stored document exactly once |
| `ExpenseRoutes.List` | backend/routes/expenses.js:30-40 | the listing holds every stored document exactly once, dates never increasing |
| `ExpenseRoutes.StatsOfSpec` | backend/routes/expenses.js:44-98 | the statistics are the sum, count and mean of the amounts, a category breakdown by descending total and a month breakdown in strictly chronological order, each with one bucket per key present, adding up to the total and the count |
| `ExpenseRoutes.StatsOf` | backend/routes/expenses.js:44-98 | the facet results are the sum, count and mean of the amounts and the category and month breakdowns of exactly those documents, each breakdown with one bucket per key present, adding up to the total and the count; `StatsOfSpec` adds the orders of the buckets |
| `ExpenseRoutes.StatsOfNothing` | backend/routes/expenses.js:90-98 | an empty collection reports zero total, count and average, and no buckets |
| `ExpenseRoutes.StatsIgnoreOrder` | backend/routes/expenses.js:46-88 | the statistics do not depend on the order the documents are read in: totals, count, mean, bucket keys and bucket contents agree |
| `ExpenseRoutes.GetStats` | backend/routes/expenses.js:44-103 | the route answers 200 with the statistics of exactly the stored documents |
| `ExpenseRoutes.GetById` | backend/routes/expenses.js:107-118 | 500 "Server Error" with the cast failure exactly when the path id does not cast, 404 `{msg: "Expense not found"}` exactly when it casts to an absent id, else 200 with that document |
| `ExpenseRoutes.Update` | backend/routes/expenses.js:123-140 | 200 exactly when the id is present and the supplied fields pass their validators; then only that document changes, to the patched one, and is returned; 404 `{msg: "Expense not found"}` exactly for an absent id; a present id whose patch fails its validators (a `null` amount or date included) gets 500 "Server Error" with those errors; an id that does not cast gets 500 with the cast failure; nothing changes unless 200 |
| `ExpenseRoutes.Delete` | backend/routes/expenses.js:144-156 | 200 "Expense removed" exactly when the id is present, removing that id alone; 404 `{msg: "Expense not found"}` exactly for an absent id; 500 with the cast failure for an id that does not cast; nothing changes unless 200 |
| `ExpenseRoutes.DeleteThenNotFound` | backend/routes/expenses.js:146-149 | after a delete, reading, updating or deleting the same id answers 404 |
| `ExpenseRoutes.NullDateRefused` | backend/routes/expenses.js:130-139 | an update that sets the date to `null` fails the `required` check with "Date is required", answers 500 with that error, and changes nothing |
| `ExpenseRoutes.UpdateThenGet` | backend/routes/expenses.js:130-135 | a later read returns exactly what an accepted update answered |
| `Aggregation.TotalPermutation` | backend/routes/expenses.js:53 | a sum does not depend on the order of the documents |
| `Aggregation.OnesCount` | backend/routes/expenses.js:54 | `$sum: 1` counts every document |
| `Aggregation.Mean` | backend/routes/expenses.js:55 | the mean times the count is the total when there is at least one document, and 0 otherwise |
| `Aggregation.TotalOfWeightless` | frontend/src/components/Reports.jsx:115-124 | a list whose every expense weighs zero sums to zero; `UncountedKeyHasNoTotal` applies it to a key no expense carries |
| `Aggregation.UncountedKeyHasNoTotal` | frontend/src/components/Reports.jsx:115-124 | a key that no expense carries (counted zero times) sums to zero, whatever the signs of the amounts |
| `Aggregation.Keep` | frontend/src/components/Reports.jsx:84-86 | `filter` keeps exactly the elements that pass, and no more of them than there were |
| `Aggregation.KeepIsSubsequence` | frontend/src/components/Reports.jsx:65 | filtering keeps the survivors in their original order |
| `Aggregation.KeepKeep` | frontend/src/components/Reports.jsx:58-86 | two filters in a row keep exactly what passes both, in order |
| `Aggregation.KeepTotals` | frontend/src/components/Reports.jsx:115-124 | the sum and length of the expenses filtered to one key are that key's bucket total and count |
| `Aggregation.GroupSpec` | frontend/src/components/Reports.jsx:93-101 | grouping yields one bucket per key present, none for absent keys, each with its key's sum and count, adding up to the grand total and count |
| `Aggregation.GroupBuckets` | frontend/src/components/Dashboard.jsx:80-95 | every bucket holds exactly the sum and number of the expenses of its key |
| `Aggregation.SortBySpec` | frontend/src/components/Reports.jsx:103 | the sort returns a permutation of its input in rank order |
| `Aggregation.SortKeepsSums` | backend/routes/expenses.js:67 | sorting the buckets keeps their total and count sums |
| `Aggregation.SortKeepsDistinct` | backend/routes/expenses.js:84 | sorting the buckets keeps their keys, still distinct |
| `Aggregation.BreakdownSpec` | backend/routes/expenses.js:59-85 | grouping then sorting by any rank meets the breakdown specification |
| `Aggregation.CategoryBreakdownSpec` | backend/routes/expenses.js:59-68 | the category breakdown has one bucket per category present, with its sum and count, by descending total, adding up to the grand total and count |
| `Aggregation.MonthlyBreakdownSpec` | backend/routes/expenses.js:69-85 | the month breakdown has one bucket per (year, month) present, with its sum and count, in strictly increasing month order |
| `Palette.ColorOf` | frontend/src/components/Dashboard.jsx:52-64 | the colour is the table's entry when it is non-empty, grey for anything the table does not name, and never empty |
| `Palette.TablesCoverCategories` | frontend/src/components/ExpenseList.jsx:7-19 | both tables name exactly the eight schema categories, so anything else is grey |
| `Palette.ColorsDistinct` | frontend/src/components/Reports.jsx:41-53 | within each table, different categories get different colours |
| `Palette.TablesDiffer` | frontend/src/components/Reports.jsx:42-51 | the reports table differs from the list table on exactly Food, Transportation and Shopping |
| `Reports.Cutoff` | frontend/src/components/Reports.jsx:58-82 | the date filter has a cutoff exactly for today, week, month and year, and every cutoff except today keeps the time of day |
| `Reports.TodayCutoff` | frontend/src/components/Reports.jsx:63-65 | "today" starts at midnight of the current day, at most one day before now |
| `Reports.WeekCutoff` | frontend/src/components/Reports.jsx:67-69 | "week" reaches back exactly seven days |
| `Reports.MonthCutoff` | frontend/src/components/Reports.jsx:71-73 | "month" reaches back 28 to 31 days |
| `Reports.YearCutoff` | frontend/src/components/Reports.jsx:75-77 | "year" reaches back 365 or 366 days |
| `Reports.CutoffsNested` | frontend/src/components/Reports.jsx:62-78 | year, month, week and today reach back strictly less far in that order, none after now |
| `Reports.Filtered` | frontend/src/components/Reports.jsx:55-89 | an expense survives exactly when it is in the list, on or after the cutoff, and of the chosen category |
| `Reports.FilteredIsOneFilter` | frontend/src/components/Reports.jsx:58-88 | the date filter then the category filter is a single filter on both tests |
| `Reports.FilteredSpec` | frontend/src/components/Reports.jsx:55-89 | the result is a subsequence of the list, and with both filters "all" it is the list itself |
| `Reports.CategoryDataSpec` | frontend/src/components/Reports.jsx:91-104 | one entry per category left after filtering, with its sum and count, largest first; under a category filter only that category |
| `Reports.CategoryData` | frontend/src/components/Reports.jsx:91-104 | under a category filter no other category appears; `CategoryDataSpec` states the sums, counts and order |
| `Reports.FilteredSummary` | frontend/src/components/Reports.jsx:196-226 | the transaction count is the number of filtered expenses; the average times the count is the total, or 0 with no transactions |
| `Reports.SummaryMatchesCategoryData` | frontend/src/components/Reports.jsx:194-210 | the filtered total and count are the sums of the category entries |
| `Reports.MonthlyComparison` | frontend/src/components/Reports.jsx:106-129 | exactly six consecutive months ending with the current one, oldest first, each with the sum and number of all its expenses; a month with no expenses shows a count and a total of zero |
| `Reports.MonthBucket` | frontend/src/components/Reports.jsx:115-124 | one month's entry holds the sum and number of the expenses dated in that month, and a month without expenses shows zero |
| `Dashboard.SummaryCards` | frontend/src/components/Dashboard.jsx:182-214 | without statistics the cards show zeros; otherwise the server's total and count, and an average that times the count is the total, or 0 |
| `Dashboard.CardsShowServerStats` | frontend/src/components/Dashboard.jsx:182-214 | over the server's statistics of a list, the cards show that list's sum and length |
| `Dashboard.CategoryChartData` | frontend/src/components/Dashboard.jsx:66-72 | no slices before statistics arrive; otherwise one slice per category bucket, in order, named by key and worth its total |
| `Dashboard.ChartOfServerStats` | frontend/src/components/Dashboard.jsx:66-72 | over the server's statistics, the pie has one slice per category present, worth its sum, distinct names, largest first |
| `Dashboard.Recent` | frontend/src/components/Dashboard.jsx:32 | the recent panel shows the first min(5, n) entries, in list order |
| `Dashboard.RecentAreNewest` | frontend/src/components/Dashboard.jsx:32 | on a newest-first list, nothing left out of the panel is newer than anything in it |
| `Dashboard.LastMonths` | frontend/src/components/Dashboard.jsx:104 | the bars keep the last min(6, n) months |
| `Dashboard.MonthlyDataSpec` | frontend/src/components/Dashboard.jsx:75-105 | no bars for an empty list; otherwise at most six months that have expenses, each once, with its sum and count, strictly oldest first |
| `Dashboard.MonthlyData` | frontend/src/components/Dashboard.jsx:75-105 | at most six bars, which are the latest entries of the whole month breakdown, in its order; `MonthlyDataSpec` and `MonthlyDataLatest` say what those entries hold |
| `Dashboard.MonthlyDataLatest` | frontend/src/components/Dashboard.jsx:97-104 | every month left out of the bars is older than every month shown, and with fewer than six bars none is left out |
| `Dashboard.SpendingTrend` | frontend/src/components/Dashboard.jsx:108-136 | empty for an empty list; otherwise thirty consecutive days ending today, oldest first, each with the sum of the expenses dated that day |
| `ExpenseForm.FormCategoriesAreSchemaCategories` | frontend/src/components/ExpenseForm.jsx:9-18 | the select offers exactly the schema's categories, in the schema's order |
| `Text.DecimalText` | frontend/src/components/ExpenseForm.jsx:41 | `toString` of a whole number of units is a non-empty run of decimal digits |
| `ExpenseForm.AmountText` | frontend/src/components/ExpenseForm.jsx:41 | `toString` of an amount is its whole units alone exactly when it has no hundredths; otherwise the units, a point and one or two decimals, the last of which is not 0 |
| `ExpenseForm.ParseAmount` | frontend/src/components/ExpenseForm.jsx:81 | `parseFloat` gives a number exactly when, after leading white space and an optional sign, there are digits before or after a point; its magnitude is 100 times the whole digits plus the first two decimals, and it is the negated magnitude exactly after a `-`, so it is negative exactly after a `-` with a non-zero magnitude |
| `ExpenseForm.ParseNegative` | frontend/src/components/ExpenseForm.jsx:81 | `parseFloat("-5")` is minus five units |
| `ExpenseForm.ParseAmountText` | frontend/src/components/ExpenseForm.jsx:41 | `parseFloat` of the text `toString` gives for an amount is that amount, also with any tail after it that does not continue the number |
| `ExpenseForm.ParseTrailingZero` | frontend/src/components/ExpenseForm.jsx:81 | "12.50" reads as 1250 hundredths |
| `ExpenseForm.ParseDropsThirdDecimal` | frontend/src/components/ExpenseForm.jsx:81 | "0.999" reads as 99 hundredths: digits past the hundredths are dropped |
| `ExpenseForm.ParseBarePoint` | frontend/src/components/ExpenseForm.jsx:81 | "." is not a number |
| `ExpenseForm.FormOf` | frontend/src/components/ExpenseForm.jsx:40-45 | editing copies the category and description, an amount text that parses back to the amount, and the expense's UTC day |
| `ExpenseForm.Payload` | frontend/src/components/ExpenseForm.jsx:80-85 | the body holds the parsed amount, or `null` when the text is not a number; the category; the description; and the date, read as midnight UTC of its day, or `null` when the date text is empty |
| `ExpenseForm.HandleSubmit` | frontend/src/components/ExpenseForm.jsx:67-109 | an empty amount, category or description sends nothing and shows "Please fill in all required fields"; otherwise PUT with an id and POST without; a create resets the form to today, an update keeps it; a refusal shows the server's message or "An error occurred" |
| `ExpenseForm.SaveUnchangedEdit` | frontend/src/components/ExpenseForm.jsx:80-88 | saving an unchanged edit sends back the stored amount, category and description, with the date at midnight of its day |
| `ExpenseForm.PayloadOfForm` | frontend/src/components/ExpenseForm.jsx:80-85 | the form of a stored expense is complete and sends that expense's fields |
| `ExpenseForm.SubmitSends` | frontend/src/components/ExpenseForm.jsx:87-88 | a complete form under edit sends a PUT of its payload |
| `ExpenseForm.ClearedDateEditRefused` | frontend/src/components/ExpenseForm.jsx:80-88 | saving an edit with an empty date sends `date: null`; the server refuses it with 500 listing "Date is required" and keeps the stored expense |
| `ExpenseForm.NotFoundMessage` | frontend/src/components/ExpenseForm.jsx:105 | a refused update of a missing expense (404, whose body has `msg`, not `message`) shows "An error occurred" |
| `ExpenseForm.ServerErrorMessage` | frontend/src/components/ExpenseForm.jsx:105 | a refused save (500) shows the server's "Server Error" |
| `ExpenseList.OpenDialog` | frontend/src/components/ExpenseList.jsx:189 | the trash button opens the dialog on that expense without touching the list |
| `ExpenseList.Cancel` | frontend/src/components/ExpenseList.jsx:219 | cancel closes the dialog without touching the list |
| `ExpenseList.HandleDelete` | frontend/src/components/ExpenseList.jsx:45-56 | after a 2xx the entries with the deleted id leave the list and the dialog closes; otherwise only the error "Failed to delete expense" is set |
| `ExpenseList.DeleteKeepsOrder` | frontend/src/components/ExpenseList.jsx:49 | the remaining entries keep their order, and with distinct ids exactly one entry goes |
| `ExpenseList.DeleteMatchesServer` | frontend/src/components/ExpenseList.jsx:48-50 | when the server's delete succeeds, the page holds exactly the documents the server still stores |
| `AuthContext.Load` | frontend/src/context/AuthContext.jsx:10-19 | the provider starts from the stored token (or none) and the stored user (or null), still loading; it is signed in exactly when a non-empty token is stored |
| `AuthContext.Persist` | frontend/src/context/AuthContext.jsx:23-28 | persisting sets the token and the user in state and under both storage keys |
| `AuthContext.Clear` | frontend/src/context/AuthContext.jsx:30-35 | clearing (and logout) signs out, drops the user and removes both storage keys |
| `AuthContext.ReloadKeepsSession` | frontend/src/context/AuthContext.jsx:10-35 | a persisted session reloads as the same token and user; a cleared one reloads signed out |
| `AuthContext.SessionReplyOf` | frontend/src/context/AuthContext.jsx:156 | axios resolves exactly on a 2xx status; a rejection is axios's error for that response |
| `AuthContext.Complete` | frontend/src/context/AuthContext.jsx:170-182 | a rejection is rethrown; a reply without a token throws "No token received from server", checked before the user; one without a user throws "No user data received from server"; nothing changes unless both are present, and then the session is persisted |
| `AuthContext.SigninSignsIn` | frontend/src/context/AuthContext.jsx:156-182 | signing in against an accepting server signs the client in with the issued token as the named user |
| `AuthContext.Init` | frontend/src/context/AuthContext.jsx:234-254 | loading always ends; a request is made exactly when signed in; a success replaces the user in state and storage; a failure clears the session |
| `AuthContext.UserReplyOf` | frontend/src/context/AuthContext.jsx:242 | the validation request resolves exactly on a 2xx status; a rejection is axios's error for that response |
| `AuthContext.Rejection` | frontend/src/context/AuthContext.jsx:156 | axios rejects a non-2xx response with the message "Request failed with status code N", the code `ERR_BAD_REQUEST` for 4xx and `ERR_BAD_RESPONSE` for 5xx, the request set, and the response's status and `msg` |
| `AuthContext.InitAsWrittenSignsOut` | frontend/src/context/AuthContext.jsx:242-246 | as written, the validation sends no token, so every stored session is cleared on mount |
| `AuthContext.InitWithBearerKeepsSession` | frontend/src/context/AuthContext.jsx:241-244 | with the stored token sent as a bearer token, a session the server signed in stays signed in, as the same user, until the token expires |
| `AuthContext.UseAuth` | frontend/src/context/AuthContext.jsx:272-276 | inside a provider it returns the provider's value; outside it fails with "useAuth must be used within AuthProvider" |
| `AuthPage.RedirectTarget` | frontend/src/pages/AuthPage.jsx:11-14 | the target is `from` when it starts with "/", else "/", so it always starts with "/" |
| `AuthPage.RedirectTargetStable` | frontend/src/pages/AuthPage.jsx:11-14 | a redirect target is itself accepted unchanged |
| `AuthPage.Validate` | frontend/src/pages/AuthPage.jsx:35-60 | the form passes exactly when the trimmed email and the password are non-empty and, in sign-up mode, the confirmation is non-empty and equal; the email/password message comes first; in sign-up an empty confirmation gives "Please confirm your password." and only a non-empty different one gives "Passwords do not match."; sign-in never checks the confirmation |
| `AuthPage.ErrorMessage` | frontend/src/pages/AuthPage.jsx:132-154 | a server message wins; then 400, 401, 409, 422 and 500 each get their own text; then `ERR_NETWORK` or a "Network Error" message gives the network text, and `ECONNABORTED` the timeout text; then an error with neither response nor request is "unable to reach the server"; then a non-empty message shows as "Error: " and the message; "Authentication failed." exactly when nothing else applies |
| `AuthPage.UnlistedStatusShowsAxiosMessage` | frontend/src/pages/AuthPage.jsx:132-154 | a rejection with an unlisted status and no server message is shown as "Error: " followed by axios's "Request failed with status code N" |
| `AuthPage.RejectionIsNotNetwork` | frontend/src/pages/AuthPage.jsx:146-148 | axios's message for a rejected response never contains "Network Error", so it is not taken for an unreachable server |
| `AuthPage.ProviderErrorsShowAsUnreachable` | frontend/src/pages/AuthPage.jsx:150-151 | the provider's own "No token/user received" errors carry neither response nor request, so the page reports an unreachable server |
| `AuthPage.RefusedSigninShowsReason` | frontend/src/pages/AuthPage.jsx:133-134 | a sign-in the server refuses leaves the session as it was and shows the server's own reason |
| `AuthPage.Submit` | frontend/src/pages/AuthPage.jsx:31-73 | a form failing the checks makes no call and shows the check's message; otherwise it calls sign-in or sign-up with the trimmed email, then navigates to the redirect target on success or shows the error message |
| `AuthPage.Landing` | frontend/src/pages/AuthPage.jsx:163-165 | a signed-in visitor is sent to "/" instead of seeing the form |
| `AuthPage.SigninLeadsOn` | frontend/src/pages/AuthPage.jsx:70-73 | a sign-in the server accepts leads to the redirect target, and the page then sends the visitor home |

## Findings

| source | as written | input that shows it | evidently intended | confidence | as-written member | corrected member |
|---|---|---|---|---|---|---|
| frontend/src/context/AuthContext.jsx:242 | the mount-time validation calls `GET /api/auth/user` on an axios instance whose only header is `Content-Type` (frontend/src/config/axios.js:6-11), so no `Authorization` header is sent | any stored session with a valid, unexpired token, against the auth routes mounted: the middleware answers 401 "No token provided" and `init` clears the session | send `Authorization: Bearer <token>`, so a valid session survives a reload ("Validate token and refresh user") | medium, not executed | `AuthContext.InitAsWrittenSignsOut` | `AuthContext.InitWithBearerKeepsSession` |

In the server as shipped the auth router is not mounted at all. The same
request then gets a 404 in development, and the session is cleared just the
same. In production a catch-all serves the client's `index.html` with status
200. That page would be stored as the user. This case is not modelled.

## Left out

- `Calendar.MakeDay`: the contract covers months 0 to 11 only; for other months (such as `getMonth() - 1` in January) the carry into the year is given by the body, through `FromMonthIndex`, and is not restated as an ensures.
- I/O and failures of the database, the network and local storage are not modelled. These include thrown driver errors, `JSON.parse` failures of the stored user, and the routes' `catch` blocks for anything but validation errors and failed casts of the path id or owner. They are outside the program's logic.
- Concurrency is not modelled: `Promise.all`, effect scheduling, the `loading`/`deleting` spinners, and the `setTimeout` navigation. The model reads each page as one settled request at a time.
- Rendering, Recharts, icons, CSS, `toFixed`/`toLocaleDateString` formatting and all `console` logging are not modelled. They do not affect state.
- The server bootstrap (backend/server.js), App.jsx, Header.jsx, Footer.jsx and the axios instance are not modelled. They only wire routes and headers. The one fact used is that the instance sends no `Authorization` header.
- User.js is not part of this model. Users are records of id, email and bcrypt hash, and a lookup returns the first match.
- bcrypt and JWT are modelled as ideal functions. A digest is determined by cost, salt and effective key (the 72 bytes read round and round from the UTF-8 bytes and a NUL). A token verifies only if it was issued. Signatures, base64url and the bcrypt cipher are not modelled.
- `Calendar.YearMonthOf`: client-side dates are read in UTC. The browser reads `getFullYear`, `getMonth`, `setHours` and `setDate` in local time. Time zones are out of scope.
- `Reports.Cutoff`: modelled in UTC, so "today" starts at UTC midnight rather than local midnight.
- `Dashboard.SpendingTrend`: the thirty slots are UTC days. In the browser the window is stepped in local time but keyed by `toISOString`, which is UTC. The two can disagree near midnight.
- `Dashboard.MonthlyDataSpec`: the bars are ordered by month index. The source orders them by parsing "Mon YYYY" labels with `new Date`, which yields the same order wherever that parse succeeds.
- `Reports.MonthCutoff`: states the "month" cutoff as one calendar month back, 28 to 31 days, as the code computes it. The option is labelled "Last 30 Days".
- `ExpenseForm.ParseAmount`: digits past the hundredths are dropped, where `parseFloat` keeps them and the server would store the fraction. The number input's `step="0.01"` asks for at most two decimals. An exponent and `Infinity` are not read.
- `ExpenseForm.AmountText`: `toString` writes 10^21 units or more with an exponent, and the model writes the digits. Floating-point rounding of amounts is not modelled.
- `ExpenseModel.Fields`: a category or description sent as `null` cannot be written down. The form always sends both as strings.
- `ExpenseModel.FieldError`: for a failed owner cast, `Message` gives only the opening of Mongoose's wording. The value's type and the driver's reason that later versions append are not modelled.
- Casting request body fields is not modelled. `Fields` holds an amount that is already a number and a date that is already an instant, so a body such as `date: "abc"` or a non-numeric amount cannot be written down. Mongoose refuses those with a CastError, and POST and PUT then answer 500. This error path is not covered. The only casts modelled are of the path id and the owner.
- `Credentials.ShortPasswordsMatchExactly`: exact matching holds only for passwords without U+0000. Because bcrypt reads the key round and round, a password containing U+0000 can collide with a shorter one; `Credentials.RepeatAfterNulMatches` states such a collision.
- `ExpenseModel.SaveNewSpec`: an empty date text (`date || now`) and an absent date are the same case.
- `AuthRoutes.Signup`: only the 201 and 400 answers are modelled. The 500 "Server Error" for a failed save or signing step is not.
- `AuthRoutes.UserFor`: the user object is `{id, email}`. The source returns the document without `password`, with `_id`, timestamps and `__v`.
- `Palette.ColorOf`: categories are looked up in an eight-entry map. Names inherited from `Object.prototype` (such as `constructor`) are not modelled.
- `ExpenseRoutes.List`: the order among expenses with equal dates is whatever the snapshot gives. MongoDB's tie order is unspecified.
- `AuthPage.ErrorMessage`: for 422 the page repeats the server-message test inside that branch, which can never succeed there. The model shows the generic text, which is what runs.

=== FILE: aggregation.dfy ===
/** The folds shared by the server's statistics pipeline and the client's
    reports: sums over a list of expenses, filtering, grouping into buckets
    (in order of first appearance, as a JavaScript object keeps its keys),
    and a stable sort on an integer rank (as `Array.prototype.sort` is). */
module Aggregation {
  import opened Wrappers
  import opened Calendar
  import opened ExpenseModel

  // ---------------------------------------------------------------------
  // Weighted sums

  /** `s.reduce((acc, e) => acc + w(e), 0)`: a left fold. */
  function Total(s: seq<Expense>, w: Expense -> int): int {
    if s == [] then 0 else Total(s[..|s| - 1], w) + w(s[|s| - 1])
  }

  function Amount(e: Expense): int {
    e.amount
  }

  /** Sum of the amounts. */
  function Sum(s: seq<Expense>): int {
    Total(s, Amount)
  }

  /** Weight of an expense in the bucket `k` of the grouping `key`: its amount
      when its key is `k`, else nothing. */
  function AmountIf<K(==)>(key: Expense -> K, k: K): Expense -> int {
    e => if key(e) == k then e.amount else 0
  }

  /** Weight 1 for the expenses whose key is `k`. */
  function OneIf<K(==)>(key: Expense -> K, k: K): Expense -> int {
    e => if key(e) == k then 1 else 0
  }

  lemma {:induction false} TotalAppend(a: seq<Expense>, b: seq<Expense>, w: Expense -> int)
    ensures Total(a + b, w) == Total(a, w) + Total(b, w)
    decreases |b|
  {
    if b == [] {
      assert a + b == a;
    } else {
      var b' := b[..|b| - 1];
      TotalAppend(a, b', w);
      assert (a + b)[..|a + b| - 1] == a + b';
    }
  }

  /** A sum does not depend on the order of its terms: two lists holding the
      same expenses, in any order, have the same total. */
  lemma {:induction false} TotalPermutation(a: seq<Expense>, b: seq<Expense>, w: Expense -> int)
    requires multiset(a) == multiset(b)
    ensures Total(a, w) == Total(b, w)
    decreases |a|
  {
    if a != [] {
      var x := a[|a| - 1];
      var a' := a[..|a| - 1];
      assert a == a' + [x];
      assert x in multiset(b);
      var i :| 0 <= i < |b| && b[i] == x;
      var b' := b[..i] + b[i + 1..];
      assert multiset(a') == multiset(b') by {
        RemoveAt(b, i);
        assert multiset(a) == multiset(a') + multiset{x};
        assert multiset(a') + multiset{x} == multiset(b') + multiset{x};
        forall e ensures multiset(a')[e] == multiset(b')[e] {
          assert (multiset(a') + multiset{x})[e] == (multiset(b') + multiset{x})[e];
        }
      }
      TotalPermutation(a', b', w);
      TotalRemoveAt(b, i, w);
      TotalAppend(a', [x], w);
      TotalCons(x, [], w);
    } else {
      assert |b| == |multiset(b)| == 0;
    }
  }

  /** Taking one element out of a list takes it out of its multiset. */
  lemma RemoveAt(b: seq<Expense>, i: int)
    requires 0 <= i < |b|
    ensures multiset(b) == multiset(b[..i] + b[i + 1..]) + multiset{b[i]}
  {
    assert b == b[..i] + [b[i]] + b[i + 1..];
  }

  /** Taking one element out of a list takes its weight out of the total. */
  lemma TotalRemoveAt(b: seq<Expense>, i: int, w: Expense -> int)
    requires 0 <= i < |b|
    ensures Total(b, w) == Total(b[..i] + b[i + 1..], w) + w(b[i])
  {
    var upTo, back := b[..i + 1], b[i + 1..];
    assert b == upTo + back;
    TotalAppend(upTo, back, w);
    assert upTo[..i] == b[..i];
    TotalAppend(b[..i], back, w);
  }

  /** A list none of whose expenses weigh anything sums to zero: a bucket
      nothing falls into is zero-filled. */
  lemma {:induction false} TotalOfWeightless(s: seq<Expense>, w: Expense -> int)
    requires forall k :: 0 <= k < |s| ==> w(s[k]) == 0
    ensures Total(s, w) == 0
  {
    if s != [] {
      TotalOfWeightless(s[..|s| - 1], w);
    }
  }

  /** Counts are never negative. */
  lemma {:induction false} CountNonNegative<K>(s: seq<Expense>, key: Expense -> K, k: K)
    ensures Total(s, OneIf(key, k)) >= 0
  {
    if s != [] {
      CountNonNegative(s[..|s| - 1], key, k);
    }
  }

  /** No expense of a key counted zero times carries that key. */
  lemma {:induction false} UncountedKeyAbsent<K>(s: seq<Expense>, key: Expense -> K, k: K)
    requires Total(s, OneIf(key, k)) == 0
    ensures forall i :: 0 <= i < |s| ==> key(s[i]) != k
  {
    if s != [] {
      var p := s[..|s| - 1];
      CountNonNegative(p, key, k);
      UncountedKeyAbsent(p, key, k);
      assert forall i :: 0 <= i < |p| ==> s[i] == p[i];
    }
  }

  /** A key counted zero times sums to zero, whatever the signs of the
      amounts: an empty month or category shows a zero total. */
  lemma UncountedKeyHasNoTotal<K>(s: seq<Expense>, key: Expense -> K, k: K)
    requires Total(s, OneIf(key, k)) == 0
    ensures Total(s, AmountIf(key, k)) == 0
  {
    UncountedKeyAbsent(s, key, k);
    TotalOfWeightless(s, AmountIf(key, k));
  }

  /** Counting the expenses of every key finds them all. */
  lemma {:induction false} OnesCount(s: seq<Expense>)
    ensures Total(s, e => 1) == |s|
  {
    if s != [] {
      OnesCount(s[..|s| - 1]);
    }
  }

  /** Arithmetic mean as the program reports it: `total / count` when there is
      at least one expense, and 0 otherwise. */
  function Mean(total: int, count: int): (r: real)
    ensures count > 0 ==> r * (count as real) == total as real
    ensures count <= 0 ==> r == 0.0
  {
    if count > 0 then total as real / count as real else 0.0
  }

  // ---------------------------------------------------------------------
  // Filtering

  /** `s.filter(p)`. */
  function Keep(s: seq<Expense>, p: Expense -> bool): (r: seq<Expense>)
    ensures |r| <= |s|
    ensures forall e :: e in r <==> e in s && p(e)
  {
    if s == [] then []
    else (if p(s[0]) then [s[0]] else []) + Keep(s[1..], p)
  }

  /** `a` is `b` with some elements left out, the rest in the same order. */
  predicate IsSubsequence<T(==)>(a: seq<T>, b: seq<T>)
    decreases |b|
  {
    if a == [] then true
    else if b == [] then false
    else if a[0] == b[0] then IsSubsequence(a[1..], b[1..])
    else IsSubsequence(a, b[1..])
  }

  /** A subsequence of the tail of `b` is a subsequence of `b`. */
  lemma {:induction false} SkipFirst<T>(a: seq<T>, b: seq<T>)
    requires b != []
    requires IsSubsequence(a, b[1..])
    ensures IsSubsequence(a, b)
    decreases |b|, 0
  {
    if a != [] && a[0] == b[0] {
      DropFirst(a, b[1..]);
    }
  }

  /** Leaving out the first element of a subsequence keeps it a
      subsequence. */
  lemma {:induction false} DropFirst<T>(a: seq<T>, b: seq<T>)
    requires a != []
    requires IsSubsequence(a, b)
    ensures IsSubsequence(a[1..], b)
    decreases |b|, 1
  {
    if a[0] != b[0] {
      DropFirst(a, b[1..]);
    }
    SkipFirst(a[1..], b);
  }

  /** Filtering keeps the surviving expenses in their original order. */
  lemma {:induction false} KeepIsSubsequence(s: seq<Expense>, p: Expense -> bool)
    ensures IsSubsequence(Keep(s, p), s)
  {
    if s != [] {
      KeepIsSubsequence(s[1..], p);
      if p(s[0]) {
        assert Keep(s, p)[1..] == Keep(s[1..], p);
      } else {
        assert Keep(s, p) == Keep(s[1..], p);
        SkipFirst(Keep(s, p), s);
      }
    }
  }

  /** A filter every expense passes returns its input unchanged. */
  lemma {:induction false} KeepAll(s: seq<Expense>, p: Expense -> bool)
    requires forall k :: 0 <= k < |s| ==> p(s[k])
    ensures Keep(s, p) == s
  {
    if s != [] {
      KeepAll(s[1..], p);
    }
  }

  /** Two filters in a row keep exactly what passes both, in order. */
  lemma {:induction false} KeepKeep(s: seq<Expense>, p: Expense -> bool, q: Expense -> bool)
    ensures Keep(Keep(s, p), q) == Keep(s, e => p(e) && q(e))
  {
    if s != [] {
      KeepKeep(s[1..], p, q);
      if p(s[0]) {
        var k := Keep(s, p);
        assert k[0] == s[0] && k[1..] == Keep(s[1..], p);
      } else {
        assert Keep(s, p) == Keep(s[1..], p);
      }
    }
  }

  /** An expense in front adds its weight to the total. */
  lemma TotalCons(x: Expense, s: seq<Expense>, w: Expense -> int)
    ensures Total([x] + s, w) == w(x) + Total(s, w)
  {
    TotalAppend([x], s, w);
    assert [x][..0] == [];
  }

  /** The expenses a filter picks out for one key add up to that key's bucket
      of the grouping: the same sum and the same number. */
  lemma {:induction false} KeepTotals<K>(s: seq<Expense>, p: Expense -> bool, key: Expense -> K, k: K)
    requires forall e :: p(e) <==> key(e) == k
    ensures Sum(Keep(s, p)) == Total(s, AmountIf(key, k))
    ensures |Keep(s, p)| == Total(s, OneIf(key, k))
  {
    if s != [] {
      KeepTotals(s[1..], p, key, k);
      var head := if p(s[0]) then [s[0]] else [];
      TotalAppend(head, Keep(s[1..], p), Amount);
      if p(s[0]) {
        assert head[..0] == [];
      }
      TotalCons(s[0], s[1..], AmountIf(key, k));
      TotalCons(s[0], s[1..], OneIf(key, k));
      assert s == [s[0]] + s[1..];
    }
  }

  // ---------------------------------------------------------------------
  // Grouping

  /** Sum and count of the expenses sharing one key. */
  datatype Bucket<K> = Bucket(key: K, total: int, count: int)

  predicate DistinctKeys<K(==)>(bs: seq<Bucket<K>>) {
    forall i, j :: 0 <= i < j < |bs| ==> bs[i].key != bs[j].key
  }

  function KeysOf<K(==)>(bs: seq<Bucket<K>>): set<K> {
    set b | b in bs :: b.key
  }

  function SumTotals<K>(bs: seq<Bucket<K>>): int {
    if bs == [] then 0 else bs[0].total + SumTotals(bs[1..])
  }

  function SumCounts<K>(bs: seq<Bucket<K>>): int {
    if bs == [] then 0 else bs[0].count + SumCounts(bs[1..])
  }

  /** The total recorded for key `k`, 0 when there is no bucket for it. */
  function TotalFor<K(==)>(bs: seq<Bucket<K>>, k: K): int {
    if bs == [] then 0 else if bs[0].key == k then bs[0].total else TotalFor(bs[1..], k)
  }

  function CountFor<K(==)>(bs: seq<Bucket<K>>, k: K): int {
    if bs == [] then 0 else if bs[0].key == k then bs[0].count else CountFor(bs[1..], k)
  }

  /** One expense of key `k` and amount `amount` joins the bucket of its key,
      which is opened (at the end) the first time the key is seen. */
  function AddTo<K(==)>(bs: seq<Bucket<K>>, k: K, amount: int): seq<Bucket<K>> {
    if bs == [] then [Bucket(k, amount, 1)]
    else if bs[0].key == k then [Bucket(k, bs[0].total + amount, bs[0].count + 1)] + bs[1..]
    else [bs[0]] + AddTo(bs[1..], k, amount)
  }

  /** `forEach` over the expenses, accumulating into one bucket per key. */
  function Group<K(==)>(s: seq<Expense>, key: Expense -> K): seq<Bucket<K>> {
    if s == [] then [] else AddTo(Group(s[..|s| - 1], key), key(s[|s| - 1]), s[|s| - 1].amount)
  }

  /** The keys of a non-empty list: the first one and those of the rest. */
  lemma KeysOfCons<K>(bs: seq<Bucket<K>>)
    requires bs != []
    ensures KeysOf(bs) == {bs[0].key} + KeysOf(bs[1..])
  {
    assert forall b :: b in bs <==> b == bs[0] || b in bs[1..];
  }

  /** Keys are distinct exactly when the first key is not among the rest and
      the rest are distinct. */
  lemma DistinctCons<K>(bs: seq<Bucket<K>>)
    requires bs != []
    ensures DistinctKeys(bs) <==> bs[0].key !in KeysOf(bs[1..]) && DistinctKeys(bs[1..])
  {
    if DistinctKeys(bs) {
      forall b | b in bs[1..] ensures b.key != bs[0].key {
        var j :| 0 <= j < |bs[1..]| && bs[1..][j] == b;
        assert bs[j + 1] == b;
      }
      forall i, j | 0 <= i < j < |bs[1..]| ensures bs[1..][i].key != bs[1..][j].key {
        assert bs[1..][i] == bs[i + 1] && bs[1..][j] == bs[j + 1];
      }
    }
    if bs[0].key !in KeysOf(bs[1..]) && DistinctKeys(bs[1..]) {
      forall i, j | 0 <= i < j < |bs| ensures bs[i].key != bs[j].key {
        assert bs[j] == bs[1..][j - 1];
        if i > 0 {
          assert bs[i] == bs[1..][i - 1];
        }
      }
    }
  }

  lemma {:induction false} AddToKeys<K>(bs: seq<Bucket<K>>, k: K, amount: int)
    ensures KeysOf(AddTo(bs, k, amount)) == KeysOf(bs) + {k}
    ensures DistinctKeys(bs) ==> DistinctKeys(AddTo(bs, k, amount))
  {
    var r := AddTo(bs, k, amount);
    if bs != [] {
      KeysOfCons(bs);
      KeysOfCons(r);
      DistinctCons(bs);
      DistinctCons(r);
      if bs[0].key == k {
        assert r[1..] == bs[1..];
      } else {
        AddToKeys(bs[1..], k, amount);
        assert r[1..] == AddTo(bs[1..], k, amount);
      }
    }
  }

  lemma {:induction false} AddToRecords<K>(bs: seq<Bucket<K>>, k: K, amount: int)
    ensures forall j :: TotalFor(AddTo(bs, k, amount), j) == TotalFor(bs, j) + (if j == k then amount else 0)
    ensures forall j :: CountFor(AddTo(bs, k, amount), j) == CountFor(bs, j) + (if j == k then 1 else 0)
  {
    var r := AddTo(bs, k, amount);
    if bs != [] {
      if bs[0].key == k {
        assert r[1..] == bs[1..];
      } else {
        AddToRecords(bs[1..], k, amount);
        assert r[1..] == AddTo(bs[1..], k, amount);
      }
    }
  }

  lemma {:induction false} AddToSums<K>(bs: seq<Bucket<K>>, k: K, amount: int)
    ensures SumTotals(AddTo(bs, k, amount)) == SumTotals(bs) + amount
    ensures SumCounts(AddTo(bs, k, amount)) == SumCounts(bs) + 1
  {
    var r := AddTo(bs, k, amount);
    if bs != [] {
      if bs[0].key == k {
        assert r[1..] == bs[1..];
      } else {
        AddToSums(bs[1..], k, amount);
        assert r[1..] == AddTo(bs[1..], k, amount);
      }
    }
  }

  /** In a list of buckets with distinct keys, a bucket's total and count are
      the ones recorded for its key. */
  lemma {:induction false} BucketIsRecorded<K>(bs: seq<Bucket<K>>, b: Bucket<K>)
    requires DistinctKeys(bs)
    requires b in bs
    ensures TotalFor(bs, b.key) == b.total && CountFor(bs, b.key) == b.count
  {
    if bs[0] != b {
      assert b in bs[1..];
      DistinctCons(bs);
      BucketIsRecorded(bs[1..], b);
    }
  }

  /** The keys whose bucket the grouping opens: those of the expenses. */
  function KeysIn<K(==)>(s: seq<Expense>, key: Expense -> K): set<K> {
    set e | e in s :: key(e)
  }

  /** Grouping yields one bucket per key present and none for keys absent;
      each bucket holds the sum and the number of the expenses of its key;
      the totals add up to the grand total and the counts to the number of
      expenses. */
  lemma {:induction false} GroupSpec<K>(s: seq<Expense>, key: Expense -> K)
    ensures DistinctKeys(Group(s, key))
    ensures KeysOf(Group(s, key)) == KeysIn(s, key)
    ensures forall k :: TotalFor(Group(s, key), k) == Total(s, AmountIf(key, k))
    ensures forall k :: CountFor(Group(s, key), k) == Total(s, OneIf(key, k))
    ensures SumTotals(Group(s, key)) == Sum(s)
    ensures SumCounts(Group(s, key)) == |s|
  {
    if s != [] {
      var s' := s[..|s| - 1];
      var x := s[|s| - 1];
      GroupSpec(s', key);
      AddToKeys(Group(s', key), key(x), x.amount);
      AddToRecords(Group(s', key), key(x), x.amount);
      AddToSums(Group(s', key), key(x), x.amount);
      assert KeysIn(s, key) == KeysIn(s', key) + {key(x)} by {
        assert forall e :: e in s <==> e in s' || e == x;
      }
    }
  }

  /** Every bucket of a grouping holds exactly the sum and the count of the
      expenses of its key. */
  lemma GroupBuckets<K>(s: seq<Expense>, key: Expense -> K)
    ensures forall b :: b in Group(s, key) ==>
      b.total == Total(s, AmountIf(key, b.key)) && b.count == Total(s, OneIf(key, b.key))
  {
    GroupSpec(s, key);
    forall b | b in Group(s, key)
      ensures b.total == Total(s, AmountIf(key, b.key)) && b.count == Total(s, OneIf(key, b.key))
    {
      BucketIsRecorded(Group(s, key), b);
      assert TotalFor(Group(s, key), b.key) == Total(s, AmountIf(key, b.key));
    }
  }

  // ---------------------------------------------------------------------
  // Stable sorting on an integer rank

  predicate SortedBy<T>(s: seq<T>, rank: T -> int) {
    forall i, j :: 0 <= i < j < |s| ==> rank(s[i]) <= rank(s[j])
  }

  /** Inserts `x` before the first element that does not rank below it, so
      that among equal ranks `x` stays in front. */
  function Insert<T>(x: T, s: seq<T>, rank: T -> int): (r: seq<T>)
    ensures |r| == |s| + 1
  {
    if s == [] || rank(x) <= rank(s[0]) then [x] + s else [s[0]] + Insert(x, s[1..], rank)
  }

  /** Insertion sort, keeping equal ranks in their original order. */
  function SortBy<T>(s: seq<T>, rank: T -> int): (r: seq<T>)
    ensures |r| == |s|
  {
    if s == [] then [] else Insert(s[0], SortBy(s[1..], rank), rank)
  }

  lemma {:induction false} InsertPermutes<T>(x: T, s: seq<T>, rank: T -> int)
    ensures multiset(Insert(x, s, rank)) == multiset(s) + multiset{x}
  {
    if s != [] && rank(x) > rank(s[0]) {
      InsertPermutes(x, s[1..], rank);
      assert s == [s[0]] + s[1..];
    }
  }

  lemma {:induction false} InsertSorted<T>(x: T, s: seq<T>, rank: T -> int)
    requires SortedBy(s, rank)
    ensures SortedBy(Insert(x, s, rank), rank)
  {
    if s != [] && rank(x) > rank(s[0]) {
      InsertSorted(x, s[1..], rank);
      InsertPermutes(x, s[1..], rank);
      var t := Insert(x, s[1..], rank);
      forall j | 0 <= j < |t| ensures rank(s[0]) <= rank(t[j]) {
        assert t[j] in multiset(t);
        if t[j] != x {
          assert t[j] in multiset(s[1..]);
          var i :| 0 <= i < |s[1..]| && s[1..][i] == t[j];
          assert s[i + 1] == t[j];
        }
      }
      var r := Insert(x, s, rank);
      forall i, j | 0 <= i < j < |r| ensures rank(r[i]) <= rank(r[j]) {
        assert r[j] == t[j - 1];
        if i > 0 {
          assert r[i] == t[i - 1];
        }
      }
    }
  }

  lemma InsertSpec<T>(x: T, s: seq<T>, rank: T -> int)
    requires SortedBy(s, rank)
    ensures SortedBy(Insert(x, s, rank), rank)
    ensures multiset(Insert(x, s, rank)) == multiset(s) + multiset{x}
  {
    InsertSorted(x, s, rank);
    InsertPermutes(x, s, rank);
  }

  /** The sort returns the same elements in rank order. */
  lemma SortBySpec<T>(s: seq<T>, rank: T -> int)
    ensures SortedBy(SortBy(s, rank), rank)
    ensures multiset(SortBy(s, rank)) == multiset(s)
  {
    SortBySorted(s, rank);
    SortByPermutes(s, rank);
  }

  lemma {:induction false} SortBySorted<T>(s: seq<T>, rank: T -> int)
    ensures SortedBy(SortBy(s, rank), rank)
  {
    if s != [] {
      SortBySorted(s[1..], rank);
      InsertSorted(s[0], SortBy(s[1..], rank), rank);
    }
  }

  lemma {:induction false} SortByPermutes<T>(s: seq<T>, rank: T -> int)
    ensures multiset(SortBy(s, rank)) == multiset(s)
  {
    if s != [] {
      SortByPermutes(s[1..], rank);
      InsertPermutes(s[0], SortBy(s[1..], rank), rank);
      assert s == [s[0]] + s[1..];
    }
  }

  lemma {:induction false} InsertKeepsSums<K>(x: Bucket<K>, s: seq<Bucket<K>>, rank: Bucket<K> -> int)
    ensures SumTotals(Insert(x, s, rank)) == x.total + SumTotals(s)
    ensures SumCounts(Insert(x, s, rank)) == x.count + SumCounts(s)
  {
    if s != [] && rank(x) > rank(s[0]) {
      InsertKeepsSums(x, s[1..], rank);
      assert Insert(x, s, rank)[1..] == Insert(x, s[1..], rank);
    } else {
      assert ([x] + s)[1..] == s;
    }
  }

  lemma {:induction false} SortKeepsSums<K>(s: seq<Bucket<K>>, rank: Bucket<K> -> int)
    ensures SumTotals(SortBy(s, rank)) == SumTotals(s)
    ensures SumCounts(SortBy(s, rank)) == SumCounts(s)
  {
    if s != [] {
      SortKeepsSums(s[1..], rank);
      InsertKeepsSums(s[0], SortBy(s[1..], rank), rank);
    }
  }

  lemma {:induction false} InsertKeepsDistinct<K>(x: Bucket<K>, s: seq<Bucket<K>>, rank: Bucket<K> -> int)
    requires DistinctKeys(s) && x.key !in KeysOf(s)
    ensures DistinctKeys(Insert(x, s, rank))
    ensures KeysOf(Insert(x, s, rank)) == KeysOf(s) + {x.key}
  {
    var r := Insert(x, s, rank);
    if s == [] || rank(x) <= rank(s[0]) {
      assert r[1..] == s;
      DistinctCons(r);
      KeysOfCons(r);
    } else {
      var t := Insert(x, s[1..], rank);
      DistinctCons(s);
      KeysOfCons(s);
      InsertKeepsDistinct(x, s[1..], rank);
      assert r[1..] == t;
      DistinctCons(r);
      KeysOfCons(r);
    }
  }

  lemma {:induction false} SortKeepsDistinct<K>(s: seq<Bucket<K>>, rank: Bucket<K> -> int)
    requires DistinctKeys(s)
    ensures DistinctKeys(SortBy(s, rank))
    ensures KeysOf(SortBy(s, rank)) == KeysOf(s)
  {
    if s != [] {
      DistinctCons(s);
      KeysOfCons(s);
      SortKeepsDistinct(s[1..], rank);
      InsertKeepsDistinct(s[0], SortBy(s[1..], rank), rank);
    }
  }

  // ---------------------------------------------------------------------
  // Breakdowns

  function CategoryOf(e: Expense): string {
    e.category
  }

  function MonthOf(e: Expense): YearMonth {
    YearMonthOf(e.date)
  }

  /** Larger totals rank first. */
  function ByTotalDescending<K>(b: Bucket<K>): int {
    -b.total
  }

  function ByMonth(b: Bucket<YearMonth>): int {
    MonthIndex(b.key)
  }

  /** Group by category, largest total first. */
  function CategoryBreakdown(s: seq<Expense>): seq<Bucket<string>> {
    SortBy(Group(s, CategoryOf), ByTotalDescending)
  }

  /** Group by calendar month, in chronological order. */
  function MonthlyBreakdown(s: seq<Expense>): seq<Bucket<YearMonth>> {
    SortBy(Group(s, MonthOf), ByMonth)
  }

  /** What every breakdown promises: one bucket per key present, each with the
      sum and count of its expenses, in rank order, adding up to the grand
      total and to the number of expenses. */
  predicate IsBreakdown<K(==)>(r: seq<Bucket<K>>, s: seq<Expense>, key: Expense -> K, rank: Bucket<K> -> int) {
    && DistinctKeys(r)
    && KeysOf(r) == KeysIn(s, key)
    && (forall b :: b in r ==>
          b.total == Total(s, AmountIf(key, b.key)) && b.count == Total(s, OneIf(key, b.key)))
    && SortedBy(r, rank)
    && SumTotals(r) == Sum(s)
    && SumCounts(r) == |s|
  }

  lemma BreakdownSpec<K>(s: seq<Expense>, key: Expense -> K, rank: Bucket<K> -> int)
    ensures IsBreakdown(SortBy(Group(s, key), rank), s, key, rank)
  {
    var g := Group(s, key);
    var r := SortBy(g, rank);
    GroupSpec(s, key);
    GroupBuckets(s, key);
    SortBySpec(g, rank);
    SortKeepsSums(g, rank);
    SortKeepsDistinct(g, rank);
    forall b | b in r
      ensures b.total == Total(s, AmountIf(key, b.key)) && b.count == Total(s, OneIf(key, b.key))
    {
      assert b in multiset(r);
    }
  }

  /** Category breakdown: one entry per category present, largest total
      first, totals adding up to the grand total. */
  lemma CategoryBreakdownSpec(s: seq<Expense>)
    ensures IsBreakdown(CategoryBreakdown(s), s, CategoryOf, ByTotalDescending)
    ensures forall i, j :: 0 <= i < j < |CategoryBreakdown(s)| ==>
      CategoryBreakdown(s)[i].total >= CategoryBreakdown(s)[j].total
  {
    BreakdownSpec(s, CategoryOf, ByTotalDescending);
    var r := CategoryBreakdown(s);
    forall i, j | 0 <= i < j < |r| ensures r[i].total >= r[j].total {
      assert ByTotalDescending(r[i]) <= ByTotalDescending(r[j]);
    }
  }

  /** Monthly breakdown: one entry per calendar month present, strictly in
      chronological order. */
  lemma MonthlyBreakdownSpec(s: seq<Expense>)
    ensures IsBreakdown(MonthlyBreakdown(s), s, MonthOf, ByMonth)
    ensures forall i, j :: 0 <= i < j < |MonthlyBreakdown(s)| ==>
      MonthIndex(MonthlyBreakdown(s)[i].key) < MonthIndex(MonthlyBreakdown(s)[j].key)
  {
    BreakdownSpec(s, MonthOf, ByMonth);
    var r := MonthlyBreakdown(s);
    forall i, j | 0 <= i < j < |r| ensures MonthIndex(r[i].key) < MonthIndex(r[j].key) {
      assert ByMonth(r[i]) <= ByMonth(r[j]);
      assert r[i].key in KeysIn(s, MonthOf) && r[j].key in KeysIn(s, MonthOf) by {
        assert r[i] in r && r[j] in r;
      }
      if MonthIndex(r[i].key) == MonthIndex(r[j].key) {
        MonthIndexInjective(r[i].key, r[j].key);
      }
    }
  }
}

=== FILE: auth_context.dfy ===
/** The client's session: a token and a user, mirrored in the browser's
    local storage under two keys, with the sign-up / sign-in completions,
    logout, and the validation run once when the provider mounts. */
module AuthContext {
  import opened Wrappers
  import Text
  import opened Calendar
  import opened Credentials
  import opened AuthMiddleware
  import opened AuthRoutes

  /** The storage keys. */
  const TokenKey: string := "pg_token"
  const UserKey: string := "pg_user"

  /** The two storage entries, `None` when the key is absent. The user entry
      holds the JSON of a user object or of `null`. */
  datatype Storage = Storage(token: Option<string>, user: Option<Option<PublicUser>>)

  /** The provider's state; `user` is `None` for `null`. */
  datatype AuthState = AuthState(token: string, user: Option<PublicUser>, loading: bool)

  /** `isAuthenticated`: `Boolean(token)`. */
  predicate IsAuthenticated(s: AuthState) {
    s.token != ""
  }

  /** The state a provider starts in: the stored token or '', the stored user
      or `null`, still loading. */
  function Load(st: Storage): (s: AuthState)
    ensures IsAuthenticated(s) <==> st.token.Some? && st.token.value != ""
    ensures s.user == (if st.user.Some? then st.user.value else None)
    ensures s.loading
  {
    AuthState(st.token.GetOr(""), st.user.GetOr(None), true)
  }

  /** `persist`: the new token and user, in state and in storage. */
  function Persist(s: AuthState, token: string, user: PublicUser): (r: (AuthState, Storage))
    ensures r.0 == s.(token := token, user := Some(user))
    ensures r.1 == Storage(Some(token), Some(Some(user)))
  {
    (s.(token := token, user := Some(user)), Storage(Some(token), Some(Some(user))))
  }

  /** `clear`, and `logout`, which is `clear`: no token, no user, both
      storage keys removed. */
  function Clear(s: AuthState): (r: (AuthState, Storage))
    ensures !IsAuthenticated(r.0) && r.0.user.None? && r.0.loading == s.loading
    ensures r.1 == Storage(None, None)
  {
    (s.(token := "", user := None), Storage(None, None))
  }

  /** What a persisted session reloads as: the same token and user, so a
      non-empty token is still signed in; after a clear, nothing is. */
  lemma ReloadKeepsSession(s: AuthState, token: string, user: PublicUser)
    ensures var (s', st) := Persist(s, token, user);
      Load(st).token == s'.token && Load(st).user == s'.user
      && (IsAuthenticated(Load(st)) <==> token != "")
    ensures !IsAuthenticated(Load(Clear(s).1)) && Load(Clear(s).1).user.None?
  {
  }

  // ---------------------------------------------------------------------
  // Errors

  /** A server reply axios rejects: its status and `data.message`. */
  datatype ErrorResponse = ErrorResponse(status: int, message: Option<string>)

  /** The fields of a thrown error the page reads: the server's reply, if
      any; whether a request went out; the axios error code; the message. */
  datatype AuthError = AuthError(response: Option<ErrorResponse>, request: bool, code: string, message: string)

  const NoTokenReceived: string := "No token received from server"
  const NoUserReceived: string := "No user data received from server"

  /** An error thrown by the provider itself, not by axios. */
  function Thrown(message: string): AuthError {
    AuthError(None, false, "", message)
  }

  /** The body of a sign-up or sign-in reply: `token` and `user`, either of
      which may be missing. */
  datatype SessionReply = SessionReply(token: Option<string>, user: Option<PublicUser>)

  /** The error axios rejects with for a reply outside 2xx: the reply's
      status and `data.message`, the code `ERR_BAD_REQUEST` for a 4xx status
      and `ERR_BAD_RESPONSE` for a 5xx one (none for any other), and the
      message "Request failed with status code N". */
  function Rejection(r: Response): (e: AuthError)
    ensures e.response == Some(ErrorResponse(r.status, MessageOf(r.body))) && e.request
    ensures e.message == "Request failed with status code " + Text.IntText(r.status)
    ensures 400 <= r.status < 500 ==> e.code == "ERR_BAD_REQUEST"
    ensures 500 <= r.status < 600 ==> e.code == "ERR_BAD_RESPONSE"
    ensures !(400 <= r.status < 600) ==> e.code == ""
  {
    var code := if r.status / 100 == 4 then "ERR_BAD_REQUEST"
                else if r.status / 100 == 5 then "ERR_BAD_RESPONSE"
                else "";
    AuthError(Some(ErrorResponse(r.status, MessageOf(r.body))), true, code,
              "Request failed with status code " + Text.IntText(r.status))
  }

  /** How axios hands over an auth route's answer: a 2xx status resolves with
      the body, any other status rejects with `Rejection`. */
  function SessionReplyOf(r: Response): (a: Result<SessionReply, AuthError>)
    ensures a.Success? <==> 200 <= r.status < 300
    ensures a.Failure? ==> a.error == Rejection(r)
    ensures a.Failure? ==> a.error.response.Some? && a.error.response.value.status == r.status
  {
    if 200 <= r.status < 300 then
      match r.body
      case Session(token, user) => Success(SessionReply(Some(token), Some(user)))
      case _ => Success(SessionReply(None, None))
    else Failure(Rejection(r))
  }

  function MessageOf(b: Body): Option<string> {
    if b.Message? then Some(b.message) else None
  }

  // ---------------------------------------------------------------------
  // Sign-up, sign-in

  /** The end of `signup` and of `signin` once the request has settled: a
      rejected request is rethrown; a reply without a token, then one without
      a user, is refused; otherwise the session is persisted. Nothing changes
      unless the result is a success. */
  function Complete(s: AuthState, st: Storage, reply: Result<SessionReply, AuthError>): (r: (Result<SessionReply, AuthError>, AuthState, Storage))
    ensures r.0.Success? <==>
      reply.Success? && reply.value.token.Some? && reply.value.token.value != "" && reply.value.user.Some?
    ensures r.0.Failure? ==> r.1 == s && r.2 == st
    ensures reply.Failure? ==> r.0 == reply
    ensures reply.Success? && (reply.value.token.None? || reply.value.token.value == "") ==>
      r.0 == Failure(Thrown(NoTokenReceived))
    ensures reply.Success? && reply.value.token.Some? && reply.value.token.value != "" && reply.value.user.None? ==>
      r.0 == Failure(Thrown(NoUserReceived))
    ensures r.0.Success? ==>
      (r.1, r.2) == Persist(s, reply.value.token.value, reply.value.user.value) && IsAuthenticated(r.1)
  {
    match reply
    case Failure(e) => (Failure(e), s, st)
    case Success(data) =>
      if data.token.None? || data.token.value == "" then (Failure(Thrown(NoTokenReceived)), s, st)
      else if data.user.None? then (Failure(Thrown(NoUserReceived)), s, st)
      else
        var (s', st') := Persist(s, data.token.value, data.user.value);
        (Success(data), s', st')
  }

  /** Signing in against the server's sign-in route: a 200 answer signs the
      client in as the user the server names, under the token it issued. */
  lemma SigninSignsIn(s: AuthState, st: Storage, sv: Server, secret: string, req: SigninRequest, now: Instant, text: string)
    requires UsersInv(sv.users)
    requires !Falsy(req.email) && FindByEmail(sv.users, req.email.value).Some? ==>
      SessionText(sv, secret, FindByEmail(sv.users, req.email.value).value.id, now, text)
    requires Signin(sv, secret, req, now, text).1.status == 200
    ensures var answer := Signin(sv, secret, req, now, text).1;
      var r := Complete(s, st, SessionReplyOf(answer));
      r.0.Success? && r.1.token == text && r.1.user == Some(answer.body.user)
  {
    var answer := Signin(sv, secret, req, now, text).1;
    assert answer.body.Session? && answer.body.token == text;
    assert text != "" by {
      assert IsTokenText(text);
    }
  }

  // ---------------------------------------------------------------------
  // Validation on mount

  /** `init`, run once when the provider mounts, with `reply` the outcome of
      `GET /api/auth/user` (the user in the body, `None` for `null`). With no
      token nothing is requested; a successful reply replaces the user (in
      state and in storage); a failed one clears the session. Loading ends
      either way. Returns whether a request was made. */
  function Init(s: AuthState, st: Storage, reply: Result<Option<PublicUser>, AuthError>): (r: (bool, AuthState, Storage))
    ensures !r.1.loading
    ensures r.0 <==> IsAuthenticated(s)
    ensures !r.0 ==> r.1 == s.(loading := false) && r.2 == st
    ensures r.0 && reply.Success? ==>
      r.1 == s.(user := reply.value, loading := false) && r.2 == st.(user := Some(reply.value))
    ensures r.0 && reply.Failure? ==>
      r.1 == AuthState("", None, false) && r.2 == Storage(None, None)
  {
    if s.token == "" then (false, s.(loading := false), st)
    else
      match reply
      case Success(u) => (true, s.(user := u, loading := false), st.(user := Some(u)))
      case Failure(_) =>
        var (s', st') := Clear(s);
        (true, s'.(loading := false), st')
  }

  /** How axios hands over the `/user` route's answer. */
  function UserReplyOf(r: Response): (a: Result<Option<PublicUser>, AuthError>)
    ensures a.Success? <==> 200 <= r.status < 300
    ensures a.Failure? ==> a.error == Rejection(r)
  {
    if 200 <= r.status < 300 then
      match r.body
      case UserData(found) => Success(found)
      case _ => Success(None)
    else Failure(Rejection(r))
  }

  /** The validation as written: the client's request carries no
      Authorization header, so the middleware answers 401. */
  function InitAsWritten(s: AuthState, st: Storage, sv: Server, secret: string, now: Instant): (bool, AuthState, Storage) {
    Init(s, st, UserReplyOf(GetUser(sv, secret, None, now)))
  }

  /** Whatever the server holds, a stored session never survives the
      validation: every signed-in client is signed out on mount. */
  lemma InitAsWrittenSignsOut(s: AuthState, st: Storage, sv: Server, secret: string, now: Instant)
    requires IsAuthenticated(s)
    ensures var r := InitAsWritten(s, st, sv, secret, now);
      !IsAuthenticated(r.1) && r.2 == Storage(None, None)
  {
    assert GetUser(sv, secret, None, now).status == 401;
  }

  /** The validation the comment in the provider describes: the stored
      token sent as a bearer token. */
  function InitWithBearer(s: AuthState, st: Storage, sv: Server, secret: string, now: Instant): (bool, AuthState, Storage) {
    Init(s, st, UserReplyOf(GetUser(sv, secret, Some(BearerPrefix + s.token), now)))
  }

  /** With the bearer token sent, a session signed in by the server stays
      signed in, as the same user, until its token expires. */
  lemma InitWithBearerKeepsSession(s: AuthState, st: Storage, sv: Server, secret: string, req: SigninRequest,
                                   issued: Instant, text: string, now: Instant)
    requires UsersInv(sv.users)
    requires !Falsy(req.email) && FindByEmail(sv.users, req.email.value).Some? ==>
      SessionText(sv, secret, FindByEmail(sv.users, req.email.value).value.id, issued, text)
    requires Signin(sv, secret, req, issued, text).1.status == 200
    requires s.token == text
    requires NumericDate(now) < NumericDate(issued) + TokenLifetime
    ensures var signedIn := Signin(sv, secret, req, issued, text);
      var r := InitWithBearer(s, st, signedIn.0, secret, now);
      IsAuthenticated(r.1) && r.1.user == Some(signedIn.1.body.user)
  {
    SigninThenGetUser(sv, secret, req, issued, text, now);
  }

  // ---------------------------------------------------------------------
  // useAuth

  const OutsideProvider: string := "useAuth must be used within AuthProvider"

  /** `useAuth`: the provider's value, or the error thrown outside one. */
  function UseAuth<T>(ctx: Option<T>): (r: Result<T, string>)
    ensures r.Success? <==> ctx.Some?
    ensures r.Success? ==> r.value == ctx.value
    ensures r.Failure? ==> r.error == OutsideProvider
  {
    match ctx
    case None => Failure(OutsideProvider)
    case Some(v) => Success(v)
  }
}

=== FILE: auth_middleware.dfy ===
/** The middleware guarding authenticated routes: it reads a bearer token
    from the Authorization header, verifies it and hands the token's user id
    on to the route, or answers 401. */
module AuthMiddleware {
  import opened Wrappers
  import Text
  import opened Calendar
  import opened Credentials

  datatype Outcome =
    /** The route is not run; the answer is `{ message }` with `status`. */
    | Reject(status: int, message: string)
    /** The route runs with `req.userId` set. */
    | Next(userId: string)

  const BearerPrefix: string := "Bearer "

  const NoToken: Outcome := Reject(401, "No token provided")
  const BadToken: Outcome := Reject(401, "Invalid or expired token")

  /** The token part of a header that starts with the prefix: the first
      occurrence of the prefix removed, then surrounding white space. */
  function TokenOf(header: string): (t: string)
    ensures Text.IsTrimmed(t)
    ensures Text.StartsWith(header, BearerPrefix) ==> t == Text.Trim(header[|BearerPrefix|..])
  {
    var rest := Text.ReplaceFirst(header, BearerPrefix, "");
    assert Text.StartsWith(header, BearerPrefix) ==> rest == header[|BearerPrefix|..] by {
      if Text.StartsWith(header, BearerPrefix) {
        Text.ReplacePrefix(header, BearerPrefix);
      }
    }
    Text.Trim(rest)
  }

  /** The middleware on a request whose Authorization header is `header`
      (`None` when absent), verifying with `secret` at `now`. */
  function Authenticate(tokens: TokenTable, secret: string, header: Option<string>, now: Instant): (r: Outcome)
    ensures r.Reject? ==> r.status == 401
    ensures r == NoToken <==> !Text.StartsWith(header.GetOr(""), BearerPrefix)
    ensures r.Next? <==>
      Text.StartsWith(header.GetOr(""), BearerPrefix)
      && Verify(tokens, secret, Text.Trim(header.GetOr("")[|BearerPrefix|..]), now).Success?
    ensures r.Next? ==>
      r.userId == Verify(tokens, secret, Text.Trim(header.GetOr("")[|BearerPrefix|..]), now).value.userId
    ensures Text.StartsWith(header.GetOr(""), BearerPrefix)
            && Verify(tokens, secret, Text.Trim(header.GetOr("")[|BearerPrefix|..]), now).Failure? ==>
      r == BadToken
  {
    var h := header.GetOr("");
    if !Text.StartsWith(h, BearerPrefix) then NoToken
    else
      Text.ReplacePrefix(h, BearerPrefix);
      match Verify(tokens, secret, TokenOf(h), now)
      case Success(claims) => Next(claims.userId)
      case Failure(_) => BadToken
  }

  /** A token text survives the header round trip: writing it after the
      prefix and reading it back gives the same text. */
  lemma BearerRoundTrip(text: string)
    requires IsTokenText(text)
    ensures Text.StartsWith(BearerPrefix + text, BearerPrefix)
    ensures TokenOf(BearerPrefix + text) == text
  {
    var h := BearerPrefix + text;
    assert h[..|BearerPrefix|] == BearerPrefix;
    Text.ReplacePrefix(h, BearerPrefix);
    assert h[|BearerPrefix|..] == text;
    assert !Text.IsJsWhitespace(text[0]) by {
      assert IsTokenChar(text[0]);
    }
    assert !Text.IsJsWhitespace(text[|text| - 1]) by {
      assert IsTokenChar(text[|text| - 1]);
    }
    Text.TrimOfTrimmed(text);
  }

  /** A token just signed for a user lets requests carrying it through as
      that user until it expires, and is refused afterwards. */
  lemma SignedTokenAuthenticates(tokens: TokenTable, secret: string, userId: string, issued: Instant,
                                 text: string, now: Instant)
    requires CanSign(tokens, text, Signed(secret, ClaimsFor(userId, issued)))
    ensures var t := Sign(tokens, secret, ClaimsFor(userId, issued), text);
      Authenticate(t, secret, Some(BearerPrefix + text), now) ==
        if NumericDate(now) < NumericDate(issued) + TokenLifetime then Next(userId) else BadToken
  {
    BearerRoundTrip(text);
  }
}

=== FILE: auth_page.dfy ===
/** The sign-in / sign-up page: where it sends the visitor afterwards, the
    checks made before calling the provider, and the message shown when the
    call fails. */
module AuthPage {
  import opened Wrappers
  import Text
  import opened Calendar
  import opened AuthRoutes
  import opened AuthContext

  /** Where a successful sign-in leads: the page the visitor came from when
      the router passed a path starting with "/", else the home page. */
  function RedirectTarget(from: Option<string>): (r: string)
    ensures Text.StartsWith(r, "/")
    ensures from.Some? && Text.StartsWith(from.value, "/") ==> r == from.value
    ensures !(from.Some? && Text.StartsWith(from.value, "/")) ==> r == "/"
  {
    if from.Some? && Text.StartsWith(from.value, "/") then from.value else "/"
  }

  /** Redirecting twice leads to the same place: a target is itself a path
      the page accepts. */
  lemma RedirectTargetStable(from: Option<string>)
    ensures RedirectTarget(Some(RedirectTarget(from))) == RedirectTarget(from)
  {
  }

  datatype Mode = SignIn | SignUp

  datatype Form = Form(email: string, password: string, confirmPassword: string)

  const FillEmailAndPassword: string := "Please fill in email and password."
  const ConfirmPassword: string := "Please confirm your password."
  const PasswordsDiffer: string := "Passwords do not match."

  /** The checks before any request, in order: a trimmed email and a
      password are required; signing up also needs a confirmation equal to
      the password. `None` when the form passes. */
  function Validate(mode: Mode, form: Form): (r: Option<string>)
    ensures r.None? <==>
      Text.Trim(form.email) != "" && form.password != ""
      && (mode == SignUp ==> form.confirmPassword != "" && form.confirmPassword == form.password)
    ensures r.Some? ==> r.value in {FillEmailAndPassword, ConfirmPassword, PasswordsDiffer}
    ensures Text.Trim(form.email) == "" || form.password == "" ==> r == Some(FillEmailAndPassword)
    ensures mode == SignIn ==> r.None? || r == Some(FillEmailAndPassword)
    ensures mode == SignUp && Text.Trim(form.email) != "" && form.password != "" && form.confirmPassword == "" ==>
      r == Some(ConfirmPassword)
    ensures mode == SignUp && Text.Trim(form.email) != "" && form.password != "" && form.confirmPassword != ""
            && form.confirmPassword != form.password ==>
      r == Some(PasswordsDiffer)
  {
    if Text.Trim(form.email) == "" || form.password == "" then Some(FillEmailAndPassword)
    else if mode == SignUp && form.confirmPassword == "" then Some(ConfirmPassword)
    else if mode == SignUp && form.password != form.confirmPassword then Some(PasswordsDiffer)
    else None
  }

  // ---------------------------------------------------------------------
  // Error messages

  const DefaultFailure: string := "Authentication failed."
  const BadRequestText: string := "Invalid email or password. Please check your credentials."
  const UnauthorizedText: string := "Invalid credentials. Please check your email and password."
  const ConflictText: string := "An account with this email already exists. Please sign in instead."
  const UnprocessableText: string := "Validation error. Please check your input."
  const ServerErrorText: string := "Server error: Please try again later."
  const NetworkText: string := "Network error: Could not connect to server. Please check your connection and try again."
  const TimeoutText: string := "Request timeout: The server took too long to respond. Please try again."
  const UnreachableText: string := "Connection error: Unable to reach the server. Check if the backend is running."

  /** `response.data.message` when it is a non-empty string. */
  predicate HasServerMessage(err: AuthError) {
    err.response.Some? && err.response.value.message.Some? && err.response.value.message.value != ""
  }

  /** The status of the server's reply, if there is one. */
  predicate StatusIs(err: AuthError, status: int) {
    err.response.Some? && err.response.value.status == status
  }

  /** The reply carries one of the five statuses the page has a text for. */
  predicate KnownStatus(err: AuthError) {
    err.response.Some? && err.response.value.status in {400, 401, 409, 422, 500}
  }

  /** The message the page shows for a failed call: the first rule that
      applies among the server's own message, five status codes, the axios
      network and timeout codes, an error with neither a response nor a
      request, and the error's own message. For 422 the server message has
      already been ruled out, so the generic text is what shows. */
  function ErrorMessage(err: AuthError): (msg: string)
    ensures msg != ""
    ensures HasServerMessage(err) ==> msg == err.response.value.message.value
    ensures !HasServerMessage(err) && StatusIs(err, 400) ==> msg == BadRequestText
    ensures !HasServerMessage(err) && StatusIs(err, 401) ==> msg == UnauthorizedText
    ensures !HasServerMessage(err) && StatusIs(err, 409) ==> msg == ConflictText
    ensures !HasServerMessage(err) && StatusIs(err, 422) ==> msg == UnprocessableText
    ensures !HasServerMessage(err) && StatusIs(err, 500) ==> msg == ServerErrorText
    ensures !HasServerMessage(err) && !KnownStatus(err) ==>
      && ((err.code == "ERR_NETWORK" || Text.Includes(err.message, "Network Error")) ==> msg == NetworkText)
      && (err.code != "ERR_NETWORK" && !Text.Includes(err.message, "Network Error") && err.code == "ECONNABORTED" ==>
            msg == TimeoutText)
    ensures !HasServerMessage(err) && !KnownStatus(err)
            && err.code != "ERR_NETWORK" && !Text.Includes(err.message, "Network Error") && err.code != "ECONNABORTED" ==>
      && (err.response.None? && !err.request ==> msg == UnreachableText)
      && ((err.response.Some? || err.request) && err.message != "" ==> msg == "Error: " + err.message)
    ensures !HasServerMessage(err) && err.response.None? && err.code == "" && !err.request
            && !Text.Includes(err.message, "Network Error") ==>
      msg == UnreachableText
    ensures !HasServerMessage(err) ==> (msg == DefaultFailure <==>
      !KnownStatus(err)
      && err.code != "ERR_NETWORK" && !Text.Includes(err.message, "Network Error") && err.code != "ECONNABORTED"
      && (err.response.Some? || err.request) && err.message == "")
  {
    if HasServerMessage(err) then err.response.value.message.value
    else if StatusIs(err, 400) then BadRequestText
    else if StatusIs(err, 401) then UnauthorizedText
    else if StatusIs(err, 409) then ConflictText
    else if StatusIs(err, 422) then UnprocessableText
    else if StatusIs(err, 500) then ServerErrorText
    else if err.code == "ERR_NETWORK" || Text.Includes(err.message, "Network Error") then NetworkText
    else if err.code == "ECONNABORTED" then TimeoutText
    else if err.response.None? && !err.request then UnreachableText
    else if err.message != "" then
      var shown := "Error: " + err.message;
      assert shown[0] != DefaultFailure[0];
      shown
    else DefaultFailure
  }

  /** A refusal with a status the page has no text for and no server
      message (the 404 of a route that is not mounted, say) shows the
      message axios gave the error. */
  lemma UnlistedStatusShowsAxiosMessage(r: Response)
    requires !(200 <= r.status < 300) && r.status !in {400, 401, 409, 422, 500}
    requires !r.body.Message? || r.body.message == ""
    ensures ErrorMessage(Rejection(r)) == "Error: " + Rejection(r).message
    ensures Rejection(r).message == "Request failed with status code " + Text.IntText(r.status)
  {
    var e := Rejection(r);
    RejectionIsNotNetwork(r);
    assert !HasServerMessage(e) && !KnownStatus(e);
    assert e.code != "ERR_NETWORK" && e.code != "ECONNABORTED";
  }

  /** Axios's message for a refused reply never mentions a network error. */
  lemma RejectionIsNotNetwork(r: Response)
    ensures !Text.Includes(Rejection(r).message, "Network Error")
  {
    var prefix := "Request failed with status code ";
    var n := Text.IntText(r.status);
    assert forall k :: 0 <= k < |prefix| ==> prefix[k] != 'N';
    assert forall k :: 0 <= k < |n| ==> n[k] != 'N';
    assert Rejection(r).message == prefix + n;
    Text.NotIncludedWithoutFirst(prefix + n, "Network Error");
  }

  /** The errors the provider throws itself (a reply without a token or
      without a user) carry neither a response nor a request, so the page
      reports them as an unreachable server rather than with their own
      text. */
  lemma ProviderErrorsShowAsUnreachable(message: string)
    requires message in {NoTokenReceived, NoUserReceived}
    ensures ErrorMessage(Thrown(message)) == UnreachableText
  {
    var r := Text.IndexOf(message, "Network Error");
    if r >= 0 {
      assert Text.OccursAt(message, "Network Error", r);
      assert message[r + 3] == "Network Error"[3] == 'w';
      NoW(message);
    }
  }

  /** Neither thrown message has a `w` in it. */
  lemma NoW(message: string)
    requires message in {NoTokenReceived, NoUserReceived}
    ensures forall k :: 0 <= k < |message| ==> message[k] != 'w'
  {
    if message == NoTokenReceived {
      assert message == "No token received from server";
    } else {
      assert message == "No user data received from server";
    }
  }

  /** A sign-in the server refuses shows the server's own reason: "Please
      enter all fields" or "Invalid credentials". */
  lemma RefusedSigninShowsReason(sv: Server, secret: string, req: SigninRequest, now: Instant, text: string,
                                 s: AuthState, st: Storage)
    requires UsersInv(sv.users)
    requires !Falsy(req.email) && FindByEmail(sv.users, req.email.value).Some? ==>
      SessionText(sv, secret, FindByEmail(sv.users, req.email.value).value.id, now, text)
    requires Signin(sv, secret, req, now, text).1.status != 200
    ensures var answer := Signin(sv, secret, req, now, text).1;
      var r := Complete(s, st, SessionReplyOf(answer));
      && r.0.Failure? && r.1 == s && r.2 == st
      && ErrorMessage(r.0.error) == answer.body.message
      && answer.body.message in {"Please enter all fields", InvalidCredentials}
  {
  }

  // ---------------------------------------------------------------------
  // Submitting

  /** The call the page makes to the provider, with the trimmed email. */
  datatype Call =
    | SigninCall(email: string, password: string)
    | SignupCall(email: string, password: string, confirmPassword: string)

  /** What the page does once it is done: go to a path, or show an error. */
  datatype Outcome = Navigate(to: string) | ShowError(message: string)

  /** `onSubmit`, with `result` the outcome of the provider's `signin` or
      `signup`. A form that fails the checks makes no call; otherwise a
      success leads to the redirect target and a failure shows its
      message. */
  function Submit(mode: Mode, form: Form, from: Option<string>, result: Result<SessionReply, AuthError>): (r: (Option<Call>, Outcome))
    ensures r.0.None? <==> Validate(mode, form).Some?
    ensures r.0.None? ==> r.1 == ShowError(Validate(mode, form).value)
    ensures r.0.Some? && mode == SignIn ==> r.0.value == SigninCall(Text.Trim(form.email), form.password)
    ensures r.0.Some? && mode == SignUp ==>
      r.0.value == SignupCall(Text.Trim(form.email), form.password, form.confirmPassword)
    ensures r.0.Some? && result.Success? ==> r.1 == Navigate(RedirectTarget(from))
    ensures r.0.Some? && result.Failure? ==> r.1 == ShowError(ErrorMessage(result.error))
    ensures r.1.Navigate? ==> Text.StartsWith(r.1.to, "/")
  {
    match Validate(mode, form)
    case Some(problem) => (None, ShowError(problem))
    case None =>
      var email := Text.Trim(form.email);
      var call := if mode == SignIn then SigninCall(email, form.password)
                  else SignupCall(email, form.password, form.confirmPassword);
      match result
      case Success(_) => (Some(call), Navigate(RedirectTarget(from)))
      case Failure(e) => (Some(call), ShowError(ErrorMessage(e)))
  }

  /** A visitor already signed in is sent to the home page instead of
      seeing the form. */
  function Landing(s: AuthState): (r: Option<string>)
    ensures r.Some? <==> IsAuthenticated(s)
    ensures r.Some? ==> r.value == "/"
  {
    if IsAuthenticated(s) then Some("/") else None
  }

  /** Submitting a form the server accepts signs the visitor in and leads
      to the redirect target; on the next render the page itself sends the
      visitor home. */
  lemma SigninLeadsOn(sv: Server, secret: string, form: Form, from: Option<string>, now: Instant, text: string,
                      s: AuthState, st: Storage)
    requires UsersInv(sv.users)
    requires Validate(SignIn, form).None?
    requires var req := SigninRequest(Some(Text.Trim(form.email)), Some(form.password));
      FindByEmail(sv.users, req.email.value).Some? ==>
        SessionText(sv, secret, FindByEmail(sv.users, req.email.value).value.id, now, text)
    requires Signin(sv, secret, SigninRequest(Some(Text.Trim(form.email)), Some(form.password)), now, text).1.status == 200
    ensures var req := SigninRequest(Some(Text.Trim(form.email)), Some(form.password));
      var r := Complete(s, st, SessionReplyOf(Signin(sv, secret, req, now, text).1));
      && Submit(SignIn, form, from, r.0).1 == Navigate(RedirectTarget(from))
      && Landing(r.1) == Some("/")
  {
    var req := SigninRequest(Some(Text.Trim(form.email)), Some(form.password));
    SigninSignsIn(s, st, sv, secret, req, now, text);
  }
}

=== FILE: auth_routes.dfy ===
/** The `/api/auth` routes: sign-up, sign-in and reading the signed-in
    user. Users are kept in insertion order; a lookup returns the first
    match. */
module AuthRoutes {
  import opened Wrappers
  import Text
  import opened Calendar
  import opened ObjectIds
  import opened Credentials
  import opened AuthMiddleware

  datatype UserRecord = UserRecord(id: ObjectId, email: string, password: PasswordHash)

  type Users = seq<UserRecord>

  /** What the routes keep between requests: the users and every token
      signed so far. */
  datatype Server = Server(users: Users, tokens: TokenTable)

  /** Ids are ObjectIds and are distinct; emails are distinct. */
  predicate UsersInv(users: Users) {
    && (forall i :: 0 <= i < |users| ==> IsObjectId(users[i].id))
    && (forall i, j :: 0 <= i < j < |users| ==> users[i].id != users[j].id && users[i].email != users[j].email)
  }

  /** `User.findOne({ email })`. */
  function FindByEmail(users: Users, email: string): (r: Option<UserRecord>)
    ensures r.Some? ==> r.value in users && r.value.email == email
    ensures r.None? <==> forall i :: 0 <= i < |users| ==> users[i].email != email
  {
    if users == [] then None
    else if users[0].email == email then Some(users[0])
    else
      var r := FindByEmail(users[1..], email);
      assert forall i :: 1 <= i < |users| ==> users[i] == users[1..][i - 1];
      r
  }

  /** `User.findById(id)`. */
  function FindById(users: Users, id: ObjectId): (r: Option<UserRecord>)
    ensures r.Some? ==> r.value in users && r.value.id == id
    ensures r.None? <==> forall i :: 0 <= i < |users| ==> users[i].id != id
  {
    if users == [] then None
    else if users[0].id == id then Some(users[0])
    else
      var r := FindById(users[1..], id);
      assert forall i :: 1 <= i < |users| ==> users[i] == users[1..][i - 1];
      r
  }

  /** The user as the routes return it: id and email, never the hash. */
  datatype PublicUser = PublicUser(id: ObjectId, email: string)

  function Public(u: UserRecord): PublicUser {
    PublicUser(u.id, u.email)
  }

  datatype Body =
    /** `{ message }` */
    | Message(message: string)
    /** `{ token, user: { id, email } }` */
    | Session(token: string, user: PublicUser)
    /** The user document without its password, or `null`. */
    | UserData(found: Option<PublicUser>)

  datatype Response = Response(status: int, body: Body)

  function BadRequest(message: string): Response {
    Response(400, Message(message))
  }

  /** A request field; `None` when missing or `null`. */
  type Field = Option<string>

  /** `!field`: missing, `null` or the empty string. */
  predicate Falsy(f: Field) {
    f.None? || f.value == ""
  }

  const MinPasswordLength: int := 6

  datatype SignupRequest = SignupRequest(email: Field, password: Field, confirmPassword: Field)

  /** The first refusal of a sign-up, in the route's order of checks, or
      `None` when the sign-up goes ahead. */
  function SignupRefusal(users: Users, req: SignupRequest): (r: Option<string>)
    ensures r == Some("Please enter all fields") <==>
      Falsy(req.email) || Falsy(req.password) || Falsy(req.confirmPassword)
    ensures r == Some("Passwords do not match") <==>
      !Falsy(req.email) && !Falsy(req.password) && !Falsy(req.confirmPassword)
      && req.password.value != req.confirmPassword.value
    ensures r == Some("Password must be at least 6 characters") <==>
      !Falsy(req.email) && !Falsy(req.password) && !Falsy(req.confirmPassword)
      && req.password.value == req.confirmPassword.value
      && Text.Utf16Length(req.password.value) < MinPasswordLength
    ensures r == Some("User already exists") <==>
      !Falsy(req.email) && !Falsy(req.password) && !Falsy(req.confirmPassword)
      && req.password.value == req.confirmPassword.value
      && Text.Utf16Length(req.password.value) >= MinPasswordLength
      && FindByEmail(users, req.email.value).Some?
    ensures r.None? <==>
      !Falsy(req.email) && !Falsy(req.password) && !Falsy(req.confirmPassword)
      && req.password.value == req.confirmPassword.value
      && Text.Utf16Length(req.password.value) >= MinPasswordLength
      && FindByEmail(users, req.email.value).None?
  {
    if Falsy(req.email) || Falsy(req.password) || Falsy(req.confirmPassword) then
      Some("Please enter all fields")
    else if req.password.value != req.confirmPassword.value then
      Some("Passwords do not match")
    else if Text.Utf16Length(req.password.value) < MinPasswordLength then
      Some("Password must be at least 6 characters")
    else if FindByEmail(users, req.email.value).Some? then
      Some("User already exists")
    else None
  }

  /** The signer's output for a new session of user `userId` at `now` can be
      `text`. */
  predicate SessionText(sv: Server, secret: string, userId: ObjectId, now: Instant, text: string)
    requires IsObjectId(userId)
  {
    CanSign(sv.tokens, text, Signed(secret, ClaimsFor(HexEncode(userId), now)))
  }

  /** `POST /signup`. The new user gets the fresh id `id`; the password is
      hashed with salt `salt`; the session token issued is `text`. */
  function Signup(sv: Server, secret: string, req: SignupRequest, id: ObjectId, salt: seq<int>,
                  now: Instant, text: string): (r: (Server, Response))
    requires UsersInv(sv.users)
    requires IsObjectId(id) && FindById(sv.users, id).None?
    requires SessionText(sv, secret, id, now, text)
    ensures UsersInv(r.0.users)
    ensures r.1.status == 201 || r.1.status == 400
    ensures r.1.status == 400 ==>
      SignupRefusal(sv.users, req).Some? && r.0 == sv && r.1 == BadRequest(SignupRefusal(sv.users, req).value)
    ensures r.1.status == 201 <==> SignupRefusal(sv.users, req).None?
    ensures r.1.status == 201 ==>
      && r.0.users == sv.users + [UserRecord(id, req.email.value, Hash(req.password.value, salt))]
      && r.1.body == Session(text, PublicUser(id, req.email.value))
      && Verify(r.0.tokens, secret, text, now) == Success(ClaimsFor(HexEncode(id), now))
  {
    match SignupRefusal(sv.users, req)
    case Some(message) => (sv, BadRequest(message))
    case None =>
      var u := UserRecord(id, req.email.value, Hash(req.password.value, salt));
      var users' := sv.users + [u];
      assert UsersInv(users') by {
        forall i, j | 0 <= i < j < |users'| ensures users'[i].id != users'[j].id && users'[i].email != users'[j].email {
          if j == |sv.users| {
            assert users'[i] == sv.users[i];
          }
        }
      }
      var claims := ClaimsFor(HexEncode(id), now);
      (Server(users', Sign(sv.tokens, secret, claims, text)), Response(201, Session(text, PublicUser(id, u.email))))
  }

  /** Signing up twice with one email: the second attempt is refused, and
      nothing changes. */
  lemma SignupTwiceRefused(sv: Server, secret: string, req: SignupRequest, id: ObjectId, salt: seq<int>,
                           now: Instant, text: string, req2: SignupRequest, id2: ObjectId, salt2: seq<int>,
                           now2: Instant, text2: string)
    requires UsersInv(sv.users)
    requires IsObjectId(id) && FindById(sv.users, id).None?
    requires SessionText(sv, secret, id, now, text)
    requires Signup(sv, secret, req, id, salt, now, text).1.status == 201
    requires req2 == req
    requires var sv' := Signup(sv, secret, req, id, salt, now, text).0;
      IsObjectId(id2) && FindById(sv'.users, id2).None? && SessionText(sv', secret, id2, now2, text2)
    ensures var sv' := Signup(sv, secret, req, id, salt, now, text).0;
      Signup(sv', secret, req2, id2, salt2, now2, text2) == (sv', BadRequest("User already exists"))
  {
    var sv' := Signup(sv, secret, req, id, salt, now, text).0;
    assert sv'.users[|sv.users|].email == req.email.value;
    assert FindByEmail(sv'.users, req.email.value).Some?;
  }

  datatype SigninRequest = SigninRequest(email: Field, password: Field)

  const InvalidCredentials: string := "Invalid credentials"

  /** `POST /signin`, issuing `text` as the session token on success. */
  function Signin(sv: Server, secret: string, req: SigninRequest, now: Instant, text: string): (r: (Server, Response))
    requires UsersInv(sv.users)
    requires !Falsy(req.email) && FindByEmail(sv.users, req.email.value).Some? ==>
      SessionText(sv, secret, FindByEmail(sv.users, req.email.value).value.id, now, text)
    ensures r.0.users == sv.users
    ensures r.1.status == 200 || r.1.status == 400
    ensures r.1.status == 400 ==> r.0 == sv
    ensures r.1 == BadRequest("Please enter all fields") <==> Falsy(req.email) || Falsy(req.password)
    ensures r.1 == BadRequest(InvalidCredentials) <==>
      !Falsy(req.email) && !Falsy(req.password)
      && (FindByEmail(sv.users, req.email.value).None?
          || !Compare(req.password.value, FindByEmail(sv.users, req.email.value).value.password))
    ensures r.1.status == 200 <==>
      !Falsy(req.email) && !Falsy(req.password) && FindByEmail(sv.users, req.email.value).Some?
      && Compare(req.password.value, FindByEmail(sv.users, req.email.value).value.password)
    ensures r.1.status == 200 ==>
      var u := FindByEmail(sv.users, req.email.value).value;
      && r.1.body == Session(text, Public(u))
      && Verify(r.0.tokens, secret, text, now) == Success(ClaimsFor(HexEncode(u.id), now))
  {
    if Falsy(req.email) || Falsy(req.password) then (sv, BadRequest("Please enter all fields"))
    else match FindByEmail(sv.users, req.email.value)
      case None => (sv, BadRequest(InvalidCredentials))
      case Some(u) =>
        if !Compare(req.password.value, u.password) then (sv, BadRequest(InvalidCredentials))
        else
          var claims := ClaimsFor(HexEncode(u.id), now);
          (sv.(tokens := Sign(sv.tokens, secret, claims, text)), Response(200, Session(text, Public(u))))
  }

  /** Signing in after signing up with the same email and password succeeds
      as the user just created. */
  lemma SignupThenSignin(sv: Server, secret: string, email: string, password: string, id: ObjectId,
                         salt: seq<int>, now: Instant, text: string, later: Instant, text2: string)
    requires UsersInv(sv.users)
    requires IsObjectId(id) && FindById(sv.users, id).None?
    requires SessionText(sv, secret, id, now, text)
    requires Signup(sv, secret, SignupRequest(Some(email), Some(password), Some(password)), id, salt, now, text).1.status == 201
    requires SessionText(Signup(sv, secret, SignupRequest(Some(email), Some(password), Some(password)), id, salt, now, text).0,
                         secret, id, later, text2)
    ensures var sv' := Signup(sv, secret, SignupRequest(Some(email), Some(password), Some(password)), id, salt, now, text).0;
      Signin(sv', secret, SigninRequest(Some(email), Some(password)), later, text2).1 ==
        Response(200, Session(text2, PublicUser(id, email)))
  {
    var sv' := Signup(sv, secret, SignupRequest(Some(email), Some(password), Some(password)), id, salt, now, text).0;
    var u := UserRecord(id, email, Hash(password, salt));
    assert sv'.users == sv.users + [u];
    assert FindByEmail(sv.users, email).None?;
    SecondLookup(sv.users, u, email);
  }

  /** Appending a record with an email nobody has makes it the one found. */
  lemma {:induction false} SecondLookup(users: Users, u: UserRecord, email: string)
    requires FindByEmail(users, email).None? && u.email == email
    ensures FindByEmail(users + [u], email) == Some(u)
  {
    if users != [] {
      assert (users + [u])[1..] == users[1..] + [u];
      SecondLookup(users[1..], u, email);
    }
  }

  /** An unknown email and a wrong password get the same answer, so the
      answer does not tell which emails are registered. */
  lemma SigninFailuresAlike(sv: Server, secret: string, unknown: string, known: string, wrong: string,
                            now: Instant, text: string)
    requires UsersInv(sv.users)
    requires FindByEmail(sv.users, unknown).None? && unknown != ""
    requires FindByEmail(sv.users, known).Some? && known != "" && wrong != ""
    requires !Compare(wrong, FindByEmail(sv.users, known).value.password)
    requires SessionText(sv, secret, FindByEmail(sv.users, known).value.id, now, text)
    ensures Signin(sv, secret, SigninRequest(Some(unknown), Some(wrong)), now, text)
         == Signin(sv, secret, SigninRequest(Some(known), Some(wrong)), now, text)
  {
    var a := Signin(sv, secret, SigninRequest(Some(unknown), Some(wrong)), now, text);
    var b := Signin(sv, secret, SigninRequest(Some(known), Some(wrong)), now, text);
    assert a.1 == BadRequest(InvalidCredentials) && a.1.status == 400;
    assert b.1 == BadRequest(InvalidCredentials) && b.1.status == 400;
  }

  /** The body of `GET /user` once the middleware has set `userId`: the
      user with that id without the password hash, or `null` when there is
      none. The ids in tokens are hex text, which every driver casts. */
  function UserFor(users: Users, userId: string): (r: Response)
    ensures r.status == 500 <==> Cast(HexOnly, userId).None?
    ensures r.status == 500 || (r.status == 200 && r.body.UserData?)
    ensures r.status == 200 && r.body.found.Some? ==>
      r.body.found.value.id == Cast(HexOnly, userId).value
      && exists i :: 0 <= i < |users| && r.body.found.value == Public(users[i])
    ensures r.status == 200 && r.body.found.None? ==>
      forall i :: 0 <= i < |users| ==> users[i].id != Cast(HexOnly, userId).value
  {
    match Cast(HexOnly, userId)
    case None => Response(500, Message("Server Error"))
    case Some(id) =>
      match FindById(users, id)
      case Some(u) => Response(200, UserData(Some(Public(u))))
      case None => Response(200, UserData(None))
  }

  /** `GET /user` behind the middleware. */
  function GetUser(sv: Server, secret: string, header: Option<string>, now: Instant): (r: Response)
    ensures r.status == 401 <==> Authenticate(sv.tokens, secret, header, now).Reject?
    ensures r.status == 401 ==> r.body == Message(Authenticate(sv.tokens, secret, header, now).message)
    ensures r.status != 401 ==> r == UserFor(sv.users, Authenticate(sv.tokens, secret, header, now).userId)
  {
    match Authenticate(sv.tokens, secret, header, now)
    case Reject(status, message) => Response(status, Message(message))
    case Next(userId) => UserFor(sv.users, userId)
  }

  /** The token returned by a sign-in, sent back as a bearer token before it
      expires, reads the same user. */
  lemma SigninThenGetUser(sv: Server, secret: string, req: SigninRequest, now: Instant, text: string, later: Instant)
    requires UsersInv(sv.users)
    requires !Falsy(req.email) && FindByEmail(sv.users, req.email.value).Some? ==>
      SessionText(sv, secret, FindByEmail(sv.users, req.email.value).value.id, now, text)
    requires Signin(sv, secret, req, now, text).1.status == 200
    requires NumericDate(later) < NumericDate(now) + TokenLifetime
    ensures var r := Signin(sv, secret, req, now, text);
      GetUser(r.0, secret, Some(BearerPrefix + text), later) == Response(200, UserData(Some(r.1.body.user)))
  {
    var u := FindByEmail(sv.users, req.email.value).value;
    var sv' := Signin(sv, secret, req, now, text).0;
    SignedTokenAuthenticates(sv.tokens, secret, HexEncode(u.id), now, text, later);
    assert u in sv.users;
    var i :| 0 <= i < |sv.users| && sv.users[i] == u;
    CastOfHex(HexOnly, u.id);
    UniqueId(sv.users, i);
  }

  /** With distinct ids, looking up a stored user's id finds that user. */
  lemma {:induction false} UniqueId(users: Users, i: int)
    requires UsersInv(users)
    requires 0 <= i < |users|
    ensures FindById(users, users[i].id) == Some(users[i])
  {
    if i > 0 {
      assert users[0].id != users[i].id;
      assert UsersInv(users[1..]) by {
        forall a, b | 0 <= a < b < |users[1..]|
          ensures users[1..][a].id != users[1..][b].id && users[1..][a].email != users[1..][b].email
        {
          assert users[1..][a] == users[a + 1] && users[1..][b] == users[b + 1];
        }
      }
      UniqueId(users[1..], i - 1);
    }
  }
}

=== FILE: calendar.dfy ===
/** Instants, days and calendar months in UTC, with the integer arithmetic
    behind JavaScript's `Date` and MongoDB's `$year` / `$month`.

    An instant is a count of milliseconds since 1970-01-01T00:00:00Z. The day
    of an instant is its floor division by the length of a day; its civil date
    comes from a decomposition of the day count into 400-year eras,
    centuries, 4-year blocks and years, each counted from the 1st of March so
    that the leap day is the last day of its year. */
module Calendar {

  type Instant = int

  const MsPerDay: int := 86_400_000
  /** Days in a 400-year Gregorian era. */
  const DaysPerEra: int := 146_097
  /** Days from 0000-03-01 to 1970-01-01. */
  const EpochShift: int := 719_468

  /** ECMAScript Day(t): floor(t / msPerDay). */
  function DayOf(t: Instant): int {
    t / MsPerDay
  }

  function TimeOfDay(t: Instant): int {
    t % MsPerDay
  }

  /** The instant `time` milliseconds into day `day`: every instant is one,
      in exactly one way. */
  function At(day: int, time: int): (t: Instant)
    requires 0 <= time < MsPerDay
    ensures DayOf(t) == day && TimeOfDay(t) == time
  {
    day * MsPerDay + time
  }

  lemma AtDayAndTime(t: Instant)
    ensures At(DayOf(t), TimeOfDay(t)) == t
  {
  }

  /** The instant at the same time of day `n` days earlier. */
  lemma DaysEarlier(t: Instant, n: int)
    ensures At(DayOf(t) - n, TimeOfDay(t)) == t - n * MsPerDay
  {
    AtDayAndTime(t);
  }

  datatype Civil = Civil(year: int, month: int, day: int)

  /** Days since 1970-01-01 of a calendar date. The day may run past the end
      of its month (or below 1): it then counts on into the neighbouring
      months, as `new Date(y, m, d)` does. */
  function DaysFromCivil(y: int, m: int, d: int): int
    requires 1 <= m <= 12
  {
    var y' := if m <= 2 then y - 1 else y;
    var era := y' / 400;
    var yoe := y' - era * 400;
    var mp := if m > 2 then m - 3 else m + 9;
    var doy := (153 * mp + 2) / 5 + d - 1;
    var doe := yoe * 365 + yoe / 4 - yoe / 100 + doy;
    era * DaysPerEra + doe - EpochShift
  }

  /** Days before a year of an era begins, counting from the era's 1st of
      March: 365 per year, plus the leap days of the years before it. */
  function DaysBeforeYearOfEra(yoe: int): int {
    yoe * 365 + yoe / 4 - yoe / 100
  }

  /** Splits a day of an era (0..146096) into the year of the era and the day
      of that March-based year. Every century but the last has 36524 days,
      every 4-year block but a century's last has 1461, and the leap day is
      the 366th day of the block's last year. */
  function YearOfEra(doe: int): (r: (int, int))
    requires 0 <= doe < DaysPerEra
    ensures 0 <= r.0 < 400 && 0 <= r.1 <= 365
    ensures DaysBeforeYearOfEra(r.0) + r.1 == doe
  {
    var century := if doe / 36524 == 4 then 3 else doe / 36524;
    var inCentury := doe - century * 36524;
    var block := inCentury / 1461;
    var inBlock := inCentury - block * 1461;
    var yearInBlock := if inBlock / 365 == 4 then 3 else inBlock / 365;
    var yoe := century * 100 + block * 4 + yearInBlock;
    assert 0 <= block <= 24 && 0 <= yearInBlock <= 3;
    assert yoe / 4 == century * 25 + block;
    assert yoe / 100 == century;
    (yoe, inBlock - yearInBlock * 365)
  }

  /** Position (0..11, March first) of the month holding a day of a
      March-based year. */
  function MonthOfYearDay(doy: int): (mp: int)
    requires 0 <= doy <= 365
    ensures 0 <= mp <= 11
    ensures (153 * mp + 2) / 5 <= doy
  {
    (5 * doy + 2) / 153
  }

  /** The calendar date of a day count. */
  function CivilFromDays(z: int): (c: Civil)
    ensures 1 <= c.month <= 12
    ensures 1 <= c.day <= 31
  {
    var shifted := z + EpochShift;
    var era := shifted / DaysPerEra;
    var (yoe, doy) := YearOfEra(shifted - era * DaysPerEra);
    DateInEra(era, yoe, doy)
  }

  /** The date of day `doy` (from the 1st of March) of year `yoe` of era
      `era`; January and February count towards the next calendar year. */
  function DateInEra(era: int, yoe: int, doy: int): (c: Civil)
    requires 0 <= doy <= 365
    ensures 1 <= c.month <= 12
    ensures 1 <= c.day <= 31
  {
    var mp := MonthOfYearDay(doy);
    var d := doy - (153 * mp + 2) / 5 + 1;
    var m := if mp < 10 then mp + 3 else mp - 9;
    Civil(yoe + era * 400 + (if m <= 2 then 1 else 0), m, d)
  }

  /** Reading a day count as a calendar date and converting it back gives the
      same day count: the decomposition loses nothing. */
  lemma CivilRoundTrip(z: int)
    ensures var c := CivilFromDays(z); DaysFromCivil(c.year, c.month, c.day) == z
  {
    var shifted := z + EpochShift;
    var era := shifted / DaysPerEra;
    var (yoe, doy) := YearOfEra(shifted - era * DaysPerEra);
    DateOfEra(era, yoe, doy);
  }

  /** The date on day `doy` of year `yoe` of era `era` converts back to
      that day. */
  lemma DateOfEra(era: int, yoe: int, doy: int)
    requires 0 <= yoe < 400 && 0 <= doy <= 365
    ensures var c := DateInEra(era, yoe, doy);
      DaysFromCivil(c.year, c.month, c.day) == era * DaysPerEra + DaysBeforeYearOfEra(yoe) + doy - EpochShift
  {
    var y' := yoe + era * 400;
    assert y' / 400 == era;
    assert y' - (y' / 400) * 400 == yoe;
  }

  /** A calendar month, numbered 1..12 within its year. */
  datatype YearMonth = YearMonth(year: int, month: int)

  predicate ValidYearMonth(ym: YearMonth) {
    1 <= ym.month <= 12
  }

  /** Months counted from January of year 0: consecutive months get
      consecutive indexes, so comparing indexes is chronological order. */
  function MonthIndex(ym: YearMonth): int {
    ym.year * 12 + ym.month - 1
  }

  function FromMonthIndex(i: int): (ym: YearMonth)
    ensures ValidYearMonth(ym)
    ensures MonthIndex(ym) == i
  {
    YearMonth(i / 12, i % 12 + 1)
  }

  /** A valid month is recovered from its index: the index identifies the
      month. */
  lemma MonthIndexRoundTrip(ym: YearMonth)
    requires ValidYearMonth(ym)
    ensures FromMonthIndex(MonthIndex(ym)) == ym
  {
    var i := MonthIndex(ym);
    assert i == ym.year * 12 + (ym.month - 1);
    assert i / 12 == ym.year;
  }

  lemma MonthIndexInjective(a: YearMonth, b: YearMonth)
    requires ValidYearMonth(a) && ValidYearMonth(b)
    requires MonthIndex(a) == MonthIndex(b)
    ensures a == b
  {
    MonthIndexRoundTrip(a);
    MonthIndexRoundTrip(b);
  }

  /** `$year` / `$month` of an instant, and `getFullYear()` / `getMonth()`
      (the latter 0-based, so one less) read in UTC. */
  function YearMonthOf(t: Instant): (ym: YearMonth)
    ensures ValidYearMonth(ym)
  {
    var c := CivilFromDays(DayOf(t));
    YearMonth(c.year, c.month)
  }

  /** The month `k` months before `ym`: `new Date(y, m - k, 1)`. */
  function MonthsBefore(ym: YearMonth, k: int): (r: YearMonth)
    ensures ValidYearMonth(r)
    ensures MonthIndex(r) == MonthIndex(ym) - k
  {
    FromMonthIndex(MonthIndex(ym) - k)
  }

  // ---------------------------------------------------------------------
  // Lengths of months and years

  /** Days since 1970-01-01 of the 1st of March of year `y`. */
  function MarchFirst(y: int): int {
    var era := y / 400;
    era * DaysPerEra + DaysBeforeYearOfEra(y - era * 400) - EpochShift
  }

  /** A date counts its days from the 1st of March of its March-based year
      (January and February belong to the year before). */
  lemma DaysFromMarchFirst(y: int, m: int, d: int)
    requires 1 <= m <= 12
    ensures var mp := if m > 2 then m - 3 else m + 9;
      DaysFromCivil(y, m, d) == MarchFirst(if m <= 2 then y - 1 else y) + (153 * mp + 2) / 5 + d - 1
  {
  }

  /** A March-based year has 365 or 366 days. */
  lemma YearLength(y: int)
    ensures 365 <= MarchFirst(y + 1) - MarchFirst(y) <= 366
  {
    var era := y / 400;
    var yoe := y - era * 400;
    if yoe < 399 {
      assert (y + 1) / 400 == era;
      assert (yoe + 1) / 4 - yoe / 4 <= 1;
      assert (yoe + 1) / 100 - yoe / 100 <= (yoe + 1) / 4 - yoe / 4;
    } else {
      assert (y + 1) / 400 == era + 1;
      assert (y + 1) - (era + 1) * 400 == 0;
    }
  }

  /** Days since 1970-01-01 of the 1st of `ym`. */
  function MonthStart(ym: YearMonth): int
    requires ValidYearMonth(ym)
  {
    DaysFromCivil(ym.year, ym.month, 1)
  }

  /** Every month has 28 to 31 days: the month with index `i + 1` starts
      that many days after the month with index `i`. */
  lemma MonthLength(i: int)
    ensures 28 <= MonthStart(FromMonthIndex(i + 1)) - MonthStart(FromMonthIndex(i)) <= 31
  {
    var ym := FromMonthIndex(i);
    var next := if ym.month == 12 then YearMonth(ym.year + 1, 1) else YearMonth(ym.year, ym.month + 1);
    assert MonthIndex(next) == i + 1;
    MonthIndexRoundTrip(next);
    DaysInMonth(ym.year, ym.month);
  }

  lemma DaysInMonth(y: int, m: int)
    requires 1 <= m <= 12
    ensures var next := if m == 12 then DaysFromCivil(y + 1, 1, 1) else DaysFromCivil(y, m + 1, 1);
      28 <= next - DaysFromCivil(y, m, 1) <= 31
  {
    DaysFromMarchFirst(y, m, 1);
    if m == 12 {
      DaysFromMarchFirst(y + 1, 1, 1);
    } else {
      DaysFromMarchFirst(y, m + 1, 1);
      if m == 2 {
        YearLength(y - 1);
      }
    }
  }

  /** The same month a year later starts 365 or 366 days later. */
  lemma YearOfMonths(i: int)
    ensures 365 <= MonthStart(FromMonthIndex(i + 12)) - MonthStart(FromMonthIndex(i)) <= 366
  {
    var ym := FromMonthIndex(i);
    var later := YearMonth(ym.year + 1, ym.month);
    assert MonthIndex(later) == i + 12;
    MonthIndexRoundTrip(later);
    DaysInYear(ym.year, ym.month);
  }

  lemma DaysInYear(y: int, m: int)
    requires 1 <= m <= 12
    ensures 365 <= DaysFromCivil(y + 1, m, 1) - DaysFromCivil(y, m, 1) <= 366
  {
    DaysFromMarchFirst(y, m, 1);
    DaysFromMarchFirst(y + 1, m, 1);
    YearLength(if m <= 2 then y - 1 else y);
  }

  // ---------------------------------------------------------------------
  // Date arithmetic

  /** ECMAScript MakeDay(year, month, date) with a 0-based month that may lie
      outside 0..11: the month first carries into the year (the month with
      index `12 * year + month`), then the date counts on from the 1st of
      that month, past its end or below 1 if need be. */
  function MakeDay(year: int, month0: int, date: int): (z: int)
    ensures 0 <= month0 < 12 ==> z == DaysFromCivil(year, month0 + 1, 1) + date - 1
  {
    var ym := FromMonthIndex(12 * year + month0);
    assert 0 <= month0 < 12 ==> ym == YearMonth(year, month0 + 1) by {
      if 0 <= month0 < 12 {
        MonthIndexRoundTrip(YearMonth(year, month0 + 1));
      }
    }
    MonthStart(ym) + date - 1
  }

  /** The day count of a calendar date read back through MakeDay is the day
      count itself. */
  lemma MakeDayOfCivil(z: int)
    ensures var c := CivilFromDays(z); MakeDay(c.year, c.month - 1, c.day) == z
  {
    CivilRoundTrip(z);
    MakeDayOfDate(CivilFromDays(z));
  }

  /** MakeDay of a date with its month in range is the date's day count. */
  lemma MakeDayOfDate(c: Civil)
    requires 1 <= c.month <= 12
    ensures MakeDay(c.year, c.month - 1, c.day) == DaysFromCivil(c.year, c.month, c.day)
  {
    var ym := YearMonth(c.year, c.month);
    assert MonthIndex(ym) == 12 * c.year + c.month - 1;
    MonthIndexRoundTrip(ym);
    DayOfMonth(c.year, c.month, c.day);
  }

  /** A day of a month counts on from the 1st. */
  lemma DayOfMonth(y: int, m: int, d: int)
    requires 1 <= m <= 12
    ensures DaysFromCivil(y, m, d) == DaysFromCivil(y, m, 1) + d - 1
  {
  }

  /** Seven days before a date, by its day of the month: `setDate(d - 7)`. */
  lemma WeekBack(z: int)
    ensures var c := CivilFromDays(z); MakeDay(c.year, c.month - 1, c.day - 7) == z - 7
  {
    MakeDayOfCivil(z);
  }

  /** The same day of the month before: `setMonth(m - 1)`, 28 to 31 days
      back. */
  lemma MonthBack(z: int)
    ensures var c := CivilFromDays(z); z - 31 <= MakeDay(c.year, c.month - 2, c.day) <= z - 28
  {
    var c := CivilFromDays(z);
    MakeDayOfCivil(z);
    MonthLength(12 * c.year + c.month - 2);
  }

  /** The same date a year before: `setFullYear(y - 1)`, 365 or 366 days
      back. */
  lemma YearBack(z: int)
    ensures var c := CivilFromDays(z); z - 366 <= MakeDay(c.year - 1, c.month - 1, c.day) <= z - 365
  {
    var c := CivilFromDays(z);
    MakeDayOfCivil(z);
    YearOfMonths(12 * c.year + c.month - 13);
  }
}

=== FILE: credentials.dfy ===
/** Password hashing with bcrypt and session tokens with JSON Web Tokens.

    Both are cryptographic functions the model treats as ideal. A bcrypt
    digest is represented by the key bytes it was computed from, so two
    digests with the same salt and cost agree exactly when their keys do. A
    signed token is a text the signer has recorded against its claims and
    secret; verification succeeds only for recorded texts, so a token cannot
    be forged. */
module Credentials {
  import opened Wrappers
  import Text
  import opened Calendar

  // ---------------------------------------------------------------------
  // bcrypt

  /** bcrypt reads at most this many key bytes. */
  const MaxKeyBytes: int := 72
  /** The cost the routes pass to `genSalt`. */
  const SaltRounds: int := 10

  /** The password's bytes as bcrypt reads them: its UTF-8 encoding and a
      terminating NUL. */
  function KeyBytes(password: string): (b: seq<int>)
    ensures |b| == |Text.Utf8(password)| + 1 && b[|b| - 1] == 0
  {
    Text.Utf8(password) + [0]
  }

  /** The 72 bytes the key schedule consumes: the key bytes read round and
      round from the start until 72 have been taken. A password of 71 bytes or
      fewer therefore shows up as its bytes, the NUL, and then its bytes again;
      only the first 72 bytes of a longer one are used. */
  function EffectiveKey(password: string): (k: seq<int>)
    ensures |k| == MaxKeyBytes
    ensures |Text.Utf8(password)| >= MaxKeyBytes ==> k == Text.Utf8(password)[..MaxKeyBytes]
    ensures |Text.Utf8(password)| < MaxKeyBytes ==>
      k[..|Text.Utf8(password)| + 1] == Text.Utf8(password) + [0]
  {
    var b := KeyBytes(password);
    var k := ReadRound(b);
    assert forall i :: 0 <= i < |b| && i < MaxKeyBytes ==> k[i] == b[i] by {
      forall i | 0 <= i < |b| && i < MaxKeyBytes ensures k[i] == b[i] {
        ModOfMultiple(i, |b|, 0, i);
      }
    }
    k
  }

  /** The first 72 bytes of `b` read round and round from its start. */
  function ReadRound(b: seq<int>): (k: seq<int>)
    requires b != []
    ensures |k| == MaxKeyBytes
    ensures forall i :: 0 <= i < MaxKeyBytes ==> k[i] == b[i % |b|]
  {
    seq(MaxKeyBytes, i requires 0 <= i => b[i % |b|])
  }

  /** A stored hash: cost and salt in clear, then the digest. */
  datatype PasswordHash = PasswordHash(cost: int, salt: seq<int>, digest: seq<int>)

  /** `bcrypt.compare(candidate, h)`: rehashes the candidate with the stored
      cost and salt and compares the results. */
  function Compare(candidate: string, h: PasswordHash): (r: bool)
    ensures r <==> h.digest == EffectiveKey(candidate)
    ensures r ==> |h.digest| == MaxKeyBytes
  {
    PasswordHash(h.cost, h.salt, EffectiveKey(candidate)) == h
  }

  /** `bcrypt.hash(password, salt)` with a salt made at cost 10. The
      password it was made from matches it, whatever the salt. */
  function Hash(password: string, salt: seq<int>): (h: PasswordHash)
    ensures h.cost == SaltRounds && h.salt == salt
    ensures Compare(password, h)
  {
    PasswordHash(SaltRounds, salt, EffectiveKey(password))
  }

  /** A candidate matches a hash exactly when it has the same effective key
      as the hashed password: the salt plays no part in the decision. */
  lemma CompareMeansSameKey(candidate: string, password: string, salt: seq<int>)
    ensures Compare(candidate, Hash(password, salt)) <==> EffectiveKey(candidate) == EffectiveKey(password)
  {
  }

  /** For passwords under 72 UTF-8 bytes and without U+0000, matching is
      exact: a candidate matches exactly when it has the same bytes. The NUL
      that ends each key marks where the password stops. */
  lemma ShortPasswordsMatchExactly(candidate: string, password: string, salt: seq<int>)
    requires |Text.Utf8(candidate)| < MaxKeyBytes && |Text.Utf8(password)| < MaxKeyBytes
    requires forall i :: 0 <= i < |candidate| ==> candidate[i] != '\0'
    requires forall i :: 0 <= i < |password| ==> password[i] != '\0'
    ensures Compare(candidate, Hash(password, salt)) <==> Text.Utf8(candidate) == Text.Utf8(password)
  {
    var a := Text.Utf8(candidate);
    var b := Text.Utf8(password);
    NulEndsShortKey(candidate);
    NulEndsShortKey(password);
    if EffectiveKey(candidate) == EffectiveKey(password) {
      assert |a| == |b|;
      assert a == EffectiveKey(candidate)[..|a|] == EffectiveKey(password)[..|b|] == b;
    }
  }

  /** In the key of a short password without U+0000, the first zero byte is
      the NUL just after the password's bytes. */
  lemma NulEndsShortKey(password: string)
    requires |Text.Utf8(password)| < MaxKeyBytes
    requires forall i :: 0 <= i < |password| ==> password[i] != '\0'
    ensures var n := |Text.Utf8(password)|;
      && EffectiveKey(password)[n] == 0
      && EffectiveKey(password)[..n] == Text.Utf8(password)
      && forall i :: 0 <= i < n ==> EffectiveKey(password)[i] != 0
  {
    var u := Text.Utf8(password);
    var n := |u|;
    var k := EffectiveKey(password);
    var head := k[..n + 1];
    assert head == u + [0];
    assert k[n] == head[n] == 0;
    assert k[..n] == head[..n] == (u + [0])[..n] == u;
    Text.Utf8NoZero(password);
    forall i | 0 <= i < n ensures k[i] != 0 {
      assert k[i] == head[i] == u[i];
    }
  }

  /** Only the first 72 bytes count: two passwords that agree on them match
      each other's hashes, whatever follows. */
  lemma LongPasswordsShareHash(candidate: string, password: string, salt: seq<int>)
    requires |Text.Utf8(candidate)| >= MaxKeyBytes && |Text.Utf8(password)| >= MaxKeyBytes
    requires Text.Utf8(candidate)[..MaxKeyBytes] == Text.Utf8(password)[..MaxKeyBytes]
    ensures Compare(candidate, Hash(password, salt))
    ensures Compare(password, Hash(candidate, salt))
  {
    CompareMeansSameKey(candidate, password, salt);
    CompareMeansSameKey(password, candidate, salt);
  }

  /** Reading the key round and round makes a short password and the same
      password repeated after a U+0000 indistinguishable: each matches the
      other's hash. */
  lemma RepeatAfterNulMatches(password: string, salt: seq<int>)
    requires |Text.Utf8(password)| < MaxKeyBytes
    ensures Compare(password + "\0" + password, Hash(password, salt))
    ensures Compare(password, Hash(password + "\0" + password, salt))
  {
    KeyBytesOfRepeat(password);
    ReadRoundDouble(KeyBytes(password));
  }

  /** The key bytes of a password repeated after a U+0000 are its key bytes
      twice. */
  lemma KeyBytesOfRepeat(password: string)
    ensures KeyBytes(password + "\0" + password) == KeyBytes(password) + KeyBytes(password)
  {
    var u := Text.Utf8(password);
    assert Text.Utf8("\0") == [0] by {
      Text.Utf8Snoc([], '\0');
      assert [] + ['\0'] == "\0";
    }
    calc {
      KeyBytes(password + "\0" + password);
      Text.Utf8(password + "\0" + password) + [0];
      { Text.Utf8Append(password + "\0", password); }
      Text.Utf8(password + "\0") + u + [0];
      { Text.Utf8Append(password, "\0"); }
      u + [0] + u + [0];
      KeyBytes(password) + KeyBytes(password);
    }
  }

  lemma ReadRoundDouble(b: seq<int>)
    requires b != []
    ensures ReadRound(b + b) == ReadRound(b)
  {
    forall i | 0 <= i < MaxKeyBytes
      ensures ReadRound(b + b)[i] == ReadRound(b)[i]
    {
      CyclicDouble(b, i);
    }
  }

  /** Reading `b + b` round and round gives the bytes of reading `b`. */
  lemma CyclicDouble(b: seq<int>, i: nat)
    requires b != []
    ensures (b + b)[i % (2 * |b|)] == b[i % |b|]
  {
    var n := |b|;
    var j := i % (2 * n);
    var q := i / (2 * n);
    assert i == 2 * n * q + j;
    if j < n {
      assert i == n * (2 * q) + j;
      ModOfMultiple(i, n, 2 * q, j);
    } else {
      assert i == n * (2 * q + 1) + (j - n);
      ModOfMultiple(i, n, 2 * q + 1, j - n);
    }
  }

  /** The remainder is the unique `r` in range with `i == n * q + r`. */
  lemma ModOfMultiple(i: int, n: int, q: int, r: int)
    requires n > 0 && 0 <= r < n && i == n * q + r
    ensures i % n == r
  {
    var d := i / n;
    var m := i % n;
    assert n * (q - d) == m - r;
    if q - d >= 1 {
      MulAtLeast(n, q - d);
    } else if q - d <= -1 {
      MulAtLeast(n, d - q);
    }
  }

  lemma {:induction false} MulAtLeast(n: int, k: int)
    requires n > 0 && k >= 1
    ensures n * k >= n
  {
    if k > 1 {
      MulAtLeast(n, k - 1);
      assert n * k == n * (k - 1) + n;
    }
  }

  // ---------------------------------------------------------------------
  // JSON Web Tokens

  /** The secret used when the environment sets none (or sets it empty). */
  const DefaultSecret: string := "dev_secret_change_me"

  /** `process.env.JWT_SECRET || 'dev_secret_change_me'`. */
  function SecretOf(env: Option<string>): (s: string)
    ensures s != ""
    ensures env.Some? && env.value != "" ==> s == env.value
    ensures env.None? || env.value == "" ==> s == DefaultSecret
  {
    if env.Some? && env.value != "" then env.value else DefaultSecret
  }

  /** `expiresIn: '7d'`, in seconds. */
  const TokenLifetime: int := 604_800

  /** A JWT NumericDate: whole seconds of an instant, rounded down. */
  function NumericDate(now: Instant): int {
    now / 1000
  }

  /** The payload of a session token: the user's id (as its hex text), the
      issue time and the expiry time, both in seconds. */
  datatype Claims = Claims(userId: string, iat: int, exp: int)

  /** The claims `jwt.sign({ userId }, secret, { expiresIn: '7d' })` writes
      at `now`. */
  function ClaimsFor(userId: string, now: Instant): (c: Claims)
    ensures c.userId == userId
    ensures c.iat == NumericDate(now) && c.exp == c.iat + TokenLifetime
    ensures c.iat * 1000 <= now < (c.iat + 1) * 1000
  {
    Claims(userId, NumericDate(now), NumericDate(now) + TokenLifetime)
  }

  datatype Signed = Signed(secret: string, claims: Claims)

  /** Every token text signed so far, with what it was signed over. */
  type TokenTable = map<string, Signed>

  /** The characters of a compact JWT: base64url digits and the dots between
      its three parts. */
  predicate IsTokenChar(c: char) {
    ('A' <= c <= 'Z') || ('a' <= c <= 'z') || ('0' <= c <= '9') || c == '-' || c == '_' || c == '.'
  }

  predicate IsTokenText(t: string) {
    t != [] && forall k :: 0 <= k < |t| ==> IsTokenChar(t[k])
  }

  /** `text` can be the signer's output for `signed`: signing is a function,
      so a text already issued stands for the same claims and secret. */
  predicate CanSign(tokens: TokenTable, text: string, signed: Signed) {
    IsTokenText(text) && (text !in tokens || tokens[text] == signed)
  }

  /** `jwt.sign`: records `text` as the signature of `claims` under
      `secret`. */
  function Sign(tokens: TokenTable, secret: string, claims: Claims, text: string): (r: TokenTable)
    requires CanSign(tokens, text, Signed(secret, claims))
    ensures r.Keys == tokens.Keys + {text}
    ensures r[text] == Signed(secret, claims)
    ensures forall t :: t in tokens ==> r[t] == tokens[t]
  {
    tokens[text := Signed(secret, claims)]
  }

  datatype VerifyError = InvalidToken | InvalidSignature | Expired

  /** `jwt.verify(text, secret)` at `now`: the text must have been signed
      with this secret, and the current NumericDate must be before `exp`. */
  function Verify(tokens: TokenTable, secret: string, text: string, now: Instant): (r: Result<Claims, VerifyError>)
    ensures r.Success? <==>
      text in tokens && tokens[text].secret == secret && NumericDate(now) < tokens[text].claims.exp
    ensures r.Success? ==> r.value == tokens[text].claims
    ensures r == Failure(Expired) <==>
      text in tokens && tokens[text].secret == secret && NumericDate(now) >= tokens[text].claims.exp
  {
    if text !in tokens then Failure(InvalidToken)
    else if tokens[text].secret != secret then Failure(InvalidSignature)
    else if NumericDate(now) >= tokens[text].claims.exp then Failure(Expired)
    else Success(tokens[text].claims)
  }

  /** A freshly signed token verifies, with its claims, under the same
      secret until seven days after it was issued, and no longer. */
  lemma SignThenVerify(tokens: TokenTable, secret: string, userId: string, issued: Instant, text: string, now: Instant)
    requires CanSign(tokens, text, Signed(secret, ClaimsFor(userId, issued)))
    ensures Verify(Sign(tokens, secret, ClaimsFor(userId, issued), text), secret, text, now).Success? <==>
      NumericDate(now) < NumericDate(issued) + TokenLifetime
    ensures Verify(Sign(tokens, secret, ClaimsFor(userId, issued), text), secret, text, now).Success? ==>
      Verify(Sign(tokens, secret, ClaimsFor(userId, issued), text), secret, text, now).value.userId == userId
  {
  }

  /** Signing a new token leaves every earlier token's verdict as it was. */
  lemma SignKeepsVerdicts(tokens: TokenTable, secret: string, claims: Claims, text: string,
                          other: string, verifier: string, now: Instant)
    requires CanSign(tokens, text, Signed(secret, claims))
    requires other in tokens
    ensures Verify(Sign(tokens, secret, claims, text), verifier, other, now) == Verify(tokens, verifier, other, now)
  {
  }

  /** A token signed with one secret never verifies under another. */
  lemma OtherSecretRejects(tokens: TokenTable, secret: string, claims: Claims, text: string,
                           verifier: string, now: Instant)
    requires CanSign(tokens, text, Signed(secret, claims))
    requires verifier != secret
    ensures Verify(Sign(tokens, secret, claims, text), verifier, text, now) == Failure(InvalidSignature)
  {
  }
}

=== FILE: dashboard.dfy ===
/** The dashboard: summary cards and the category chart from the server's
    statistics, and from the full expense list (newest first) the recent
    entries, the monthly bars and the 30-day spending trend. */
module Dashboard {
  import opened Wrappers
  import opened Calendar
  import opened ExpenseModel
  import opened Aggregation
  import opened ExpenseRoutes

  // ---------------------------------------------------------------------
  // Cards and category chart, from the statistics (absent until loaded)

  datatype Cards = Cards(total: int, count: int, average: real)

  /** "Total Expenses" (`stats?.total || 0`), "Total Transactions"
      (`stats?.count || 0`) and "Average per Transaction" (total / count
      when the count is positive, else 0). */
  function SummaryCards(stats: Option<Stats>): (r: Cards)
    ensures stats.None? ==> r == Cards(0, 0, 0.0)
    ensures stats.Some? ==> r.total == stats.value.total && r.count == stats.value.count
    ensures r.count > 0 ==> r.average * (r.count as real) == r.total as real
    ensures r.count <= 0 ==> r.average == 0.0
  {
    match stats
    case None => Cards(0, 0, 0.0)
    case Some(st) => Cards(st.total, st.count, if st.count > 0 then st.total as real / st.count as real else 0.0)
  }

  /** For statistics the server computed over a list of expenses, the cards
      show its sum, its length and the server's own average. */
  lemma CardsShowServerStats(st: Stats, s: seq<Expense>)
    requires IsStatsOf(st, s)
    ensures SummaryCards(Some(st)) == Cards(Sum(s), |s|, st.average)
  {
  }

  /** One slice of the category pie: `{ name: _id, value: total }`. */
  datatype Slice = Slice(name: string, value: int)

  /** `getCategoryChartData`: nothing before the statistics arrive, else one
      slice per category bucket, in the same order. */
  function CategoryChartData(stats: Option<Stats>): (r: seq<Slice>)
    ensures stats.None? ==> r == []
    ensures stats.Some? ==> |r| == |stats.value.categoryStats|
    ensures stats.Some? ==> forall i :: 0 <= i < |r| ==>
      r[i] == Slice(stats.value.categoryStats[i].key, stats.value.categoryStats[i].total)
  {
    match stats
    case None => []
    case Some(st) =>
      seq(|st.categoryStats|, i requires 0 <= i < |st.categoryStats| => Slice(st.categoryStats[i].key, st.categoryStats[i].total))
  }

  /** Over the server's statistics of a list, the pie has one slice per
      category present, each worth that category's sum, largest first. */
  lemma ChartOfServerStats(st: Stats, s: seq<Expense>)
    requires IsStatsOf(st, s)
    ensures var r := CategoryChartData(Some(st));
      && (forall i, j :: 0 <= i < j < |r| ==> r[i].name != r[j].name && r[i].value >= r[j].value)
      && (forall i :: 0 <= i < |r| ==> r[i].value == Total(s, AmountIf(CategoryOf, r[i].name)))
      && (set i | 0 <= i < |r| :: r[i].name) == KeysIn(s, CategoryOf)
  {
    var r := CategoryChartData(Some(st));
    var b := st.categoryStats;
    forall i | 0 <= i < |r| ensures r[i].value == Total(s, AmountIf(CategoryOf, r[i].name)) {
      assert b[i] in b;
    }
    forall i, j | 0 <= i < j < |r| ensures r[i].name != r[j].name && r[i].value >= r[j].value {
      assert ByTotalDescending(b[i]) <= ByTotalDescending(b[j]);
    }
    assert (set i | 0 <= i < |r| :: r[i].name) == KeysOf(b) by {
      forall k | k in KeysOf(b) ensures exists i :: 0 <= i < |r| && r[i].name == k {
        var x :| x in b && x.key == k;
        var i :| 0 <= i < |b| && b[i] == x;
        assert r[i].name == k;
      }
    }
  }

  // ---------------------------------------------------------------------
  // From the expense list

  /** How many list entries the "Recent Expenses" panel shows. */
  const RecentCount: int := 5

  /** `slice(0, 5)`: the first five entries, or all when there are fewer. */
  function Recent(list: seq<Expense>): (r: seq<Expense>)
    ensures |r| == if |list| < RecentCount then |list| else RecentCount
    ensures r == list[..|r|]
  {
    if |list| <= RecentCount then list else list[..RecentCount]
  }

  /** The list comes newest first, so no entry left out of the panel is
      newer than one it shows. */
  lemma RecentAreNewest(list: seq<Expense>)
    requires forall i, j :: 0 <= i < j < |list| ==> list[i].date >= list[j].date
    ensures forall i, j :: 0 <= i < |Recent(list)| <= j < |list| ==> Recent(list)[i].date >= list[j].date
  {
  }

  /** How many months the monthly bars keep. */
  const MonthsShown: int := 6

  /** The last six entries, or all when there are fewer. */
  function LastMonths(b: seq<Bucket<YearMonth>>): (r: seq<Bucket<YearMonth>>)
    ensures |r| == if |b| < MonthsShown then |b| else MonthsShown
    ensures r == b[|b| - |r|..]
  {
    if |b| <= MonthsShown then b else b[|b| - MonthsShown..]
  }

  /** `getMonthlyData`: nothing for an empty list, else the list grouped by
      calendar month, in chronological order, of which the last six. */
  function MonthlyData(all: seq<Expense>): (r: seq<Bucket<YearMonth>>)
    ensures |r| <= MonthsShown && |r| <= |MonthlyBreakdown(all)|
    ensures r == MonthlyBreakdown(all)[|MonthlyBreakdown(all)| - |r|..]
  {
    if all == [] then [] else LastMonths(MonthlyBreakdown(all))
  }

  /** A tail of a list of buckets keeps its buckets, their distinct keys
      and their order. */
  lemma SuffixOfBuckets(b: seq<Bucket<YearMonth>>, n: int)
    requires 0 <= n <= |b|
    ensures forall x :: x in b[n..] ==> x in b
    ensures DistinctKeys(b) ==> DistinctKeys(b[n..])
    ensures (forall i, j :: 0 <= i < j < |b| ==> MonthIndex(b[i].key) < MonthIndex(b[j].key)) ==>
      forall i, j :: 0 <= i < j < |b[n..]| ==> MonthIndex(b[n..][i].key) < MonthIndex(b[n..][j].key)
  {
    var r := b[n..];
    forall x | x in r ensures x in b {
      var j :| 0 <= j < |r| && r[j] == x;
      assert x == b[n + j];
    }
  }

  /** The bars: at most six months that have expenses, each once, with its
      sum and count, oldest first. */
  lemma MonthlyDataSpec(all: seq<Expense>)
    ensures all == [] ==> MonthlyData(all) == []
    ensures |MonthlyData(all)| <= MonthsShown
    ensures DistinctKeys(MonthlyData(all)) && KeysOf(MonthlyData(all)) <= KeysIn(all, MonthOf)
    ensures forall x :: x in MonthlyData(all) ==>
      x.total == Total(all, AmountIf(MonthOf, x.key)) && x.count == Total(all, OneIf(MonthOf, x.key))
    ensures var r := MonthlyData(all);
      forall i, j :: 0 <= i < j < |r| ==> MonthIndex(r[i].key) < MonthIndex(r[j].key)
  {
    if all != [] {
      var b := MonthlyBreakdown(all);
      MonthlyBreakdownSpec(all);
      var r := LastMonths(b);
      SuffixOfBuckets(b, |b| - |r|);
    }
  }

  /** The bars show the latest months: every month with expenses that is
      left out is older than every month shown, and when fewer than six are
      shown none is left out. */
  lemma MonthlyDataLatest(all: seq<Expense>)
    ensures var r := MonthlyData(all);
      forall m, x :: m in KeysIn(all, MonthOf) && m !in KeysOf(r) && x in r ==> MonthIndex(m) < MonthIndex(x.key)
    ensures |MonthlyData(all)| < MonthsShown ==> KeysOf(MonthlyData(all)) == KeysIn(all, MonthOf)
  {
    if all != [] {
      var b := MonthlyBreakdown(all);
      MonthlyBreakdownSpec(all);
      assert KeysOf(b) == KeysIn(all, MonthOf);
      SuffixIsLatest(b, |b| - |LastMonths(b)|);
    }
  }

  /** In a list of buckets in chronological order, the keys a tail leaves
      out are older than every bucket in the tail. */
  lemma SuffixIsLatest(b: seq<Bucket<YearMonth>>, n: int)
    requires 0 <= n <= |b|
    requires forall i, j :: 0 <= i < j < |b| ==> MonthIndex(b[i].key) < MonthIndex(b[j].key)
    ensures forall m, x :: m in KeysOf(b) && m !in KeysOf(b[n..]) && x in b[n..] ==> MonthIndex(m) < MonthIndex(x.key)
    ensures n == 0 ==> KeysOf(b[n..]) == KeysOf(b)
  {
    var r := b[n..];
    forall m, x | m in KeysOf(b) && m !in KeysOf(r) && x in r ensures MonthIndex(m) < MonthIndex(x.key) {
      var y :| y in b && y.key == m;
      var i :| 0 <= i < |b| && b[i] == y;
      var j :| 0 <= j < |r| && r[j] == x;
      assert x == b[n + j];
      if i >= n {
        assert r[i - n] == y;
      }
    }
    if n == 0 {
      assert r == b;
    }
  }

  /** A day's takings in the spending trend. */
  datatype DayTotal = DayTotal(day: int, amount: int)

  /** How many days the spending trend covers, ending today. */
  const TrendDays: int := 30

  /** The UTC day an expense is dated on (`toISOString().split('T')[0]`). */
  function DayOfExpense(e: Expense): int {
    DayOf(e.date)
  }

  /** `getSpendingTrendData`: nothing for an empty list, else one slot for
      each of the 30 days ending today, oldest first, holding the sum of the
      expenses dated on that day; expenses outside the window are not
      counted. */
  method SpendingTrend(all: seq<Expense>, now: Instant) returns (r: seq<DayTotal>)
    ensures all == [] ==> r == []
    ensures all != [] ==> |r| == TrendDays
    ensures all != [] ==> forall j :: 0 <= j < |r| ==>
      r[j].day == DayOf(now) - (TrendDays - 1) + j && r[j].amount == Total(all, AmountIf(DayOfExpense, r[j].day))
  {
    if all == [] {
      return [];
    }
    var first := DayOf(now) - (TrendDays - 1);
    var amounts := seq(TrendDays, _ => 0);
    var k := 0;
    while k < |all|
      invariant 0 <= k <= |all|
      invariant |amounts| == TrendDays
      invariant forall j :: 0 <= j < TrendDays ==> amounts[j] == Total(all[..k], AmountIf(DayOfExpense, first + j))
    {
      var slot := DayOfExpense(all[k]) - first;
      if 0 <= slot < TrendDays {
        amounts := amounts[slot := amounts[slot] + all[k].amount];
      }
      assert all[..k + 1][..k] == all[..k];
      k := k + 1;
    }
    assert all[..|all|] == all;
    r := seq(TrendDays, j requires 0 <= j < TrendDays => DayTotal(first + j, amounts[j]));
  }
}

=== FILE: expense_form.dfy ===
/** The add/edit expense form: its fields, the payload it sends, the
    required-field check, the choice between creating and updating, and what
    the form shows once the server has answered. */
module ExpenseForm {
  import opened Wrappers
  import Text
  import opened Calendar
  import opened ObjectIds
  import opened ExpenseModel
  import opened ExpenseRoutes

  /** The category options of the select, in display order. */
  const FormCategories: seq<string> :=
    ["Food", "Transportation", "Entertainment", "Shopping", "Bills", "Healthcare", "Education", "Other"]

  /** The select offers exactly the schema's categories, in the schema's
      order. */
  lemma FormCategoriesAreSchemaCategories()
    ensures FormCategories == Categories
    ensures forall c :: c in FormCategories <==> IsCategory(c)
  {
  }

  // ---------------------------------------------------------------------
  // Amount text
  //
  // Amounts are whole hundredths of the currency unit, while the form's text
  // is written in the unit itself, with up to two decimals (`step="0.01"`).

  /** Where the run of digits that starts at `i` ends. */
  function DigitEnd(s: string, i: nat): (j: nat)
    requires i <= |s|
    ensures i <= j <= |s|
    ensures forall k :: i <= k < j ==> Text.IsDigit(s[k])
    ensures j < |s| ==> !Text.IsDigit(s[j])
    decreases |s| - i
  {
    if i < |s| && Text.IsDigit(s[i]) then DigitEnd(s, i + 1) else i
  }

  /** The digits at the front of `s`. */
  function LeadingDigits(s: string): (d: string)
    ensures forall k :: 0 <= k < |d| ==> Text.IsDigit(d[k])
  {
    s[..DigitEnd(s, 0)]
  }

  /** The digits after a decimal point that directly follows the leading
      digits of `s`; empty when no point follows them. */
  function FractionDigits(s: string): (f: string)
    ensures forall k :: 0 <= k < |f| ==> Text.IsDigit(f[k])
  {
    var p := DigitEnd(s, 0);
    if p < |s| && s[p] == '.' then s[p + 1..DigitEnd(s, p + 1)] else []
  }

  /** The hundredths the digits after the point stand for: the first two
      digits, a missing second digit counting as 0. */
  function Hundredths(f: string): (c: int)
    requires forall k :: 0 <= k < |f| ==> Text.IsDigit(f[k])
    ensures 0 <= c < 100
    ensures f == [] ==> c == 0
  {
    if f == [] then 0
    else Text.DigitValue(f[0]) * 10 + (if |f| == 1 then 0 else Text.DigitValue(f[1]))
  }

  /** `parseFloat` on the amount text, in hundredths: leading white space is
      skipped, then an optional sign, then digits with an optional point and
      more digits; text with no digit there is NaN (`None`), and whatever
      follows the number is ignored. */
  function ParseAmount(text: string): (r: Option<int>)
    ensures var t := Text.TrimStart(text); var rest := SignFree(t);
      && (r.Some? <==> LeadingDigits(rest) != [] || FractionDigits(rest) != [])
      && (r.Some? ==> var v: int := Text.DigitsValue(LeadingDigits(rest)) * 100 + Hundredths(FractionDigits(rest));
            && (t != [] && t[0] == '-' ==> r.value == -v)
            && (t == [] || t[0] != '-' ==> r.value == v))
    ensures r.Some? && r.value < 0 ==> Text.TrimStart(text) != [] && Text.TrimStart(text)[0] == '-'
  {
    var t := Text.TrimStart(text);
    var rest := SignFree(t);
    var whole := LeadingDigits(rest);
    var fraction := FractionDigits(rest);
    if whole == [] && fraction == [] then None
    else
      var v: int := Text.DigitsValue(whole) * 100 + Hundredths(fraction);
      var negative := t != [] && t[0] == '-';
      Some(if negative then -v else v)
  }

  /** The text after an optional leading sign. */
  function SignFree(t: string): (rest: string)
    ensures rest == t || (t != [] && (t[0] == '-' || t[0] == '+') && rest == t[1..])
  {
    if t != [] && (t[0] == '-' || t[0] == '+') then t[1..] else t
  }

  /** The digits after the point for `tens` tenths and `ones` hundredths,
      without a trailing zero; empty when both are zero. */
  function FractionText(tens: int, ones: int): (f: string)
    requires 0 <= tens < 10 && 0 <= ones < 10
    ensures forall k :: 0 <= k < |f| ==> Text.IsDigit(f[k])
    ensures f == [] <==> tens == 0 && ones == 0
  {
    if ones != 0 then [Text.Digit(tens), Text.Digit(ones)]
    else if tens != 0 then [Text.Digit(tens)]
    else []
  }

  /** The whole units written out in `whole`, then, when there is a
      fraction, a point and its digits. */
  function PartsText(whole: string, tens: int, ones: int): string
    requires 0 <= tens < 10 && 0 <= ones < 10
  {
    var f := FractionText(tens, ones);
    if f == [] then whole else whole + ['.'] + f
  }

  /** `amount.toString()` for an amount of `n` hundredths: the whole units,
      then, when there are hundredths, a point and their digits. */
  function AmountText(n: nat): (s: string)
    ensures s != [] && Text.IsDigit(s[0])
    ensures s == Text.DecimalText(n / 100) <==> n % 100 == 0
    ensures n % 100 != 0 ==>
      && |Text.DecimalText(n / 100)| + 2 <= |s| <= |Text.DecimalText(n / 100)| + 3
      && s[..|Text.DecimalText(n / 100)| + 1] == Text.DecimalText(n / 100) + ['.']
      && s[|s| - 1] != '0'
  {
    var whole := Text.DecimalText(n / 100);
    var s := PartsText(whole, n % 100 / 10, n % 10);
    assert s[0] == whole[0];
    assert n % 100 != 0 ==> s[..|whole| + 1] == whole + ['.'];
    s
  }

  /** A run of digits from `i` to `j` that no digit follows ends at `j`. */
  lemma {:induction false} DigitEndAt(s: string, i: nat, j: nat)
    requires i <= j <= |s|
    requires forall k :: i <= k < j ==> Text.IsDigit(s[k])
    requires j < |s| ==> !Text.IsDigit(s[j])
    ensures DigitEnd(s, i) == j
    decreases j - i
  {
    if i < j {
      DigitEndAt(s, i + 1, j);
    }
  }

  /** The fraction digits read back as hundredths. */
  lemma HundredthsOfText(tens: int, ones: int)
    requires 0 <= tens < 10 && 0 <= ones < 10
    ensures Hundredths(FractionText(tens, ones)) == tens * 10 + ones
  {
  }

  /** Text that starts with a digit has no white space or sign to skip. */
  lemma UnsignedStart(s: string)
    requires s != [] && Text.IsDigit(s[0])
    ensures Text.TrimStart(s) == s && SignFree(s) == s
  {
    assert !Text.IsJsWhitespace(s[0]);
  }

  /** Digits followed by a tail that does not continue the number: the
      digits are the whole part and there is no fraction. */
  lemma ReadWhole(whole: string, tail: string)
    requires forall k :: 0 <= k < |whole| ==> Text.IsDigit(whole[k])
    requires tail == [] || (!Text.IsDigit(tail[0]) && tail[0] != '.')
    ensures LeadingDigits(whole + tail) == whole
    ensures FractionDigits(whole + tail) == []
  {
    var s := whole + tail;
    DigitEndAt(s, 0, |whole|);
    assert s[..|whole|] == whole;
  }

  /** Digits, a point and more digits, then a tail that does not continue
      the number: the two runs of digits are the whole part and the
      fraction. */
  lemma ReadFraction(whole: string, f: string, tail: string)
    requires forall k :: 0 <= k < |whole| ==> Text.IsDigit(whole[k])
    requires forall k :: 0 <= k < |f| ==> Text.IsDigit(f[k])
    requires tail == [] || !Text.IsDigit(tail[0])
    ensures LeadingDigits(whole + ['.'] + f + tail) == whole
    ensures FractionDigits(whole + ['.'] + f + tail) == f
  {
    var s := whole + ['.'] + f + tail;
    var p := |whole|;
    DigitEndAt(s, 0, p);
    assert s[..p] == whole;
    DigitEndAt(s, p + 1, p + 1 + |f|);
    assert s[p + 1..p + 1 + |f|] == f;
  }

  /** The pieces `parseFloat` finds in whole digits and a fraction,
      followed by a tail that does not continue the number. */
  lemma ReadPartsText(whole: string, tens: int, ones: int, tail: string)
    requires forall k :: 0 <= k < |whole| ==> Text.IsDigit(whole[k])
    requires 0 <= tens < 10 && 0 <= ones < 10
    requires tail == [] || (!Text.IsDigit(tail[0]) && tail[0] != '.')
    ensures LeadingDigits(PartsText(whole, tens, ones) + tail) == whole
    ensures FractionDigits(PartsText(whole, tens, ones) + tail) == FractionText(tens, ones)
  {
    if FractionText(tens, ones) == [] {
      ReadWhole(whole, tail);
    } else {
      ReadFraction(whole, FractionText(tens, ones), tail);
    }
  }

  /** Unsigned text whose leading digits and fraction are known reads as
      their value. */
  lemma ParseOfParts(s: string, whole: string, f: string, v: int)
    requires s != [] && Text.IsDigit(s[0])
    requires LeadingDigits(s) == whole && FractionDigits(s) == f
    requires v == Text.DigitsValue(whole) * 100 + Hundredths(f)
    ensures ParseAmount(s) == Some(v)
  {
    UnsignedStart(s);
  }

  /** An amount in hundredths is its whole units, tenths and hundredths. */
  lemma AmountDigits(n: nat)
    ensures n == n / 100 * 100 + n % 100 / 10 * 10 + n % 10
  {
  }

  /** Reading back the text of an amount gives the amount, and so does
      reading it with anything after it that does not continue the number:
      the form shows `amount.toString()` and sends `parseFloat` of it. */
  lemma ParseAmountText(n: nat, tail: string)
    requires tail == [] || (!Text.IsDigit(tail[0]) && tail[0] != '.')
    ensures ParseAmount(AmountText(n) + tail) == Some(n)
  {
    var whole := Text.DecimalText(n / 100);
    var tens, ones := n % 100 / 10, n % 10;
    var s := AmountText(n) + tail;
    assert s[0] == whole[0];
    ReadPartsText(whole, tens, ones, tail);
    HundredthsOfText(tens, ones);
    Text.DigitsValueOfDecimal(n / 100);
    AmountDigits(n);
    ParseOfParts(s, whole, FractionText(tens, ones), n);
  }

  /** A typed trailing zero reads like the shown text. */
  lemma ParseTrailingZero()
    ensures ParseAmount("12.50") == Some(1250)
  {
    var s := "12.50";
    assert s == "12" + ['.'] + "50" + [];
    ReadFraction("12", "50", []);
    assert Text.DigitsValue("12") == 12 by {
      assert "12"[..1] == "1";
    }
    assert Hundredths("50") == 50;
    ParseOfParts(s, "12", "50", 1250);
  }

  /** A leading minus sign gives the negative amount, which the schema then
      refuses. */
  lemma ParseNegative()
    ensures ParseAmount("-5") == Some(-500)
  {
    var s := "-5";
    assert !Text.IsJsWhitespace(s[0]);
    assert Text.TrimStart(s) == s && SignFree(s) == "5";
    assert "5" == "5" + [];
    ReadWhole("5", []);
  }

  /** Digits past the hundredths are dropped. */
  lemma ParseDropsThirdDecimal()
    ensures ParseAmount("0.999") == Some(99)
  {
    var s := "0.999";
    assert s == "0" + ['.'] + "999" + [];
    ReadFraction("0", "999", []);
    assert Text.DigitsValue("0") == 0 by {
      assert "0"[..0] == [];
    }
    assert Hundredths("999") == 99;
    ParseOfParts(s, "0", "999", 99);
  }

  /** A point with no digit on either side is not a number. */
  lemma ParseBarePoint()
    ensures ParseAmount(".") == None
  {
    var s := ".";
    assert Text.TrimStart(s) == s && SignFree(s) == s by {
      assert !Text.IsJsWhitespace(s[0]);
    }
    assert LeadingDigits(s) == [] && FractionDigits(s) == [] by {
      assert DigitEnd(s, 0) == 0;
      assert DigitEnd(s, 1) == 1;
    }
    ParseNoDigits(s);
  }

  /** Text with no white space or sign to skip and no digit on either side
      of a point is not a number. */
  lemma ParseNoDigits(s: string)
    requires Text.TrimStart(s) == s && SignFree(s) == s
    requires LeadingDigits(s) == [] && FractionDigits(s) == []
    ensures ParseAmount(s) == None
  {
  }

  // ---------------------------------------------------------------------
  // Form state

  /** The form's inputs. `date` is the day the date input holds (its
      `YYYY-MM-DD` text names a UTC day), `None` when it is empty. */
  datatype FormData = FormData(amount: string, category: string, description: string, date: Option<int>)

  /** The blank form: empty fields and today's date. */
  function EmptyForm(now: Instant): FormData {
    FormData("", "", "", Some(DayOf(now)))
  }

  /** `fetchExpense`: the stored expense copied into the form for editing. */
  function FormOf(e: Expense): (d: FormData)
    requires e.amount >= 0
    ensures ParseAmount(d.amount) == Some(e.amount)
    ensures d.category == e.category && d.description == e.description
    ensures d.date == Some(DayOf(e.date))
  {
    ParseAmountText(e.amount, []);
    assert AmountText(e.amount) + [] == AmountText(e.amount);
    FormData(AmountText(e.amount), e.category, e.description, Some(DayOf(e.date)))
  }

  /** The body the form sends. A date-only text is read by the server as
      midnight UTC of that day, and an empty one as `null`; an amount that is
      not a number is serialised as `null`. */
  function Payload(d: FormData): (f: Fields)
    ensures f.amount.Given? <==> ParseAmount(d.amount).Some?
    ensures f.amount.Given? ==> f.amount.value == ParseAmount(d.amount).value
    ensures f.amount.Null? <==> ParseAmount(d.amount).None?
    ensures f.category == Some(d.category) && f.description == Some(d.description)
    ensures f.date.Given? <==> d.date.Some?
    ensures f.date.Null? <==> d.date.None?
    ensures d.date.Some? ==> DayOf(f.date.value) == d.date.value && TimeOfDay(f.date.value) == 0
  {
    Fields(match ParseAmount(d.amount) case None => Null case Some(a) => Given(a),
           Some(d.category), Some(d.description),
           match d.date case None => Null case Some(day) => Given(At(day, 0)))
  }

  datatype Request =
    | Post(body: Fields)
    | Put(id: string, body: Fields)

  datatype FormState = FormState(data: FormData, error: string, success: string)

  const FillAllFields: string := "Please fill in all required fields"
  const Added: string := "Expense added successfully!"
  const Updated: string := "Expense updated successfully!"
  const Fallback: string := "An error occurred"

  predicate MissingRequired(d: FormData) {
    d.amount == "" || d.category == "" || d.description == ""
  }

  /** `error.response?.data?.message`: only a 500 body carries a
      `message`. */
  function MessageOf(reply: Option<Response>): Option<string> {
    if reply.Some? && reply.value.body.ServerError? then Some(reply.value.body.message) else None
  }

  /** A reply axios resolves with: one with a 2xx status. */
  predicate Accepted(reply: Option<Response>) {
    reply.Some? && 200 <= reply.value.status < 300
  }

  /** `handleSubmit` on the form of expense `id` (`None` when adding), with
      `reply` the server's answer to the request it sends (`None` when none
      arrives). Returns the request sent, if any, and the new form state. */
  function HandleSubmit(id: Option<string>, st: FormState, now: Instant, reply: Option<Response>): (r: (Option<Request>, FormState))
    ensures r.0.None? <==> MissingRequired(st.data)
    ensures r.0.None? ==> r.1 == st.(error := FillAllFields)
    ensures r.0.Some? ==> r.0.value == (if id.Some? then Put(id.value, Payload(st.data)) else Post(Payload(st.data)))
    ensures r.0.Some? && Accepted(reply) ==> r.1.error == ""
    ensures r.0.Some? && Accepted(reply) && id.None? ==> r.1.data == EmptyForm(now) && r.1.success == Added
    ensures r.0.Some? && Accepted(reply) && id.Some? ==> r.1.data == st.data && r.1.success == Updated
    ensures r.0.Some? && !Accepted(reply) ==>
      r.1 == FormState(st.data, if MessageOf(reply).Some? && MessageOf(reply).value != "" then MessageOf(reply).value else Fallback, "")
  {
    if MissingRequired(st.data) then (None, st.(error := FillAllFields))
    else
      var body := Payload(st.data);
      var sent := if id.Some? then Put(id.value, body) else Post(body);
      var cleared := st.(error := "", success := "");
      if !Accepted(reply) then
        var m := MessageOf(reply);
        (Some(sent), cleared.(error := if m.Some? && m.value != "" then m.value else Fallback))
      else if id.Some? then (Some(sent), cleared.(success := Updated))
      else (Some(sent), cleared.(data := EmptyForm(now), success := Added))
  }

  /** Editing a stored expense and saving it unchanged sends its own amount,
      category and description back, with the date moved to midnight UTC of
      its day. */
  lemma SaveUnchangedEdit(id: string, e: Expense, st: FormState, now: Instant, reply: Option<Response>)
    requires Valid(e)
    requires st.data == FormOf(e)
    ensures HandleSubmit(Some(id), st, now, reply).0 ==
      Some(Put(id, Fields(Given(e.amount), Some(e.category), Some(e.description), Given(At(DayOf(e.date), 0)))))
  {
    CategoryNonEmpty(e.category);
    PayloadOfForm(e);
    SubmitSends(id, st, now, reply);
  }

  /** A complete form under edit sends a `PUT` of its payload. */
  lemma SubmitSends(id: string, st: FormState, now: Instant, reply: Option<Response>)
    requires !MissingRequired(st.data)
    ensures HandleSubmit(Some(id), st, now, reply).0 == Some(Put(id, Payload(st.data)))
  {
  }

  /** Saving an edit after clearing the date input (which the input's
      `required` attribute normally prevents) sends `date` as `null`: the
      update is refused with a 500 listing "Date is required", and the
      stored expense stays as it was. */
  lemma ClearedDateEditRefused(rule: CastRule, st: Store, idText: string, d: FormData, now: Instant)
    requires StoreInv(st)
    requires Cast(rule, idText).Some? && Cast(rule, idText).value in st
    requires d.date.None?
    ensures var r := Update(rule, st, idText, Payload(d), now);
      r.0 == st && r.1 == Fail(Rejected(ValidatePatch(Payload(d))))
    ensures DateRequired in ValidatePatch(Payload(d))
    ensures DateRequired.Message() == "Date is required"
  {
    var f := Payload(d);
    assert f.date.Null?;
    NullDateRefused(rule, st, idText, f, now);
  }

  /** The form of a stored expense with a category and a description is
      complete, and sends the expense's fields back. */
  lemma PayloadOfForm(e: Expense)
    requires e.amount >= 0 && e.category != "" && e.description != ""
    ensures !MissingRequired(FormOf(e))
    ensures Payload(FormOf(e)) == Fields(Given(e.amount), Some(e.category), Some(e.description), Given(At(DayOf(e.date), 0)))
  {
    assert FormOf(e).amount != "";
  }

  /** A refused update of a missing expense (404, `{ msg }`) shows the
      fallback text: the body has no `message`. */
  lemma NotFoundMessage(id: string, st: FormState, now: Instant)
    requires !MissingRequired(st.data)
    ensures HandleSubmit(Some(id), st, now, Some(NotFound)).1.error == Fallback
  {
    assert MessageOf(Some(NotFound)) == None;
  }

  /** A refused save (500) shows the server's "Server Error". */
  lemma ServerErrorMessage(id: string, st: FormState, now: Instant, cause: Cause)
    requires !MissingRequired(st.data)
    ensures HandleSubmit(Some(id), st, now, Some(Fail(cause))).1.error == "Server Error"
  {
    assert MessageOf(Some(Fail(cause))) == Some("Server Error");
  }
}

=== FILE: expense_list.dfy ===
/** The expense list page: the loaded list, the delete confirmation dialog
    and the local update after a delete. */
module ExpenseList {
  import opened Wrappers
  import opened ObjectIds
  import opened ExpenseModel
  import opened Aggregation
  import opened ExpenseRoutes

  /** `{ open, expense }`: whether the dialog shows, and for which expense. */
  datatype Dialog = Dialog(open: bool, expense: Option<Expense>)

  const Closed: Dialog := Dialog(false, None)

  datatype ListState = ListState(expenses: seq<Expense>, error: string, dialog: Dialog, deleting: bool)

  const DeleteFailed: string := "Failed to delete expense"

  /** The trash button of a row: the dialog opens on that expense. */
  function OpenDialog(st: ListState, e: Expense): (r: ListState)
    ensures r.dialog.open && r.dialog.expense == Some(e)
    ensures r.expenses == st.expenses && r.error == st.error
  {
    st.(dialog := Dialog(true, Some(e)))
  }

  /** "Cancel": the dialog closes and the list stays as it is. */
  function Cancel(st: ListState): (r: ListState)
    ensures !r.dialog.open && r.dialog.expense.None?
    ensures r.expenses == st.expenses && r.error == st.error
  {
    st.(dialog := Closed)
  }

  function OtherThan(id: ObjectId): Expense -> bool {
    (e: Expense) => e.id != id
  }

  /** `handleDelete`, with `reply` the server's answer to the delete request
      (`None` when none arrives). With no expense in the dialog no request is
      made and the attempt fails. After a 2xx reply the entries with the
      deleted id leave the list and the dialog closes; otherwise the list and
      the dialog stay and the error is set. */
  function HandleDelete(st: ListState, reply: Option<Response>): (r: ListState)
    ensures !r.deleting
    ensures st.dialog.expense.Some? && reply.Some? && 200 <= reply.value.status < 300 ==>
      r.dialog == Closed && r.error == st.error
      && forall e :: e in r.expenses <==> e in st.expenses && e.id != st.dialog.expense.value.id
    ensures !(st.dialog.expense.Some? && reply.Some? && 200 <= reply.value.status < 300) ==>
      r == st.(error := DeleteFailed, deleting := false)
  {
    match st.dialog.expense
    case None => st.(error := DeleteFailed, deleting := false)
    case Some(target) =>
      if reply.Some? && 200 <= reply.value.status < 300 then
        st.(expenses := Keep(st.expenses, OtherThan(target.id)), dialog := Closed, deleting := false)
      else st.(error := DeleteFailed, deleting := false)
  }

  /** After a successful delete the remaining entries keep their order; on
      a list with distinct ids that held the expense, exactly one entry
      goes. */
  lemma DeleteKeepsOrder(st: ListState, reply: Option<Response>)
    requires st.dialog.expense.Some? && reply.Some? && 200 <= reply.value.status < 300
    ensures IsSubsequence(HandleDelete(st, reply).expenses, st.expenses)
    ensures (forall i, j :: 0 <= i < j < |st.expenses| ==> st.expenses[i].id != st.expenses[j].id)
            && st.dialog.expense.value in st.expenses ==>
      |HandleDelete(st, reply).expenses| == |st.expenses| - 1
  {
    var target := st.dialog.expense.value;
    KeepIsSubsequence(st.expenses, OtherThan(target.id));
    if (forall i, j :: 0 <= i < j < |st.expenses| ==> st.expenses[i].id != st.expenses[j].id)
       && target in st.expenses {
      RemoveOne(st.expenses, target);
    }
  }

  /** In a list with distinct ids, filtering out one entry's id drops that
      entry alone. */
  lemma {:induction false} RemoveOne(s: seq<Expense>, x: Expense)
    requires forall i, j :: 0 <= i < j < |s| ==> s[i].id != s[j].id
    requires x in s
    ensures |Keep(s, OtherThan(x.id))| == |s| - 1
  {
    if s[0].id == x.id {
      forall k | 0 <= k < |s[1..]| ensures OtherThan(x.id)(s[1..][k]) {
        assert s[1..][k] == s[k + 1];
      }
      KeepAll(s[1..], OtherThan(x.id));
    } else {
      assert x in s[1..];
      RemoveOne(s[1..], x);
    }
  }

  /** When the server's delete route removes the expense of the dialog, the
      page afterwards holds exactly the expenses the server still stores,
      provided it held exactly the stored ones before. */
  lemma DeleteMatchesServer(rule: CastRule, store: Store, idText: string, st: ListState)
    requires StoreInv(store)
    requires st.dialog.expense.Some? && Cast(rule, idText) == Some(st.dialog.expense.value.id)
    requires forall e :: e in st.expenses <==> e in store.Values
    ensures Delete(rule, store, idText).1.status == 200 ==>
      forall e :: e in HandleDelete(st, Some(Delete(rule, store, idText).1)).expenses <==>
        e in Delete(rule, store, idText).0.Values
  {
    var target := st.dialog.expense.value;
    var after := Delete(rule, store, idText).0;
    if Delete(rule, store, idText).1.status == 200 {
      forall e | true
        ensures e in HandleDelete(st, Some(Delete(rule, store, idText).1)).expenses <==> e in after.Values
      {
        if e in after.Values {
          var k :| k in after && after[k] == e;
        }
        if e in store.Values && e.id != target.id {
          var k :| k in store && store[k] == e;
          assert k == e.id;
        }
      }
    }
  }
}

=== FILE: expense_model.dfy ===
/** The expense schema: field constraints, the defaults and setters applied
    when a document is built, the validators run before it is saved or
    updated, and the extra pre-save check on the amount. */
module ExpenseModel {
  import opened Wrappers
  import Text
  import opened Calendar
  import opened ObjectIds

  /** The category enum, in schema order. */
  const Categories: seq<string> :=
    ["Food", "Transportation", "Entertainment", "Shopping", "Bills", "Healthcare", "Education", "Other"]

  const MaxDescriptionLength: int := 200

  predicate IsCategory(c: string) {
    c in Categories
  }

  /** Every category has a name. */
  lemma CategoryNonEmpty(c: string)
    requires IsCategory(c)
    ensures c != ""
  {
    assert "" !in Categories;
  }

  /** A stored expense document. `user` is the owner's id; `createdAt` and
      `updatedAt` are the timestamps the schema maintains. */
  datatype Expense = Expense(
    id: ObjectId,
    user: ObjectId,
    amount: int,
    category: string,
    description: string,
    date: Instant,
    createdAt: Instant,
    updatedAt: Instant)

  /** The invariants every saved expense satisfies. */
  predicate Valid(e: Expense) {
    && IsObjectId(e.id)
    && IsObjectId(e.user)
    && e.amount >= 0
    && IsCategory(e.category)
    && Text.IsTrimmed(e.description)
    && e.description != "" && Text.Utf16Length(e.description) <= MaxDescriptionLength
  }

  /** A body field that may be `null`: left out of the body, sent as `null`
      (or as a value Mongoose casts to `null`, such as an empty date text),
      or given. */
  datatype Nullable<T> = Absent | Null | Given(value: T) {
    function GetOr(default: T): T {
      if Given? then value else default
    }
  }

  /** The fields a request supplies for a new or changed expense; `None` is a
      field the body leaves out. The form always sends the category and the
      description as strings, while its amount and date may travel as
      `null`. */
  datatype Fields = Fields(
    amount: Nullable<int>,
    category: Option<string>,
    description: Option<string>,
    date: Nullable<Instant>)

  /** One failed path of a validation error, in schema path order. */
  datatype FieldError =
    | UserCastFailed(text: string)
    | AmountRequired
    | AmountNegative
    | CategoryRequired
    | CategoryNotInEnum(value: string)
    | DescriptionRequired
    | DescriptionTooLong
    | DateRequired
    | AmountNegativeOnSave
  {
    /** The schema's message for the failure; the enum failure carries the
        library's default wording. The wording of a cast failure changed
        between Mongoose versions (later ones add the value's type and the
        driver's reason), so only the opening they share is kept. */
    function Message(): string {
      match this
      case UserCastFailed(t) => "Cast to ObjectId failed for value \"" + t + "\""
      case AmountRequired => "Amount is required"
      case AmountNegative => "Amount cannot be negative"
      case CategoryRequired => "Category is required"
      case CategoryNotInEnum(v) => "`" + v + "` is not a valid enum value for path `category`."
      case DescriptionRequired => "Description is required"
      case DescriptionTooLong => "Description cannot exceed 200 characters"
      case DateRequired => "Date is required"
      case AmountNegativeOnSave => "Amount cannot be negative"
    }
  }

  // Validators of a single present value. A path reports at most one error:
  // the first of its validators that fails.

  function AmountErrors(a: int): seq<FieldError> {
    if a < 0 then [AmountNegative] else []
  }

  /** A string path is `required` only when non-empty. */
  function CategoryErrors(c: string): seq<FieldError> {
    if c == "" then [CategoryRequired]
    else if !IsCategory(c) then [CategoryNotInEnum(c)]
    else []
  }

  /** Applied to the description after the `trim` setter; `maxlength`
      counts `.length`, that is UTF-16 code units. */
  function DescriptionErrors(d: string): seq<FieldError> {
    if d == "" then [DescriptionRequired]
    else if Text.Utf16Length(d) > MaxDescriptionLength then [DescriptionTooLong]
    else []
  }

  /** A description made only of characters outside the Basic Multilingual
      Plane (emoji, say) takes two code units each, so at most 100 of them
      fit. */
  lemma AstralDescriptionLimit(d: string)
    requires d != []
    requires forall k :: 0 <= k < |d| ==> (d[k] as int) >= 0x10000
    ensures DescriptionErrors(d) == [] <==> |d| <= MaxDescriptionLength / 2
    ensures |d| > MaxDescriptionLength / 2 ==> DescriptionErrors(d) == [DescriptionTooLong]
  {
    Text.Utf16LengthOfAstral(d);
  }

  /** The `trim` setter, applied whenever a description is assigned. */
  function TrimDescription(d: Option<string>): Option<string> {
    match d
    case Some(s) => Some(Text.Trim(s))
    case None => None
  }

  /** Full-document validation of a new expense whose owner is `owner` (the
      text to cast) and whose fields are `f`. An absent or `null` field fails
      its `required` validator; `date` cannot fail because the route
      substitutes the current time for a missing or empty one. */
  function ValidateNew(rule: CastRule, owner: string, f: Fields): seq<FieldError> {
    var d := TrimDescription(f.description);
    (if Cast(rule, owner).None? then [UserCastFailed(owner)] else [])
    + (match f.amount case Given(a) => AmountErrors(a) case _ => [AmountRequired])
    + (match f.category case None => [CategoryRequired] case Some(c) => CategoryErrors(c))
    + (match d case None => [DescriptionRequired] case Some(s) => DescriptionErrors(s))
  }

  /** The schema's extra pre-save hook: it throws only when the amount was
      modified and is negative, and otherwise hands on to the save. */
  function PreSaveHook(amountModified: bool, amount: int): (r: Option<FieldError>)
    ensures r.Some? <==> amountModified && amount < 0
    ensures r.Some? ==> r.value.Message() == "Amount cannot be negative"
  {
    if amountModified && amount < 0 then Some(AmountNegativeOnSave) else None
  }

  /** Building and saving a new document: setters and defaults, then the
      validators, then the pre-save hook (on a new document every supplied
      path counts as modified). */
  function SaveNew(rule: CastRule, owner: string, f: Fields, id: ObjectId, now: Instant)
    : Result<Expense, seq<FieldError>>
    requires IsObjectId(id)
  {
    var errors := ValidateNew(rule, owner, f);
    if errors != [] then Failure(errors)
    else
      var e := Expense(id, Cast(rule, owner).value, f.amount.value, f.category.value,
                       Text.Trim(f.description.value), f.date.GetOr(now), now, now);
      match PreSaveHook(true, e.amount)
      case Some(err) => Failure([err])
      case None => Success(e)
  }

  /** A new document is saved exactly when every path passes; the saved
      record keeps the supplied amount and category, the trimmed
      description and the supplied date (or `now`), and satisfies the schema
      invariants. The pre-save hook never decides the outcome, because the
      `min` validator has already refused a negative amount. */
  lemma SaveNewSpec(rule: CastRule, owner: string, f: Fields, id: ObjectId, now: Instant)
    requires IsObjectId(id)
    ensures SaveNew(rule, owner, f, id, now).Success? <==>
      && Cast(rule, owner).Some?
      && f.amount.Given? && f.amount.value >= 0
      && f.category.Some? && IsCategory(f.category.value)
      && f.description.Some? && Text.Trim(f.description.value) != ""
      && Text.Utf16Length(Text.Trim(f.description.value)) <= MaxDescriptionLength
    ensures SaveNew(rule, owner, f, id, now).Success? ==>
      var e := SaveNew(rule, owner, f, id, now).value;
      && Valid(e) && e.id == id && e.user == Cast(rule, owner).value
      && e.amount == f.amount.value && e.category == f.category.value
      && e.description == Text.Trim(f.description.value)
      && e.date == f.date.GetOr(now) && e.createdAt == now && e.updatedAt == now
    ensures SaveNew(rule, owner, f, id, now).Failure? ==>
      SaveNew(rule, owner, f, id, now).error == ValidateNew(rule, owner, f)
  {
    if f.description.Some? {
      Text.TrimSpec(f.description.value);
    }
    assert "" !in Categories;
  }

  lemma SavedIsValid(rule: CastRule, owner: string, f: Fields, id: ObjectId, now: Instant)
    requires IsObjectId(id)
    requires SaveNew(rule, owner, f, id, now).Success?
    ensures Valid(SaveNew(rule, owner, f, id, now).value)
    ensures SaveNew(rule, owner, f, id, now).value.id == id
  {
    SaveNewSpec(rule, owner, f, id, now);
  }

  /** A negative amount is refused with the schema's message, whatever the
      other fields hold. */
  lemma NegativeAmountRefused(rule: CastRule, owner: string, f: Fields, id: ObjectId, now: Instant)
    requires IsObjectId(id)
    requires f.amount.Given? && f.amount.value < 0
    ensures SaveNew(rule, owner, f, id, now).Failure?
    ensures AmountNegative in SaveNew(rule, owner, f, id, now).error
    ensures AmountNegative.Message() == "Amount cannot be negative"
  {
    var errors := ValidateNew(rule, owner, f);
    var pre := if Cast(rule, owner).None? then [UserCastFailed(owner)] else [];
    assert errors[|pre|] == AmountNegative;
  }

  /** The validators an update runs: only those of the paths the update sets,
      with the description trimmed first. A path set to `null` fails its
      `required` validator. */
  function ValidatePatch(f: Fields): seq<FieldError> {
    var d := TrimDescription(f.description);
    (match f.amount case Absent => [] case Null => [AmountRequired] case Given(a) => AmountErrors(a))
    + (match f.category case None => [] case Some(c) => CategoryErrors(c))
    + (match d case None => [] case Some(s) => DescriptionErrors(s))
    + (if f.date.Null? then [DateRequired] else [])
  }

  /** The document after an update: each supplied field replaces the stored
      one, `updatedAt` is refreshed, the rest is kept. */
  function ApplyPatch(e: Expense, f: Fields, now: Instant): (r: Expense)
    ensures r.id == e.id && r.user == e.user && r.createdAt == e.createdAt && r.updatedAt == now
    ensures f.amount.Given? ==> r.amount == f.amount.value
    ensures f.amount.Absent? ==> r.amount == e.amount
    ensures f.category.Some? ==> r.category == f.category.value
    ensures f.category.None? ==> r.category == e.category
    ensures f.description.Some? ==> r.description == Text.Trim(f.description.value)
    ensures f.description.None? ==> r.description == e.description
    ensures f.date.Given? ==> r.date == f.date.value
    ensures f.date.Absent? ==> r.date == e.date
  {
    e.(amount := f.amount.GetOr(e.amount),
       category := f.category.GetOr(e.category),
       description := TrimDescription(f.description).GetOr(e.description),
       date := f.date.GetOr(e.date),
       updatedAt := now)
  }

  /** An update that passes its validators keeps a valid expense valid, and
      never touches the id, the owner or the creation time. */
  lemma PatchPreservesValid(e: Expense, f: Fields, now: Instant)
    requires Valid(e)
    requires ValidatePatch(f) == []
    ensures Valid(ApplyPatch(e, f, now))
    ensures ApplyPatch(e, f, now).id == e.id
    ensures ApplyPatch(e, f, now).user == e.user
    ensures ApplyPatch(e, f, now).createdAt == e.createdAt
  {
    if f.description.Some? {
      Text.TrimSpec(f.description.value);
    }
  }

  /** An update is refused exactly when one of the supplied fields breaks its
      constraint. */
  lemma PatchErrorsSpec(f: Fields)
    ensures ValidatePatch(f) == [] <==>
      && !f.amount.Null? && !f.date.Null?
      && (f.amount.Given? ==> f.amount.value >= 0)
      && (f.category.Some? ==> IsCategory(f.category.value))
      && (f.description.Some? ==>
            Text.Trim(f.description.value) != "" && Text.Utf16Length(Text.Trim(f.description.value)) <= MaxDescriptionLength)
  {
    assert "" !in Categories;
  }
}

=== FILE: expense_routes.dfy ===
/** The `/api/expenses` routes over one shared collection of expense
    documents: create, list newest first, statistics, read, update and
    delete. The collection is a map from id to document; every route answers
    with a status and a JSON body. */
module ExpenseRoutes {
  import opened Wrappers
  import Text
  import opened Calendar
  import opened ObjectIds
  import opened ExpenseModel
  import opened Aggregation

  type Store = map<ObjectId, Expense>

  /** Every stored document is valid and filed under its own id. */
  predicate StoreInv(st: Store) {
    forall id :: id in st ==> st[id].id == id && Valid(st[id])
  }

  /** Why a request failed with status 500: the document's validation (or
      the pre-save hook) refused it, or the id in the path did not cast to an
      ObjectId. */
  datatype Cause =
    | Rejected(errors: seq<FieldError>)
    | IdCastFailed(value: string)

  /** The statistics document: grand total, count and mean of the amounts,
      then the per-category and per-month buckets. */
  datatype Stats = Stats(
    total: int,
    count: int,
    average: real,
    categoryStats: seq<Bucket<string>>,
    monthlyStats: seq<Bucket<YearMonth>>)

  datatype Body =
    | Record(expense: Expense)
    | Records(expenses: seq<Expense>)
    | StatsBody(stats: Stats)
    /** `{ msg }` */
    | Msg(msg: string)
    /** `{ message: 'Server Error', error }` */
    | ServerError(message: string, cause: Cause)

  datatype Response = Response(status: int, body: Body)

  const NotFound: Response := Response(404, Msg("Expense not found"))

  function Fail(cause: Cause): Response {
    Response(500, ServerError("Server Error", cause))
  }

  // ---------------------------------------------------------------------
  // POST /

  /** Filing a valid document under its own id keeps the store well-formed. */
  lemma StoreWith(st: Store, e: Expense)
    requires StoreInv(st) && Valid(e)
    ensures StoreInv(st[e.id := e])
  {
  }

  /** Creates an expense owned by the placeholder user, with id `id` (fresh,
      as the driver generates it) and creation time `now`. */
  function Create(rule: CastRule, st: Store, f: Fields, id: ObjectId, now: Instant): (r: (Store, Response))
    requires StoreInv(st)
    requires IsObjectId(id) && id !in st
    ensures StoreInv(r.0)
    ensures r.1.status == 201 || r.1.status == 500
    ensures r.1.status == 201 <==> SaveNew(rule, PlaceholderOwner, f, id, now).Success?
    ensures r.1.status == 201 ==>
      && r.1.body.Record? && r.1.body.expense.id == id
      && r.0.Keys == st.Keys + {id} && r.0[id] == r.1.body.expense
      && (forall k :: k in st ==> r.0[k] == st[k])
    ensures r.1.status == 201 ==> r.1.body == Record(SaveNew(rule, PlaceholderOwner, f, id, now).value)
    ensures r.1.status == 500 ==>
      r.0 == st && r.1 == Fail(Rejected(SaveNew(rule, PlaceholderOwner, f, id, now).error))
  {
    var saved := SaveNew(rule, PlaceholderOwner, f, id, now);
    if saved.Success? then
      SavedIsValid(rule, PlaceholderOwner, f, id, now);
      StoreWith(st, saved.value);
      (st[id := saved.value], Response(201, Record(saved.value)))
    else
      (st, Fail(Rejected(saved.error)))
  }

  /** With a current driver the placeholder owner never casts, so creating an
      expense always fails with status 500, whatever the body holds, and
      nothing is stored. */
  lemma CreateAlwaysFailsUnderHexOnly(st: Store, f: Fields, id: ObjectId, now: Instant)
    requires StoreInv(st)
    requires IsObjectId(id) && id !in st
    ensures Create(HexOnly, st, f, id, now).0 == st
    ensures Create(HexOnly, st, f, id, now).1 == Fail(Rejected(ValidateNew(HexOnly, PlaceholderOwner, f)))
    ensures ValidateNew(HexOnly, PlaceholderOwner, f)[0] == UserCastFailed(PlaceholderOwner)
  {
    PlaceholderCast();
  }

  /** With an older driver the placeholder casts to its own bytes, and a
      create succeeds exactly when the amount, category and description
      pass the schema; the new document is then readable under its id. */
  lemma CreateUnderLegacyCast(st: Store, f: Fields, id: ObjectId, now: Instant)
    requires StoreInv(st)
    requires IsObjectId(id) && id !in st
    ensures Create(HexOrTwelveBytes, st, f, id, now).1.status == 201 <==>
      && f.amount.Given? && f.amount.value >= 0
      && f.category.Some? && IsCategory(f.category.value)
      && f.description.Some? && Text.Trim(f.description.value) != ""
      && Text.Utf16Length(Text.Trim(f.description.value)) <= MaxDescriptionLength
    ensures Create(HexOrTwelveBytes, st, f, id, now).1.status == 201 ==>
      var r := Create(HexOrTwelveBytes, st, f, id, now);
      && r.1.body.expense.user == Text.Utf8(PlaceholderOwner)
      && GetById(HexOnly, r.0, HexEncode(id)) == Response(200, Record(r.1.body.expense))
  {
    PlaceholderCast();
    SaveNewSpec(HexOrTwelveBytes, PlaceholderOwner, f, id, now);
    CastOfHex(HexOnly, id);
  }

  // ---------------------------------------------------------------------
  // GET /

  /** Reads every stored document once, in some order. */
  method Snapshot(st: Store) returns (s: seq<Expense>)
    requires StoreInv(st)
    ensures |s| == |st|
    ensures forall e :: e in s <==> e in st.Values
    ensures forall i, j :: 0 <= i < j < |s| ==> s[i].id != s[j].id
  {
    var left := st.Keys;
    s := [];
    while left != {}
      invariant left <= st.Keys
      invariant |s| == |st.Keys| - |left|
      invariant forall i :: 0 <= i < |s| ==> s[i].id in st && s[i].id !in left && st[s[i].id] == s[i]
      invariant forall k :: k in st && k !in left ==> st[k] in s
      invariant forall i, j :: 0 <= i < j < |s| ==> s[i].id != s[j].id
      decreases |left|
    {
      var k :| k in left;
      assert st[k].id == k;
      assert forall i :: 0 <= i < |s| ==> s[i].id != k;
      s := s + [st[k]];
      left := left - {k};
    }
    forall e | e in st.Values ensures e in s {
      var k :| k in st && st[k] == e;
    }
  }

  /** Newer dates rank first. */
  function NewestFirst(e: Expense): int {
    -e.date
  }

  /** Every stored expense, newest first. */
  method List(st: Store) returns (r: Response)
    requires StoreInv(st)
    ensures r.status == 200 && r.body.Records?
    ensures |r.body.expenses| == |st|
    ensures forall e :: e in r.body.expenses <==> e in st.Values
    ensures forall i, j :: 0 <= i < j < |r.body.expenses| ==>
      r.body.expenses[i].date >= r.body.expenses[j].date && r.body.expenses[i].id != r.body.expenses[j].id
  {
    var s := Snapshot(st);
    var sorted := SortBy(s, NewestFirst);
    SortBySpec(s, NewestFirst);
    assert forall e :: e in sorted <==> e in s by {
      assert forall e :: e in sorted <==> e in multiset(sorted);
    }
    forall i, j | 0 <= i < j < |sorted| ensures sorted[i].id != sorted[j].id {
      assert sorted[i] in s && sorted[j] in s;
      assert sorted[i] in st.Values && sorted[j] in st.Values;
      if sorted[i].id == sorted[j].id {
        assert sorted[i] == st[sorted[i].id] == sorted[j];
        SortedDistinct(s, sorted, i, j);
      }
    }
    r := Response(200, Records(sorted));
  }

  /** A permutation of a list with distinct ids repeats no element. */
  lemma SortedDistinct(s: seq<Expense>, t: seq<Expense>, i: int, j: int)
    requires multiset(s) == multiset(t)
    requires forall a, b :: 0 <= a < b < |s| ==> s[a].id != s[b].id
    requires 0 <= i < j < |t|
    ensures t[i] != t[j]
  {
    if t[i] == t[j] {
      var x := t[i];
      assert t == t[..i] + [x] + t[i + 1..j] + [x] + t[j + 1..];
      assert multiset(t)[x] >= 2;
      OccursOnce(s, x);
    }
  }

  /** In a list with distinct ids an element occurs at most once. */
  lemma {:induction false} OccursOnce(s: seq<Expense>, x: Expense)
    requires forall a, b :: 0 <= a < b < |s| ==> s[a].id != s[b].id
    ensures multiset(s)[x] <= 1
  {
    if s != [] {
      assert s == [s[0]] + s[1..];
      OccursOnce(s[1..], x);
      if s[0] == x {
        forall k | 0 <= k < |s[1..]| ensures s[1..][k] != x {
          assert s[1..][k] == s[k + 1];
        }
        assert x !in s[1..];
      }
    }
  }

  // ---------------------------------------------------------------------
  // GET /stats

  /** What the statistics of a list of expenses mean. */
  predicate IsStatsOf(r: Stats, s: seq<Expense>) {
    && r.total == Sum(s)
    && r.count == |s|
    && r.average == Mean(r.total, r.count)
    && IsBreakdown(r.categoryStats, s, CategoryOf, ByTotalDescending)
    && IsBreakdown(r.monthlyStats, s, MonthOf, ByMonth)
  }

  /** The facet pipeline over the documents `s`. When there are none, the
      grand-total facet is empty and the route falls back to zeros. */
  function StatsOf(s: seq<Expense>): (r: Stats)
    ensures IsStatsOf(r, s)
  {
    CategoryBreakdownSpec(s);
    MonthlyBreakdownSpec(s);
    Stats(Sum(s), |s|, Mean(Sum(s), |s|), CategoryBreakdown(s), MonthlyBreakdown(s))
  }

  lemma StatsOfSpec(s: seq<Expense>)
    ensures IsStatsOf(StatsOf(s), s)
    ensures forall i, j :: 0 <= i < j < |StatsOf(s).categoryStats| ==>
      StatsOf(s).categoryStats[i].total >= StatsOf(s).categoryStats[j].total
    ensures forall i, j :: 0 <= i < j < |StatsOf(s).monthlyStats| ==>
      MonthIndex(StatsOf(s).monthlyStats[i].key) < MonthIndex(StatsOf(s).monthlyStats[j].key)
  {
    CategoryBreakdownSpec(s);
    MonthlyBreakdownSpec(s);
  }

  /** An empty collection reports zero total, count and average and no
      buckets. */
  lemma StatsOfNothing()
    ensures StatsOf([]) == Stats(0, 0, 0.0, [], [])
  {
  }

  /** The statistics do not depend on the order in which the documents are
      read: the totals, the count and the mean agree, both breakdowns have
      the same keys, and buckets of the same key agree. */
  lemma StatsIgnoreOrder(a: seq<Expense>, b: seq<Expense>)
    requires multiset(a) == multiset(b)
    ensures StatsOf(a).total == StatsOf(b).total
    ensures StatsOf(a).count == StatsOf(b).count
    ensures StatsOf(a).average == StatsOf(b).average
    ensures KeysOf(StatsOf(a).categoryStats) == KeysOf(StatsOf(b).categoryStats)
    ensures KeysOf(StatsOf(a).monthlyStats) == KeysOf(StatsOf(b).monthlyStats)
    ensures forall x, y :: x in StatsOf(a).categoryStats && y in StatsOf(b).categoryStats && x.key == y.key ==>
      x == y
    ensures forall x, y :: x in StatsOf(a).monthlyStats && y in StatsOf(b).monthlyStats && x.key == y.key ==>
      x == y
  {
    StatsOfSpec(a);
    StatsOfSpec(b);
    TotalPermutation(a, b, Amount);
    assert |a| == |multiset(a)| == |multiset(b)| == |b|;
    assert forall e :: e in a <==> e in b by {
      assert forall e :: e in a <==> e in multiset(a);
      assert forall e :: e in b <==> e in multiset(b);
    }
    assert KeysIn(a, CategoryOf) == KeysIn(b, CategoryOf);
    assert KeysIn(a, MonthOf) == KeysIn(b, MonthOf);
    forall x, y | x in StatsOf(a).categoryStats && y in StatsOf(b).categoryStats && x.key == y.key
      ensures x == y
    {
      TotalPermutation(a, b, AmountIf(CategoryOf, x.key));
      TotalPermutation(a, b, OneIf(CategoryOf, x.key));
    }
    forall x, y | x in StatsOf(a).monthlyStats && y in StatsOf(b).monthlyStats && x.key == y.key
      ensures x == y
    {
      TotalPermutation(a, b, AmountIf(MonthOf, x.key));
      TotalPermutation(a, b, OneIf(MonthOf, x.key));
    }
  }

  /** The statistics of every stored expense. Also returns the listing the
      pipeline read. */
  method GetStats(st: Store) returns (seen: seq<Expense>, r: Response)
    requires StoreInv(st)
    ensures |seen| == |st| && forall e :: e in seen <==> e in st.Values
    ensures r.status == 200 && r.body.StatsBody?
    ensures IsStatsOf(r.body.stats, seen)
    ensures r.body.stats.count == |st|
  {
    seen := Snapshot(st);
    StatsOfSpec(seen);
    r := Response(200, StatsBody(StatsOf(seen)));
  }

  // ---------------------------------------------------------------------
  // GET, PUT and DELETE /:id

  /** Reads one expense. The path id is cast first; a failed cast is a server
      error, not a 404. */
  function GetById(rule: CastRule, st: Store, idText: string): (r: Response)
    ensures r.status == 500 <==> Cast(rule, idText).None?
    ensures r.status == 404 <==> Cast(rule, idText).Some? && Cast(rule, idText).value !in st
    ensures r.status == 200 <==> Cast(rule, idText).Some? && Cast(rule, idText).value in st
    ensures r.status == 200 ==> r.body == Record(st[Cast(rule, idText).value])
    ensures r.status == 404 ==> r == NotFound
    ensures r.status == 500 ==> r == Fail(IdCastFailed(idText))
  {
    match Cast(rule, idText)
    case None => Fail(IdCastFailed(idText))
    case Some(id) => if id in st then Response(200, Record(st[id])) else NotFound
  }

  /** Changes the fields the body supplies, running only their validators. */
  function Update(rule: CastRule, st: Store, idText: string, f: Fields, now: Instant): (r: (Store, Response))
    requires StoreInv(st)
    ensures StoreInv(r.0)
    ensures r.1.status == 200 <==>
      Cast(rule, idText).Some? && Cast(rule, idText).value in st && ValidatePatch(f) == []
    ensures r.1.status == 404 <==> Cast(rule, idText).Some? && Cast(rule, idText).value !in st
    ensures r.1.status != 200 ==> r.0 == st
    ensures r.1.status == 404 ==> r.1 == NotFound
    ensures Cast(rule, idText).None? ==> r.1 == Fail(IdCastFailed(idText))
    ensures Cast(rule, idText).Some? && Cast(rule, idText).value in st && ValidatePatch(f) != [] ==>
      r.1 == Fail(Rejected(ValidatePatch(f)))
    ensures r.1.status == 200 ==>
      var id := Cast(rule, idText).value;
      && r.0.Keys == st.Keys
      && r.1.body == Record(r.0[id])
      && r.0[id] == ApplyPatch(st[id], f, now)
      && (forall k :: k in st && k != id ==> r.0[k] == st[k])
  {
    match Cast(rule, idText)
    case None => (st, Fail(IdCastFailed(idText)))
    case Some(id) =>
      if id !in st then (st, NotFound)
      else if ValidatePatch(f) != [] then (st, Fail(Rejected(ValidatePatch(f))))
      else
        PatchPreservesValid(st[id], f, now);
        var e := ApplyPatch(st[id], f, now);
        (st[id := e], Response(200, Record(e)))
  }

  /** Removes one expense. */
  function Delete(rule: CastRule, st: Store, idText: string): (r: (Store, Response))
    requires StoreInv(st)
    ensures StoreInv(r.0)
    ensures r.1.status == 200 <==> Cast(rule, idText).Some? && Cast(rule, idText).value in st
    ensures r.1.status == 404 <==> Cast(rule, idText).Some? && Cast(rule, idText).value !in st
    ensures r.1.status == 200 ==>
      r.1.body == Msg("Expense removed") && r.0.Keys == st.Keys - {Cast(rule, idText).value}
      && (forall k :: k in r.0 ==> r.0[k] == st[k])
    ensures r.1.status != 200 ==> r.0 == st
    ensures r.1.status == 404 ==> r.1 == NotFound
    ensures Cast(rule, idText).None? ==> r.1 == Fail(IdCastFailed(idText))
  {
    match Cast(rule, idText)
    case None => (st, Fail(IdCastFailed(idText)))
    case Some(id) =>
      if id !in st then (st, NotFound) else (map k | k in st && k != id :: st[k], Response(200, Msg("Expense removed")))
  }

  /** A deleted expense is gone: reading it, updating it or deleting it again
      answers 404. */
  lemma DeleteThenNotFound(rule: CastRule, st: Store, idText: string, f: Fields, now: Instant)
    requires StoreInv(st)
    requires Delete(rule, st, idText).1.status == 200
    ensures GetById(rule, Delete(rule, st, idText).0, idText) == NotFound
    ensures Update(rule, Delete(rule, st, idText).0, idText, f, now).1 == NotFound
    ensures Delete(rule, Delete(rule, st, idText).0, idText).1 == NotFound
  {
  }

  /** An update that sets the date to `null` is refused with a 500 listing
      "Date is required", and nothing changes. */
  lemma NullDateRefused(rule: CastRule, st: Store, idText: string, f: Fields, now: Instant)
    requires StoreInv(st)
    requires Cast(rule, idText).Some? && Cast(rule, idText).value in st
    requires f.date.Null?
    ensures var r := Update(rule, st, idText, f, now);
      r.0 == st && r.1 == Fail(Rejected(ValidatePatch(f)))
    ensures DateRequired in ValidatePatch(f)
    ensures DateRequired.Message() == "Date is required"
  {
    var errors := ValidatePatch(f);
    assert errors[|errors| - 1] == DateRequired;
  }

  /** An accepted update is what a later read returns. */
  lemma UpdateThenGet(rule: CastRule, st: Store, idText: string, f: Fields, now: Instant)
    requires StoreInv(st)
    requires Update(rule, st, idText, f, now).1.status == 200
    ensures GetById(rule, Update(rule, st, idText, f, now).0, idText) == Update(rule, st, idText, f, now).1
  {
  }
}

=== FILE: object_id.dfy ===
/** MongoDB ObjectIds: 12-byte identifiers, written as 24 lower-case hex
    digits, and the cast from a request string to an ObjectId that Mongoose
    performs for `_id` lookups and for fields declared `ObjectId`. */
module ObjectIds {
  import opened Wrappers
  import Text

  /** Twelve bytes, each in 0..255. */
  type ObjectId = seq<int>

  predicate IsObjectId(b: ObjectId) {
    |b| == 12 && forall k :: 0 <= k < |b| ==> 0 <= b[k] < 256
  }

  /** Which strings the BSON driver accepts as an ObjectId. Every version
      accepts 24 hex digits; older drivers (bson 4 and earlier) also take any
      string of 12 UTF-8 bytes as the raw bytes of the id, newer ones refuse
      it. */
  datatype CastRule = HexOnly | HexOrTwelveBytes

  /** Value of a hex digit (either case), or -1. */
  function HexValue(c: char): (v: int)
    ensures -1 <= v < 16
  {
    if '0' <= c <= '9' then c as int - '0' as int
    else if 'a' <= c <= 'f' then c as int - 'a' as int + 10
    else if 'A' <= c <= 'F' then c as int - 'A' as int + 10
    else -1
  }

  predicate IsHexText(s: string) {
    forall k :: 0 <= k < |s| ==> HexValue(s[k]) >= 0
  }

  function HexDecode(s: string): (b: seq<int>)
    requires |s| % 2 == 0 && IsHexText(s)
    ensures |b| == |s| / 2
    ensures forall k :: 0 <= k < |b| ==> 0 <= b[k] < 256
  {
    if s == [] then [] else [HexValue(s[0]) * 16 + HexValue(s[1])] + HexDecode(s[2..])
  }

  const HexDigits: string := "0123456789abcdef"

  /** `ObjectId.toString()`: two lower-case hex digits per byte. */
  function HexEncode(b: seq<int>): (s: string)
    requires forall k :: 0 <= k < |b| ==> 0 <= b[k] < 256
    ensures |s| == 2 * |b|
    ensures IsHexText(s)
  {
    if b == [] then [] else [HexDigits[b[0] / 16], HexDigits[b[0] % 16]] + HexEncode(b[1..])
  }

  lemma HexDigitValue(d: int)
    requires 0 <= d < 16
    ensures HexValue(HexDigits[d]) == d
  {
    if d < 8 {
      if d < 4 { assert d == 0 || d == 1 || d == 2 || d == 3; }
      else { assert d == 4 || d == 5 || d == 6 || d == 7; }
    } else {
      if d < 12 { assert d == 8 || d == 9 || d == 10 || d == 11; }
      else { assert d == 12 || d == 13 || d == 14 || d == 15; }
    }
  }

  /** Decoding the hex text of a byte sequence gives the bytes back. */
  lemma {:induction false} HexRoundTrip(b: seq<int>)
    requires forall k :: 0 <= k < |b| ==> 0 <= b[k] < 256
    ensures HexDecode(HexEncode(b)) == b
  {
    if b != [] {
      HexRoundTrip(b[1..]);
      var s := HexEncode(b);
      assert s[2..] == HexEncode(b[1..]);
      HexDigitValue(b[0] / 16);
      HexDigitValue(b[0] % 16);
    }
  }

  /** Casting a request string to an ObjectId. */
  function Cast(rule: CastRule, s: string): (r: Option<ObjectId>)
    ensures r.Some? ==> IsObjectId(r.value)
    ensures r.Some? <==> ((|s| == 24 && IsHexText(s))
                          || (rule == HexOrTwelveBytes && |s| == 12 && Text.IsAscii(s)))
  {
    if |s| == 24 && IsHexText(s) then Some(HexDecode(s))
    else if rule == HexOrTwelveBytes && |s| == 12 && |Text.Utf8(s)| == 12 then
      Text.Utf8OfAscii(s);
      Some(Text.Utf8(s))
    else
      Text.Utf8OfAscii(s);
      None
  }

  /** The text form of an id casts back to the same id, whatever the driver. */
  lemma CastOfHex(rule: CastRule, id: ObjectId)
    requires IsObjectId(id)
    ensures Cast(rule, HexEncode(id)) == Some(id)
  {
    HexRoundTrip(id);
  }

  /** The placeholder owner the create route stores in place of a user id. */
  const PlaceholderOwner: string := "default-user"

  /** The placeholder is twelve ASCII characters, not 24 hex digits: only an
      older driver casts it, and then to its own bytes. */
  lemma PlaceholderCast()
    ensures Cast(HexOnly, PlaceholderOwner) == None
    ensures Cast(HexOrTwelveBytes, PlaceholderOwner).Some?
  {
    assert |PlaceholderOwner| == 12;
    assert Text.IsAscii(PlaceholderOwner);
  }
}

=== FILE: palette.dfy ===
/** The category colours of the client views. Each view looks a category up
    in its own table and shows grey for anything the table does not name. */
module Palette {
  import opened ExpenseModel

  /** The fallback colour, which is also the colour of "Other". */
  const Grey: string := "#6b7280"

  /** The table of the dashboard and of the expense list. */
  const ListColors: map<string, string> := map[
    "Food" := "#22c55e",
    "Transportation" := "#0ea5e9",
    "Entertainment" := "#f59e0b",
    "Shopping" := "#ef4444",
    "Bills" := "#8b5cf6",
    "Healthcare" := "#f97316",
    "Education" := "#06b6d4",
    "Other" := Grey]

  /** The table of the reports page. */
  const ReportColors: map<string, string> := map[
    "Food" := "#4ADE80",
    "Transportation" := "#14532D",
    "Entertainment" := "#f59e0b",
    "Shopping" := "#F87171",
    "Bills" := "#8b5cf6",
    "Healthcare" := "#f97316",
    "Education" := "#06b6d4",
    "Other" := Grey]

  /** `colors[category] || '#6b7280'`: the table's colour, or grey when the
      table has none (an empty entry counts as none). */
  function ColorOf(colors: map<string, string>, category: string): (c: string)
    ensures c != ""
    ensures category in colors && colors[category] != "" ==> c == colors[category]
    ensures category !in colors ==> c == Grey
  {
    if category in colors && colors[category] != "" then colors[category] else Grey
  }

  /** Both tables name exactly the eight categories of the schema, so a
      category gets its own colour and anything else gets grey. */
  lemma TablesCoverCategories()
    ensures ListColors.Keys == set c | c in Categories
    ensures ReportColors.Keys == set c | c in Categories
    ensures forall c :: !IsCategory(c) ==> ColorOf(ListColors, c) == Grey && ColorOf(ReportColors, c) == Grey
  {
    assert ListColors.Keys == set c | c in Categories by {
      forall c | c in Categories ensures c in ListColors {
        var k :| 0 <= k < |Categories| && Categories[k] == c;
      }
    }
    assert ReportColors.Keys == set c | c in Categories by {
      forall c | c in Categories ensures c in ReportColors {
        var k :| 0 <= k < |Categories| && Categories[k] == c;
      }
    }
  }

  /** Within each table, different categories get different colours. */
  lemma ColorsDistinct(a: string, b: string)
    requires IsCategory(a) && IsCategory(b) && a != b
    ensures ColorOf(ListColors, a) != ColorOf(ListColors, b)
    ensures ColorOf(ReportColors, a) != ColorOf(ReportColors, b)
  {
    TableDistinct(ListColors, a, b);
    TableDistinct(ReportColors, a, b);
  }

  lemma TableDistinct(colors: map<string, string>, a: string, b: string)
    requires colors == ListColors || colors == ReportColors
    requires IsCategory(a) && IsCategory(b) && a != b
    ensures ColorOf(colors, a) != ColorOf(colors, b)
  {
    TablesCoverCategories();
  }

  /** The two tables agree except on Food, Transportation and Shopping. */
  lemma TablesDiffer(c: string)
    ensures ColorOf(ListColors, c) != ColorOf(ReportColors, c) <==> c in {"Food", "Transportation", "Shopping"}
  {
  }
}

=== FILE: reports.dfy ===
/** The reports page: the expense list narrowed by a date range and a
    category, the summary cards and category breakdown of what is left, and
    a six-month comparison of the whole list. */
module Reports {
  import opened Wrappers
  import opened Calendar
  import opened ExpenseModel
  import opened Aggregation

  /** The value of both selects that leaves a dimension unfiltered. */
  const All: string := "all"

  /** The earliest date the date filter keeps, or `None` when it keeps every
      date ("all", or any value the filter does not know). The cutoff is a
      copy of `now` moved back by `setHours(0, 0, 0, 0)`, `setDate(d - 7)`,
      `setMonth(m - 1)` or `setFullYear(y - 1)`: a date past the end of its
      month rolls over into the next. */
  function Cutoff(dateFilter: string, now: Instant): (r: Option<Instant>)
    ensures r.None? <==> dateFilter !in {"today", "week", "month", "year"}
    ensures r.Some? && dateFilter != "today" ==> TimeOfDay(r.value) == TimeOfDay(now)
  {
    var c := CivilFromDays(DayOf(now));
    if dateFilter == "today" then Some(At(DayOf(now), 0))
    else if dateFilter == "week" then Some(At(MakeDay(c.year, c.month - 1, c.day - 7), TimeOfDay(now)))
    else if dateFilter == "month" then Some(At(MakeDay(c.year, c.month - 2, c.day), TimeOfDay(now)))
    else if dateFilter == "year" then Some(At(MakeDay(c.year - 1, c.month - 1, c.day), TimeOfDay(now)))
    else None
  }

  /** "today" starts at midnight of the current day. */
  lemma TodayCutoff(now: Instant)
    ensures Cutoff("today", now) == Some(At(DayOf(now), 0))
    ensures Cutoff("today", now).value <= now < Cutoff("today", now).value + MsPerDay
  {
    AtDayAndTime(now);
  }

  /** "week" reaches back exactly seven days. */
  lemma WeekCutoff(now: Instant)
    ensures Cutoff("week", now) == Some(now - 7 * MsPerDay)
  {
    WeekBack(DayOf(now));
    DaysEarlier(now, 7);
  }

  /** "month" reaches back one calendar month: 28 to 31 days. */
  lemma MonthCutoff(now: Instant)
    ensures now - 31 * MsPerDay <= Cutoff("month", now).value <= now - 28 * MsPerDay
  {
    var z := DayOf(now);
    var c := CivilFromDays(z);
    var k := MakeDay(c.year, c.month - 2, c.day);
    MonthBack(z);
    assert Cutoff("month", now) == Some(At(k, TimeOfDay(now)));
    DaysEarlier(now, z - k);
  }

  /** "year" reaches back one calendar year: 365 or 366 days. */
  lemma YearCutoff(now: Instant)
    ensures now - 366 * MsPerDay <= Cutoff("year", now).value <= now - 365 * MsPerDay
  {
    var z := DayOf(now);
    var c := CivilFromDays(z);
    var k := MakeDay(c.year - 1, c.month - 1, c.day);
    YearBack(z);
    YearCutoffIs(now);
    DaysEarlier(now, z - k);
  }

  lemma YearCutoffIs(now: Instant)
    ensures var c := CivilFromDays(DayOf(now));
      Cutoff("year", now) == Some(At(MakeDay(c.year - 1, c.month - 1, c.day), TimeOfDay(now)))
  {
  }

  /** The ranges are nested: each option reaches further back than the one
      before it in the select. */
  lemma CutoffsNested(now: Instant)
    ensures Cutoff("year", now).value < Cutoff("month", now).value < Cutoff("week", now).value
              < Cutoff("today", now).value <= now
  {
    TodayCutoff(now);
    WeekCutoff(now);
    MonthCutoff(now);
    YearCutoff(now);
  }

  /** The date filter's test: on or after the cutoff. */
  predicate InRange(e: Expense, cutoff: Option<Instant>) {
    cutoff.None? || e.date >= cutoff.value
  }

  /** The category filter's test: any category under "all", else exactly
      the chosen one. */
  predicate InCategory(e: Expense, categoryFilter: string) {
    categoryFilter == All || e.category == categoryFilter
  }

  function DateTest(cutoff: Option<Instant>): Expense -> bool {
    e => InRange(e, cutoff)
  }

  function CategoryTest(categoryFilter: string): Expense -> bool {
    e => InCategory(e, categoryFilter)
  }

  /** Both tests. */
  function FilterTest(cutoff: Option<Instant>, categoryFilter: string): Expense -> bool {
    e => InRange(e, cutoff) && InCategory(e, categoryFilter)
  }

  /** `getFilteredExpenses`: the date filter first, when the date option
      has a cutoff, then the category filter, when it is not "all". */
  function Filtered(expenses: seq<Expense>, dateFilter: string, categoryFilter: string, now: Instant): (r: seq<Expense>)
    ensures |r| <= |expenses|
    ensures forall e :: e in r <==>
      e in expenses && InRange(e, Cutoff(dateFilter, now)) && InCategory(e, categoryFilter)
  {
    var cutoff := Cutoff(dateFilter, now);
    var byDate := if cutoff.Some? then Keep(expenses, DateTest(cutoff)) else expenses;
    if categoryFilter != All then Keep(byDate, CategoryTest(categoryFilter)) else byDate
  }

  /** The two filters in a row are one filter on both tests. */
  lemma FilteredIsOneFilter(expenses: seq<Expense>, dateFilter: string, categoryFilter: string, now: Instant)
    ensures Filtered(expenses, dateFilter, categoryFilter, now) ==
      Keep(expenses, FilterTest(Cutoff(dateFilter, now), categoryFilter))
  {
    var cutoff := Cutoff(dateFilter, now);
    var both := FilterTest(cutoff, categoryFilter);
    if cutoff.None? {
      if categoryFilter != All {
        KeepSame(expenses, CategoryTest(categoryFilter), both);
      } else {
        KeepAll(expenses, both);
      }
    } else if categoryFilter != All {
      KeepKeep(expenses, DateTest(cutoff), CategoryTest(categoryFilter));
      KeepSame(expenses, (e: Expense) => DateTest(cutoff)(e) && CategoryTest(categoryFilter)(e), both);
    } else {
      KeepSame(expenses, DateTest(cutoff), both);
    }
  }

  /** The filters keep the surviving expenses in their original order, and
      with both set to "all" they keep the list as it is. */
  lemma FilteredSpec(expenses: seq<Expense>, dateFilter: string, categoryFilter: string, now: Instant)
    ensures IsSubsequence(Filtered(expenses, dateFilter, categoryFilter, now), expenses)
    ensures dateFilter == All && categoryFilter == All ==> Filtered(expenses, dateFilter, categoryFilter, now) == expenses
  {
    FilteredIsOneFilter(expenses, dateFilter, categoryFilter, now);
    KeepIsSubsequence(expenses, FilterTest(Cutoff(dateFilter, now), categoryFilter));
  }

  /** Filters that agree on every expense keep the same expenses. */
  lemma {:induction false} KeepSame(s: seq<Expense>, p: Expense -> bool, q: Expense -> bool)
    requires forall e :: p(e) == q(e)
    ensures Keep(s, p) == Keep(s, q)
  {
    if s != [] {
      KeepSame(s[1..], p, q);
    }
  }

  /** `getCategoryData`: the filtered expenses grouped by category, largest
      value first. */
  function CategoryData(expenses: seq<Expense>, dateFilter: string, categoryFilter: string, now: Instant): (r: seq<Bucket<string>>)
    ensures categoryFilter != All ==> KeysOf(r) <= {categoryFilter}
  {
    var f := Filtered(expenses, dateFilter, categoryFilter, now);
    CategoryBreakdownSpec(f);
    CategoryBreakdown(f)
  }

  /** One entry per category left after filtering, each with the sum and
      number of its expenses, largest value first; under a category filter
      there is at most the chosen category. */
  lemma CategoryDataSpec(expenses: seq<Expense>, dateFilter: string, categoryFilter: string, now: Instant)
    ensures var f := Filtered(expenses, dateFilter, categoryFilter, now);
      IsBreakdown(CategoryData(expenses, dateFilter, categoryFilter, now), f, CategoryOf, ByTotalDescending)
    ensures var r := CategoryData(expenses, dateFilter, categoryFilter, now);
      forall i, j :: 0 <= i < j < |r| ==> r[i].total >= r[j].total
    ensures categoryFilter != All ==> KeysOf(CategoryData(expenses, dateFilter, categoryFilter, now)) <= {categoryFilter}
  {
    var f := Filtered(expenses, dateFilter, categoryFilter, now);
    CategoryBreakdownSpec(f);
  }

  /** The three summary cards. */
  datatype Summary = Summary(total: int, count: int, average: real)

  /** "Filtered Total", "Transactions" and "Average" of the filtered
      expenses. */
  function FilteredSummary(expenses: seq<Expense>, dateFilter: string, categoryFilter: string, now: Instant): (r: Summary)
    ensures r.count == |Filtered(expenses, dateFilter, categoryFilter, now)|
    ensures r.count > 0 ==> r.average * (r.count as real) == r.total as real
    ensures r.count == 0 ==> r.total == 0 && r.average == 0.0
  {
    var f := Filtered(expenses, dateFilter, categoryFilter, now);
    Summary(Sum(f), |f|, Mean(Sum(f), |f|))
  }

  /** The cards agree with the category breakdown: the total and the number
      of transactions are the sums over the categories shown. */
  lemma SummaryMatchesCategoryData(expenses: seq<Expense>, dateFilter: string, categoryFilter: string, now: Instant)
    ensures var r := FilteredSummary(expenses, dateFilter, categoryFilter, now);
      && r.total == SumTotals(CategoryData(expenses, dateFilter, categoryFilter, now))
      && r.count == SumCounts(CategoryData(expenses, dateFilter, categoryFilter, now))
  {
    CategoryBreakdownSpec(Filtered(expenses, dateFilter, categoryFilter, now));
  }

  /** One month of the comparison: the sum and number of the expenses dated
      in `month`. A month without expenses shows zero. */
  function MonthBucket(expenses: seq<Expense>, month: YearMonth): (b: Bucket<YearMonth>)
    ensures b.key == month
    ensures b.total == Total(expenses, AmountIf(MonthOf, month))
    ensures b.count == Total(expenses, OneIf(MonthOf, month))
    ensures b.count == 0 ==> b.total == 0
  {
    var inMonth := Keep(expenses, (e: Expense) => MonthOf(e) == month);
    KeepTotals(expenses, (e: Expense) => MonthOf(e) == month, MonthOf, month);
    Bucket(month, Sum(inMonth), |inMonth|)
  }

  /** `getMonthlyComparison`: for the current month and the five before it,
      oldest first, the sum and number of all expenses dated in that month.
      The filters play no part. */
  method MonthlyComparison(expenses: seq<Expense>, now: Instant) returns (months: seq<Bucket<YearMonth>>)
    ensures |months| == 6
    ensures forall i :: 0 <= i < 6 ==>
      ValidYearMonth(months[i].key) && MonthIndex(months[i].key) == MonthIndex(YearMonthOf(now)) - 5 + i
    ensures forall i :: 0 <= i < 6 ==>
      months[i].total == Total(expenses, AmountIf(MonthOf, months[i].key))
      && months[i].count == Total(expenses, OneIf(MonthOf, months[i].key))
    ensures forall i :: 0 <= i < 6 && months[i].count == 0 ==> months[i].total == 0
  {
    months := [];
    var i := 5;
    while i >= 0
      invariant -1 <= i <= 5
      invariant |months| == 5 - i
      invariant forall j :: 0 <= j < |months| ==>
        months[j] == MonthBucket(expenses, MonthsBefore(YearMonthOf(now), 5 - j))
    {
      months := months + [MonthBucket(expenses, MonthsBefore(YearMonthOf(now), i))];
      i := i - 1;
    }
  }
}

=== FILE: text.dfy ===
/** Plain-string helpers with the semantics of the JavaScript built-ins the
    program relies on: `String.prototype.trim`, `startsWith`, `includes`,
    `replace` with a string pattern, and the UTF-8 byte encoding used by
    `Buffer.from` and by bcrypt. */
module Text {

  /** ECMAScript WhiteSpace and LineTerminator code points: exactly what
      `trim` removes. */
  predicate IsJsWhitespace(c: char) {
    c in JsWhitespace
  }

  const JsWhitespace: set<char> := {
    '\U{0009}', '\U{000A}', '\U{000B}', '\U{000C}', '\U{000D}', '\U{0020}', '\U{00A0}', '\U{1680}',
    '\U{2000}', '\U{2001}', '\U{2002}', '\U{2003}', '\U{2004}', '\U{2005}', '\U{2006}', '\U{2007}',
    '\U{2008}', '\U{2009}', '\U{200A}', '\U{2028}', '\U{2029}', '\U{202F}', '\U{205F}', '\U{3000}',
    '\U{FEFF}'}

  /** Removes leading whitespace: the result is the longest suffix that does
      not start with whitespace. */
  function TrimStart(s: string): (r: string)
    ensures |r| <= |s| && r == s[|s| - |r|..]
    ensures r == [] || !IsJsWhitespace(r[0])
    ensures forall k :: 0 <= k < |s| - |r| ==> IsJsWhitespace(s[k])
  {
    if s == [] || !IsJsWhitespace(s[0]) then s else TrimStart(s[1..])
  }

  /** Removes trailing whitespace: the result is the longest prefix that does
      not end with whitespace. */
  function TrimEnd(s: string): (r: string)
    ensures |r| <= |s| && r == s[..|r|]
    ensures r == [] || !IsJsWhitespace(r[|r| - 1])
    ensures forall k :: |r| <= k < |s| ==> IsJsWhitespace(s[k])
  {
    if s == [] || !IsJsWhitespace(s[|s| - 1]) then s else TrimEnd(s[..|s| - 1])
  }

  function Trim(s: string): (r: string)
    ensures |r| <= |s|
    ensures IsTrimmed(r)
  {
    TrimEnd(TrimStart(s))
  }

  /** Neither end of a string is whitespace. */
  predicate IsTrimmed(s: string) {
    s == [] || (!IsJsWhitespace(s[0]) && !IsJsWhitespace(s[|s| - 1]))
  }

  /** Number of characters `trim` cuts from the front. */
  function TrimOffset(s: string): nat {
    |s| - |TrimStart(s)|
  }

  /** `trim` yields a contiguous slice of its input with no whitespace at
      either end, and only whitespace was cut away. */
  lemma TrimSpec(s: string)
    ensures TrimOffset(s) + |Trim(s)| <= |s|
    ensures Trim(s) == s[TrimOffset(s)..TrimOffset(s) + |Trim(s)|]
    ensures IsTrimmed(Trim(s))
    ensures forall k :: 0 <= k < TrimOffset(s) ==> IsJsWhitespace(s[k])
    ensures forall k :: TrimOffset(s) + |Trim(s)| <= k < |s| ==> IsJsWhitespace(s[k])
  {
    var a := TrimStart(s);
    var r := TrimEnd(a);
    var i := |s| - |a|;
    assert Trim(s) == r && TrimOffset(s) == i;
    assert a == s[i..];
    assert r == a[..|r|];
    assert a[..|r|] == s[i..i + |r|];
    if r != [] {
      assert r[0] == a[0];
    }
    forall k | 0 <= k < i
      ensures IsJsWhitespace(s[k])
    {
    }
    forall k | i + |r| <= k < |s|
      ensures IsJsWhitespace(s[k])
    {
      assert s[k] == a[k - i];
    }
  }

  /** Trimming a string that is already trimmed changes nothing; in
      particular `trim` is idempotent. */
  lemma TrimOfTrimmed(s: string)
    requires IsTrimmed(s)
    ensures Trim(s) == s
  {
  }

  lemma TrimIdempotent(s: string)
    ensures Trim(Trim(s)) == Trim(s)
  {
    TrimSpec(s);
    TrimOfTrimmed(Trim(s));
  }

  predicate StartsWith(s: string, prefix: string) {
    |prefix| <= |s| && s[..|prefix|] == prefix
  }

  /** `p` occurs in `s` starting at position `k`. */
  predicate OccursAt(s: string, p: string, k: int) {
    0 <= k && k + |p| <= |s| && s[k..k + |p|] == p
  }

  /** `s.indexOf(p)`: the first position where `p` occurs, or -1. */
  function IndexOf(s: string, p: string): (r: int)
    ensures r == -1 || OccursAt(s, p, r)
    ensures forall k :: 0 <= k && (r < 0 || k < r) ==> !OccursAt(s, p, k)
  {
    IndexFrom(s, p, 0)
  }

  function IndexFrom(s: string, p: string, from: nat): (r: int)
    ensures r == -1 || (from <= r && OccursAt(s, p, r))
    ensures forall k :: from <= k && (r < 0 || k < r) ==> !OccursAt(s, p, k)
    decreases |s| + 1 - from
  {
    if from + |p| > |s| then -1
    else if s[from..from + |p|] == p then from
    else IndexFrom(s, p, from + 1)
  }

  /** `s.includes(p)`. */
  predicate Includes(s: string, p: string) {
    IndexOf(s, p) >= 0
  }

  /** A text without the first character of a pattern does not include it. */
  lemma NotIncludedWithoutFirst(s: string, p: string)
    requires p != [] && forall k :: 0 <= k < |s| ==> s[k] != p[0]
    ensures !Includes(s, p)
  {
    forall k ensures !OccursAt(s, p, k) {
      if 0 <= k && k + |p| <= |s| {
        assert s[k..k + |p|][0] == s[k];
      }
    }
  }

  /** `s.replace(p, q)` with a string pattern: only the first occurrence is
      replaced. */
  function ReplaceFirst(s: string, p: string, q: string): string {
    var i := IndexOf(s, p);
    if i < 0 then s else s[..i] + q + s[i + |p|..]
  }

  /** When `s` starts with `p`, replacing the first `p` by nothing cuts
      exactly that prefix. */
  lemma ReplacePrefix(s: string, p: string)
    requires StartsWith(s, p)
    ensures ReplaceFirst(s, p, "") == s[|p|..]
  {
    assert OccursAt(s, p, 0);
  }

  /** UTF-8 bytes of one Unicode scalar value. */
  function Utf8Char(c: char): (r: seq<int>)
    ensures 1 <= |r| <= 4
    ensures |r| == 1 <==> (c as int) < 0x80
    ensures forall k :: 0 <= k < |r| ==> 0 <= r[k] < 256
  {
    var v := c as int;
    if v < 0x80 then [v]
    else if v < 0x800 then [0xC0 + v / 64, 0x80 + v % 64]
    else if v < 0x10000 then [0xE0 + v / 4096, 0x80 + (v / 64) % 64, 0x80 + v % 64]
    else [0xF0 + v / 262144, 0x80 + (v / 4096) % 64, 0x80 + (v / 64) % 64, 0x80 + v % 64]
  }

  /** `Buffer.from(s)`: the UTF-8 encoding of a string. */
  function Utf8(s: string): (r: seq<int>)
    ensures |r| >= |s|
    ensures forall k :: 0 <= k < |r| ==> 0 <= r[k] < 256
  {
    if s == [] then [] else Utf8(s[..|s| - 1]) + Utf8Char(s[|s| - 1])
  }

  /** The encoding of a concatenation is the concatenation of the
      encodings. */
  lemma {:induction false} Utf8Append(s: string, t: string)
    ensures Utf8(s + t) == Utf8(s) + Utf8(t)
  {
    if t == [] {
      assert s + t == s;
    } else {
      var init := t[..|t| - 1];
      var c := t[|t| - 1];
      assert t == init + [c];
      assert s + t == (s + init) + [c];
      calc {
        Utf8(s + t);
        { Utf8Snoc(s + init, c); }
        Utf8(s + init) + Utf8Char(c);
        { Utf8Append(s, init); }
        (Utf8(s) + Utf8(init)) + Utf8Char(c);
        Utf8(s) + (Utf8(init) + Utf8Char(c));
        { Utf8Snoc(init, c); }
        Utf8(s) + Utf8(t);
      }
    }
  }

  /** Appending one character appends its encoding. */
  lemma Utf8Snoc(u: string, c: char)
    ensures Utf8(u + [c]) == Utf8(u) + Utf8Char(c)
  {
    assert (u + [c])[..|u|] == u;
  }

  /** Only U+0000 encodes to a zero byte. */
  lemma {:induction false} Utf8NoZero(s: string)
    requires forall k :: 0 <= k < |s| ==> s[k] != '\0'
    ensures forall k :: 0 <= k < |Utf8(s)| ==> Utf8(s)[k] != 0
  {
    if s != [] {
      Utf8NoZero(s[..|s| - 1]);
      var c := s[|s| - 1];
      assert (c as int) >= 1;
      var r := Utf8Char(c);
      assert forall k :: 0 <= k < |r| ==> r[k] != 0;
    }
  }

  predicate IsAscii(s: string) {
    forall k :: 0 <= k < |s| ==> (s[k] as int) < 0x80
  }

  /** A string is as long in UTF-8 bytes as in characters exactly when it is
      plain ASCII, and then its bytes are its character codes. */
  lemma {:induction false} Utf8OfAscii(s: string)
    ensures |Utf8(s)| == |s| <==> IsAscii(s)
    ensures IsAscii(s) ==> Utf8(s) == seq(|s|, k requires 0 <= k < |s| => s[k] as int)
  {
    if s != [] {
      var init := s[..|s| - 1];
      Utf8OfAscii(init);
      if IsAscii(s) {
        assert IsAscii(init);
      } else if IsAscii(init) {
        assert (s[|s| - 1] as int) >= 0x80;
      }
    }
  }

  /** `s.length`: the number of UTF-16 code units, two for a character
      outside the Basic Multilingual Plane. */
  function Utf16Length(s: string): (n: nat)
    ensures |s| <= n <= 2 * |s|
  {
    if s == [] then 0 else Utf16Length(s[..|s| - 1]) + (if (s[|s| - 1] as int) < 0x10000 then 1 else 2)
  }

  /** A string of Basic Multilingual Plane characters is as long in code
      units as in characters. */
  lemma {:induction false} Utf16LengthOfBmp(s: string)
    requires forall k :: 0 <= k < |s| ==> (s[k] as int) < 0x10000
    ensures Utf16Length(s) == |s|
  {
    if s != [] {
      Utf16LengthOfBmp(s[..|s| - 1]);
    }
  }

  /** A string of characters outside the Basic Multilingual Plane takes two
      code units per character. */
  lemma {:induction false} Utf16LengthOfAstral(s: string)
    requires forall k :: 0 <= k < |s| ==> (s[k] as int) >= 0x10000
    ensures Utf16Length(s) == 2 * |s|
  {
    if s != [] {
      Utf16LengthOfAstral(s[..|s| - 1]);
    }
  }

  // ---------------------------------------------------------------------
  // Decimal numbers

  predicate IsDigit(c: char) {
    '0' <= c <= '9'
  }

  function DigitValue(c: char): (v: int)
    requires IsDigit(c)
    ensures 0 <= v < 10
  {
    c as int - '0' as int
  }

  function Digit(d: int): (c: char)
    requires 0 <= d < 10
    ensures IsDigit(c) && DigitValue(c) == d
  {
    ('0' as int + d) as char
  }

  /** `n.toString()` for a whole number: its decimal digits, without
      leading zeros. */
  function DecimalText(n: nat): (s: string)
    ensures s != [] && forall k :: 0 <= k < |s| ==> IsDigit(s[k])
  {
    if n < 10 then [Digit(n)] else DecimalText(n / 10) + [Digit(n % 10)]
  }

  /** The value of a string of decimal digits. */
  function DigitsValue(s: string): nat
    requires forall k :: 0 <= k < |s| ==> IsDigit(s[k])
  {
    if s == [] then 0 else DigitsValue(s[..|s| - 1]) * 10 + DigitValue(s[|s| - 1])
  }

  lemma {:induction false} DigitsValueOfDecimal(n: nat)
    ensures DigitsValue(DecimalText(n)) == n
  {
    if n >= 10 {
      DigitsValueOfDecimal(n / 10);
      var s := DecimalText(n);
      assert s[..|s| - 1] == DecimalText(n / 10);
    }
  }

  /** `toString` of an integer: a minus sign before the digits of a
      negative one. */
  function IntText(n: int): (s: string)
    ensures n >= 0 ==> s == DecimalText(n)
    ensures n < 0 ==> s == "-" + DecimalText(-n)
  {
    if n < 0 then "-" + DecimalText(-n) else DecimalText(n)
  }
}

=== FILE: wrappers.dfy ===
/** Failure-carrying datatypes shared by the modules of the model. */
module Wrappers {

  /** A value that may be absent: `undefined` / `null` in the program. */
  datatype Option<+T> = None | Some(value: T) {

    function GetOr(default: T): T {
      match this
      case Some(v) => v
      case None => default
    }
  }

  /** The outcome of an operation that either produces a value or fails with
      an error. */
  datatype Result<+R, +E> = Success(value: R) | Failure(error: E)
}
